=== FILE: README.md ===
# RetroQuest on-chain programs, modelled in Dafny

RetroQuest runs team retrospectives on Solana. A facilitator opens a **board** (in the native program) or a **session** (in the Anchor program). The board then walks through five stages: Setup, WriteNotes, GroupDuplicates, Vote, Discuss. Participants:

- write notes into categories;
- gather the notes into groups;
- spend a fixed budget of voting credits on the groups.

The native program also tracks **action items** after the discussion. Their nominated verifiers approve them, and the item's owner earns one point when enough of them do. A separate **session-keys** crate lets a wallet delegate signing to a short-lived key held by the browser.

This project models four parts of the system.

- **The native program's instruction decoder.** This is `NativeInstruction`, built on `Borsh` and `Utf8`. It covers the one-byte discriminator followed by a Borsh payload, and proves that every payload decodes back from its encoding.
- **The native processor.** This is `NativeState`, `NativeProcessor`, `NativeInvariants` and `NativeFindings`.
  - Each handler is a pure function from a ledger and the account list of the transaction to a new ledger or an error.
  - A ledger is a map from addresses to typed accounts.
  - Program-derived addresses (PDAs) are injective constructors of the `Address` datatype.
  - `NativeInvariants.Valid` is the consistency of the whole ledger: every record sits at its derived address, and every child names a live parent and respects the counters and budgets.
  - Every handler, and `Process` as a whole, is proved to keep that invariant, with the five account-binding checks of "## Findings" added. Each one also makes only a legal step: stages move forward, and a closed board and everything under it stay frozen.
  - `ProcessAsWritten` is the program exactly as written. `ProcessNarrowsAsWritten` shows the corrected `Process` accepts only what it accepts, with the same effect, and differs from it only on those five instructions. `NativeFindings` shows the program as written does break the invariant.
- **The session-keys crate.** This is `SessionKeys`: token derivation and layout, the validation chain, its error codes and the validity window.
- **The Anchor program.** This is `AnchorState`, `AnchorProgram`, `AnchorInvariants` and `AnchorProperties`, with the Borsh account layouts in `StateLayout`.
  - Every instruction first loads its accounts, then creates its `init` accounts, then checks its `has_one`/`constraint` clauses, and finally runs the handler's own `require!` checks. The first failure in that order names the error.
  - `AnchorInvariants.Valid` adds the counting invariant: a session's `participant_count` equals the number of participant entries for that session.
  - `AnchorProperties.Execute` dispatches the fourteen instructions. `RunKeepsValid` extends the invariant to any sequence of transactions started from an empty ledger.

`Stages` holds the five-stage enum shared by boards and sessions, with its `can_advance_to` rule. `Primitives` holds the checked `u8`/`u64` additions.

The model follows the code:

- **Validity window.** A requested session-key validity above seven days is rejected with `ValidityTooLong`, not clamped.
- **Expiry.** A token is still valid at the instant `now == valid_until`.
- **Action-item votes.** A verification vote on an item that is no longer pending is rejected, so approvals never rise past completion.
- **Owner's reward.** The reward paid to the owner is exactly one point.

## Model

| member | source | states |
|---|---|---|
| Stages.FromByte | programs/retroquest/src/instructions.rs:207-219 | a stage byte decodes exactly when it is at most 4, and to the stage with that discriminant |
| Stages.DiscriminantRoundTrip | programs/retroquest/src/state.rs:22-30 | the discriminants Setup=0..Discuss=4 are injective and decode back to their stage |
| Stages.CanAdvanceIsNext | programs/retroquest/src/state.rs:32-38 | `can_advance_to` holds exactly when the target is the next stage of the five-stage flow |
| Stages.AdvanceIsStrictlyForward | programs/retroquest/src/state/retro_session.rs:14-20 | an allowed advance strictly raises the discriminant; no stage advances to itself or backwards, and Discuss has no successor |
| Primitives.CheckedAddU8 | programs/retroquest/src/processor.rs:799-805 | the checked addition succeeds exactly when the sum fits in a `u8`, and then returns the sum |
| Primitives.CheckedAddU64 | programs/retroquest/src/instructions/vote.rs:81-85 | the checked addition succeeds exactly when the sum fits in a `u64`, and then returns the sum |
| SessionKeys.FindAddressInjective | crates/session-keys/src/lib.rs:80-95 | distinct (target program, session signer, authority) triples derive distinct token addresses |
| SessionKeys.DecodeToken | crates/session-keys/src/lib.rs:56-67 | token data decodes exactly when it has at least 105 bytes, and those bytes are the encoding of discriminator, authority, target, signer and i64 expiry; any tail is ignored |
| SessionKeys.TokenEncodingRoundTrip | crates/session-keys/src/lib.rs:70-73 | encoding a token gives exactly `LEN` = 105 bytes, and decoding them gives the token back |
| SessionKeys.Validate | crates/session-keys/src/lib.rs:119-160 | each error is raised exactly when all earlier checks pass and its own fails, in the order address, authority, target, signer, missing clock (`ClockUnavailable`), expiry (`SessionExpired`); success exactly when all pass |
| SessionKeys.ValidateSession | crates/session-keys/src/lib.rs:241-272 | owner, signature, non-empty data and decoding are checked before `validate`, and the first failing check names the error: `WrongOwner`, `MissingSessionSignature`, `InvalidToken` for empty or undecodable data, and otherwise exactly `validate`'s verdict on the decoded token |
| SessionKeys.ErrorCode | crates/session-keys/src/lib.rs:169-190 | the session errors map to the custom codes 6000..6009 in declaration order |
| SessionKeys.ErrorCodesDistinct | crates/session-keys/src/lib.rs:192-197 | no two session errors share a custom program-error code |
| SessionKeys.ValidateSignerOrSession | crates/session-keys/src/lib.rs:290-314 | a direct signature by the authority always passes; without one and without a token it is `MissingRequiredSignature`; otherwise the session check decides |
| SessionKeys.ValidateSignerOrSessionIsAuthorized | crates/session-keys/src/lib.rs:298-313 | the chain accepts exactly when the authority signed or a live, correctly derived token for this authority and program names the signer |
| SessionKeys.CalculateValidUntil | crates/session-keys/src/lib.rs:324-333 | the default is one hour; a duration over seven days is `ValidityTooLong`; otherwise the result is now plus the duration |
| SessionKeys.FreshTokenLifetime | crates/session-keys/src/lib.rs:114-116 | a fresh token is unexpired exactly up to and including now plus its duration, and is expired after seven days |
| NativeInstruction.Tag | programs/retroquest/src/instructions.rs:7-18 | every instruction has a discriminator between 0 and 11 |
| NativeInstruction.Pack | programs/retroquest/src/instructions.rs:127-186 | the wire form starts with the instruction's discriminator |
| NativeInstruction.ReadPayload | programs/retroquest/src/instructions.rs:197-293 | a payload decoded under a tag is an instruction with that tag, and the input is its encoding followed by what is left |
| NativeInstruction.Unpack | programs/retroquest/src/instructions.rs:189-298 | empty input or a tag above 11 is `InvalidInstructionData`; whatever decodes is the encoding of its result, apart from the ignored tail of the two payload-less instructions |
| NativeInstruction.PayloadlessIgnoresTrailing | programs/retroquest/src/instructions.rs:195-221 | tags 0 and 3 decode to their instruction whatever bytes follow |
| NativeInstruction.AdvanceStageByte | programs/retroquest/src/instructions.rs:207-219 | tag 2 with a byte up to 4 decodes to that stage; a larger byte is `InvalidInstructionData` |
| NativeInstruction.ReadPayloadPack | programs/retroquest/src/instructions.rs:223-293 | every payload reader inverts the payload encoding and leaves the rest untouched |
| NativeInstruction.UnpackPack | programs/retroquest/src/instructions.rs:189-298 | unpacking the encoding of any encodable instruction gives the instruction back |
| NativeProcessor.Process | programs/retroquest/src/processor.rs:20-77 | with the five account-binding checks of "## Findings" added: a decoding error fails the instruction with `InvalidInstructionData` before any handler runs |
| NativeProcessor.ProcessAsWritten | programs/retroquest/src/processor.rs:20-77 | the program exactly as written: a decoding error fails with `InvalidInstructionData` before any handler runs |
| NativeProcessor.ProcessNarrowsAsWritten | programs/retroquest/src/processor.rs:20-77 | whatever the corrected program accepts, the program as written accepts with the same effect; outside the five id-ignoring instructions the two agree exactly |
| NativeProcessor.InitFacilitatorRegistry | programs/retroquest/src/processor.rs:79-133 | succeeds exactly for a signing facilitator whose registry address is still free; creates only that registry, with a board count of 0 |
| NativeProcessor.CheckCategories | programs/retroquest/src/processor.rs:154-165 | accepts 1..5 category names of at most 32 bytes, with the named error for none, too many, or a long name |
| NativeProcessor.CreateMemberships | programs/retroquest/src/processor.rs:239-283 | succeeds exactly when each allowlisted participant has its own free membership account, and adds exactly those fresh memberships |
| NativeProcessor.CreateBoard | programs/retroquest/src/processor.rs:135-288 | succeeds exactly for a signing facilitator with valid categories, at most 30 allowlisted participants, their own registry, the next free board address and a free membership address per participant; another signer is `UnauthorizedFacilitator`. On success: a new board at the next index of the facilitator's registry, one membership per allowlisted participant, and the registry's count raised by one; nothing else changes |
| NativeProcessor.AdvanceStage | programs/retroquest/src/processor.rs:290-330 | succeeds exactly for the facilitator of an open board moving it to the next stage; only the stage and its slot change |
| NativeProcessor.CloseBoard | programs/retroquest/src/processor.rs:332-368 | succeeds exactly for the facilitator of an open board in Discuss; only the closed flag changes |
| NativeProcessor.CreateNote | programs/retroquest/src/processor.rs:370-463 | an allowlisted author of an open WriteNotes board adds a bounded note, in a valid category, at the next note address; only the board's note count and the new note change |
| NativeProcessor.CreateGroup | programs/retroquest/src/processor.rs:465-552 | an allowlisted member in GroupDuplicates adds a group with a title of at most 80 bytes at the next group address, with a zero tally |
| NativeProcessor.SetGroupTitleAsWritten | programs/retroquest/src/processor.rs:554-604 | as written, any group account passed is renamed, whichever board it belongs to |
| NativeProcessor.SetGroupTitle | programs/retroquest/src/processor.rs:554-604 | accepts exactly what the code accepts, restricted to the group `group_id` of this board |
| NativeProcessor.AssignNoteToGroupAsWritten | programs/retroquest/src/processor.rs:606-661 | as written, any ungrouped note account passed takes the group id, with any group account as witness; an already grouped note is `NoteAlreadyGrouped` |
| NativeProcessor.AssignNoteToGroup | programs/retroquest/src/processor.rs:606-661 | accepts exactly what the code accepts, with the note being `note_id` and the group being `group_id` of this board |
| NativeProcessor.UnassignNoteAsWritten | programs/retroquest/src/processor.rs:663-711 | as written, any grouped note account passed loses its group; an ungrouped one is `NoteNotGrouped` |
| NativeProcessor.UnassignNote | programs/retroquest/src/processor.rs:663-711 | accepts exactly what the code accepts, restricted to note `note_id` of this board |
| NativeProcessor.LoadOrCreateMembership | programs/retroquest/src/processor.rs:767-797 | a missing membership is created fresh with nothing spent; an existing one is loaded unchanged |
| NativeProcessor.LoadOrCreateVoteRecord | programs/retroquest/src/processor.rs:813-856 | a missing vote record is created with zero credits; an existing one is loaded unchanged |
| NativeProcessor.CastVoteAsWritten | programs/retroquest/src/processor.rs:713-871 | as written: succeeds exactly when the gates pass, delta is positive, both PDAs match, the spend stays within the budget and neither the record nor the tally overflows; zero delta is `CannotDecreaseVotes`; a spend over the budget is `InsufficientCredits`; the membership, the record and the tally of whatever group account is passed each rise by delta |
| NativeProcessor.CastVote | programs/retroquest/src/processor.rs:713-871 | accepts exactly what the code accepts, with the group being `group_id` of this board |
| NativeProcessor.CheckVerifiers | programs/retroquest/src/processor.rs:927-940 | accepts exactly when every verifier is on the allowlist and none is the owner |
| NativeProcessor.CreateActionItem | programs/retroquest/src/processor.rs:873-996 | the facilitator of an open board in Discuss adds a pending item with 1 <= threshold <= verifiers <= 7, an allowlisted owner and a description of at most 280 bytes |
| NativeProcessor.AfterVerificationVote | programs/retroquest/src/processor.rs:1107-1118 | a rejection leaves the item unchanged; an approval adds one, and completes the item exactly when the threshold is reached, stamping the slot |
| NativeProcessor.CastVerificationVoteAsWritten | programs/retroquest/src/processor.rs:998-1126 | as written: succeeds exactly when a listed verifier votes once on a pending item of any board, the board passed is closed, and the owner's membership exists if the vote completes the item; an open board is `BoardNotClosed`, a missing item account `InvalidAccountOwner`, a non-verifier `NotAVerifier`, a repeat `AlreadyVoted`, a settled item `ActionItemNotPending`; completion pays the owner's membership one point |
| NativeProcessor.CastVerificationVote | programs/retroquest/src/processor.rs:998-1126 | accepts exactly what the code accepts, with the item being `action_item_id` of this board |
| NativeInvariants.ProcessKeepsValid | programs/retroquest/src/processor.rs:20-77 | with the five account-binding checks of "## Findings" added, every successful instruction keeps the ledger consistent and makes only a legal step |
| NativeInvariants.CreateBoardKeepsValid | programs/retroquest/src/processor.rs:135-288 | board creation keeps the ledger consistent, with the memberships linked to the new board |
| NativeInvariants.CastVoteKeepsValid | programs/retroquest/src/processor.rs:713-871 | a vote keeps every spend within budget, and every record within its membership's spend and its group's tally |
| NativeInvariants.CastVerificationVoteKeepsValid | programs/retroquest/src/processor.rs:998-1126 | a verification vote keeps approvals within the verifier count and completed items completed |
| NativeInvariants.BoardsOnlyMoveForward | programs/retroquest/src/processor.rs:301-325 | after any instruction a board still exists, its stage is the same or the next one, and a closed board is unchanged |
| NativeInvariants.CompletedItemsAreFinal | programs/retroquest/src/processor.rs:1039-1041 | no instruction changes a completed action item |
| NativeInvariants.NextIdsAreFree | programs/retroquest/src/processor.rs:396-459 | in a consistent ledger, the next note, group and action-item addresses of a board are free |
| NativeInvariants.CreditsWithinBudget | programs/retroquest/src/processor.rs:799-805 | in a consistent ledger, a membership's spend is within its board's budget, and a vote record's credits are within its membership's spend and its group's tally |
| NativeInvariants.UnassignUndoesAssign | programs/retroquest/src/processor.rs:653-707 | unassigning a note just assigned restores the ledger exactly |
| NativeInvariants.RewardPaidAtMostOnce | programs/retroquest/src/processor.rs:1107-1118 | once a vote completes an item, every further verification vote on it fails |
| NativeFindings.CastVoteAsWrittenCounterexample | programs/retroquest/src/processor.rs:809 | as written, a vote on an open board raises the tally of a group on a closed board and breaks consistency; the corrected handler returns `InvalidPDA` |
| NativeFindings.AssignNoteToGroupAsWrittenCounterexample | programs/retroquest/src/processor.rs:644-657 | as written, a note takes a group id for which no group exists; the corrected handler returns `InvalidPDA` |
| NativeFindings.UnassignNoteAsWrittenCounterexample | programs/retroquest/src/processor.rs:703-707 | as written, a member of an open board unassigns a note on a closed board; the corrected handler returns `InvalidPDA` |
| NativeFindings.SetGroupTitleAsWrittenCounterexample | programs/retroquest/src/processor.rs:595 | as written, a member of an open board renames a group on a closed board; the corrected handler returns `InvalidPDA` |
| NativeFindings.CastVerificationVoteAsWrittenCounterexample | programs/retroquest/src/processor.rs:1001 | as written, an item on an open board is completed and its owner rewarded through another, closed board; the corrected handler returns `InvalidPDA` |
| StateLayout.ReadWriteStage | programs/retroquest/src/state.rs:22-30 | a stage is one byte, and decodes back from it |
| StateLayout.ReadWriteOptionU64 | programs/retroquest/src/state.rs:117 | `Option<u64>` is a tag byte followed by eight little-endian bytes when present, and decodes back |
| StateLayout.EncodeTeamRegistry | programs/retroquest/src/state.rs:41-50 | a registry always takes exactly `LEN` = 42 bytes |
| StateLayout.RetroSessionSize | programs/retroquest/src/state.rs:53-78 | a session takes 120 bytes plus its categories, which stays within `MAX_LEN` = 304 |
| StateLayout.EncodeParticipantEntry | programs/retroquest/src/state.rs:81-93 | a participant entry always takes exactly `LEN` = 69 bytes |
| StateLayout.EncodeAllowlistEntry | programs/retroquest/src/state.rs:96-106 | an allowlist entry always takes exactly `LEN` = 67 bytes |
| StateLayout.EncodeNote | programs/retroquest/src/state.rs:109-123 | a note of at most 280 content bytes fits `MAX_LEN` = 376, which a full note with a group exactly fills |
| StateLayout.EncodeGroup | programs/retroquest/src/state.rs:126-138 | a group fits `MAX_LEN` = 166 exactly when its title is at most 80 bytes |
| StateLayout.EncodeVoteRecord | programs/retroquest/src/state.rs:141-152 | a vote record always takes exactly `LEN` = 75 bytes |
| StateLayout.TeamRegistryRoundTrip | programs/retroquest/src/state.rs:41-46 | a registry decodes back from its encoding, leaving the following bytes |
| StateLayout.RetroSessionRoundTrip | programs/retroquest/src/state.rs:53-71 | a session, with its category strings, decodes back from its encoding |
| StateLayout.ParticipantEntryRoundTrip | programs/retroquest/src/state.rs:81-89 | a participant entry decodes back from its encoding |
| StateLayout.AllowlistEntryRoundTrip | programs/retroquest/src/state.rs:96-102 | an allowlist entry decodes back from its encoding |
| StateLayout.NoteRoundTrip | programs/retroquest/src/state.rs:109-119 | a note, with its content and optional group, decodes back from its encoding |
| StateLayout.GroupRoundTrip | programs/retroquest/src/state.rs:126-134 | a group decodes back from its encoding |
| StateLayout.VoteRecordRoundTrip | programs/retroquest/src/state.rs:141-148 | a vote record decodes back from its encoding |
| StateLayout.DecodeRetroSession | programs/retroquest/src/state.rs:53-71 | whatever decodes as a session is the encoding of what it decodes to |
| AnchorState.ErrorCode | programs/retroquest/src/error.rs:4-72 | the program's errors take the custom codes 6000..6022 in declaration order |
| AnchorState.ErrorCodesDistinct | programs/retroquest/src/error.rs:4-72 | no two program errors share a code |
| AnchorState.LoadSession | programs/retroquest/src/instructions/session.rs:78-87 | loading a session account fails with `AccountNotInitialized` when it is absent, and with a discriminator mismatch when it holds another record |
| AnchorProgram.InitTeamRegistry | programs/retroquest/src/instructions/registry.rs:4-27 | succeeds exactly when the authority's registry address is free, and creates only that registry with a session count of 0 |
| AnchorProgram.CheckCategories | programs/retroquest/src/instructions/session.rs:45-50 | accepts 1..5 category names of at most 32 bytes, with the named error for none, too many, or a long name |
| AnchorProgram.CreateSession | programs/retroquest/src/instructions/session.rs:15-76 | only the registry's authority creates session number `session_count`, in Setup with defaults 10 notes and 5 credits, and the count rises by one; a missing registry is `AccountNotInitialized`, a taken session address `AccountAlreadyInUse`, another authority `UnauthorizedTeamAuthority`, bad categories the category error |
| AnchorProgram.AdvanceStage | programs/retroquest/src/instructions/session.rs:78-100 | succeeds exactly for the facilitator of an open session moving to the next stage; otherwise `UnauthorizedFacilitator` or `SessionClosed` |
| AnchorProgram.CloseSession | programs/retroquest/src/instructions/session.rs:102-122 | succeeds exactly for the facilitator of an open session in Discuss; only the closed flag changes |
| AnchorProgram.AddToAllowlist | programs/retroquest/src/instructions/participant.rs:8-48 | the facilitator of an open Setup session with an allowlist adds a fresh entry; a second add of the same participant is `AccountAlreadyInUse` |
| AnchorProgram.RemoveFromAllowlist | programs/retroquest/src/instructions/participant.rs:52-82 | under the same gate, removing closes exactly that entry's account |
| AnchorProgram.JoinSessionWithAllowlist | programs/retroquest/src/instructions/participant.rs:85-137 | an allowlisted signer joins an open allowlist session below 30 participants once; the entry is created and the count rises by one |
| AnchorProgram.JoinSessionOpen | programs/retroquest/src/instructions/participant.rs:140-183 | any signer joins an open-join session below 30 participants once; the entry is created and the count rises by one |
| AnchorProgram.CreateNote | programs/retroquest/src/instructions/note.rs:8-74 | a joined participant in WriteNotes, below their quota, adds a bounded note in a valid category at the next note address; the quota check raises `MaxNotesReached` |
| AnchorProgram.CreateGroup | programs/retroquest/src/instructions/group.rs:8-62 | a joined participant in GroupDuplicates adds a group with a title of at most 80 bytes at the next group address |
| AnchorProgram.SetGroupTitle | programs/retroquest/src/instructions/group.rs:66-107 | a joined participant in GroupDuplicates renames group `group_id` of this session; nothing else changes |
| AnchorProgram.AssignNoteToGroup | programs/retroquest/src/instructions/group.rs:111-162 | an ungrouped note of this session takes an existing group of this session; an already grouped note is `NoteAlreadyGrouped` |
| AnchorProgram.UnassignNote | programs/retroquest/src/instructions/group.rs:166-207 | a grouped note of this session loses its group; an ungrouped one is `NoteNotGrouped` |
| AnchorProgram.CastVote | programs/retroquest/src/instructions/vote.rs:7-88 | a positive delta raises the voter's spend, their record for the group and the group's tally by exactly delta, within the budget; zero is `CannotDecreaseVotes`, and a spend over the budget or an overflow of the record or the tally is `InsufficientCredits` |
| AnchorInvariants.TouchedOnlyKeepsValid | programs/retroquest/src/state.rs:53-152 | a change confined to accounts that each evolve legally and stay linked keeps the whole ledger consistent |
| AnchorInvariants.CreateSessionKeepsValid | programs/retroquest/src/instructions/session.rs:44-76 | session creation keeps the ledger consistent, with the new session at its derived address and no participants |
| AnchorInvariants.JoinSessionWithAllowlistKeepsValid | programs/retroquest/src/instructions/participant.rs:119-137 | joining keeps `participant_count` equal to the number of participant entries |
| AnchorInvariants.JoinSessionOpenKeepsValid | programs/retroquest/src/instructions/participant.rs:166-183 | an open join keeps `participant_count` equal to the number of participant entries |
| AnchorInvariants.CreateNoteKeepsValid | programs/retroquest/src/instructions/note.rs:46-74 | note creation keeps notes within the quota and linked to their author and session |
| AnchorInvariants.CastVoteKeepsValid | programs/retroquest/src/instructions/vote.rs:56-88 | a vote keeps every spend within budget, and every record within its voter's spend and its group's tally |
| AnchorInvariants.RemoveFromAllowlistKeepsValid | programs/retroquest/src/instructions/participant.rs:74-82 | closing an allowlist entry keeps the ledger consistent |
| AnchorProperties.ExecuteKeepsValid | programs/retroquest/src/instructions/mod.rs:1-13 | every successful instruction of the program keeps the ledger consistent and makes only a legal step |
| AnchorProperties.RunKeepsValid | programs/retroquest/src/instructions/mod.rs:1-13 | any sequence of transactions, failed ones included, keeps the ledger consistent |
| AnchorProperties.ReachableLedgersAreValid | programs/retroquest/src/state.rs:5-11 | every ledger reachable from an empty one is consistent |
| AnchorProperties.BoundsHold | programs/retroquest/src/state.rs:5-11 | a session's participants number exactly its count, at most 30; notes and credits stay within the session's limits |
| AnchorProperties.SecondJoinFails | programs/retroquest/src/instructions/participant.rs:100-111 | after a join, joining the same session again fails |
| AnchorProperties.NotOnAllowlistNeverRaised | programs/retroquest/src/instructions/participant.rs:96 | in a consistent ledger, joining with an allowlist entry never fails with `NotOnAllowlist` |
| AnchorProperties.NextIdsAreFree | programs/retroquest/src/instructions/session.rs:73 | in a consistent ledger, the next session, note and group addresses are free |
| AnchorProperties.CreationsNeverCollide | programs/retroquest/src/instructions/note.rs:23 | in a consistent ledger, creating a session, note or group never fails because its address is taken |
| AnchorProperties.UnassignUndoesAssign | programs/retroquest/src/instructions/group.rs:152-207 | unassigning a note just assigned restores the ledger exactly |
| AnchorProperties.AssignUndoesUnassign | programs/retroquest/src/instructions/group.rs:152-207 | in a consistent ledger, assigning the old group after an unassign restores the ledger exactly |
| AnchorProperties.SessionsOnlyMoveForward | programs/retroquest/src/instructions/session.rs:89-122 | after any instruction a session still exists, its stage is the same or the next one, and a closed session is unchanged |

## Left out

- The native program's state module, which declares the board, membership and action-item records, is not part of this model. Their fields are reconstructed from the processor's struct literals and reads.
- That module also declares the caps on verifiers and on action-item description length. They are assumed to be 7 and 280.
- Counters declared `u64` (board, session, note, group and item counts) are unbounded naturals. The model does not reach 2^64 instructions, so it does not model a wrap-around or a failed `checked_add` there. The `u8` credit fields and the `u64` vote tally do carry their checked additions.
- PDA derivation is abstracted as injective address constructors. Bump seeds, the 2^-255 chance of a hash collision, rent, lamports and the system program's account creation are not modelled. The `bump` fields are left out of the records, except in the Borsh layouts.
- Account ownership and `is_initialized` are folded into the typed ledger. An account is either present with a record of one kind, or absent. Accounts owned by other programs are not modelled.
- In both programs the current slot is a parameter of each handler and `Clock::get` is assumed to succeed, so its error path is not modelled. Only the session-keys crate models an unavailable clock, as an `Option`.
- In the Anchor program, the order of constraint checks follows the declaration order of each accounts struct. Framework behaviour not visible in the program's code (signer checks, rent exemption, reallocation) is assumed to succeed.
- Anchor's own instruction dispatch (the `#[program]` module) is not part of this model. `AnchorProperties.Execute` stands in for it.
- SessionKeys.CalculateValidUntil: does not model the overflow of `now + duration` in `i64`, because the clock never comes near it.
- The session-keys crate's token creation and revocation instructions, and the `Display` text of every error, are not modelled.
- StateLayout.RetroSessionSize: the declared `MAX_LEN` (304) exceeds the largest real encoding (300). The model proves the encoding fits but not that the bound is tight.
- AnchorState.LoadVoteRecordIfAny: the code's "record not yet initialised" test on the `session` field is modelled as "no account at that address".
- UTF-8 checking of Borsh strings is modelled in `Utf8`, on byte sequences. No text is decoded into characters.

## Findings

In four native handlers the id argument is unused (`_group_id`, `_note_id`, `_action_item_id`), and in one the group account is never checked. As a result, the account whose data changes is never tied to the board that passed the checks. Each finding below has an as-written model, a lemma on a concrete two-board ledger, and a corrected handler that the rest of the model uses.

| source | as written | input that shows it | evidently intended | confidence | as-written member | corrected member |
|---|---|---|---|---|---|---|
| programs/retroquest/src/processor.rs:809 | `cast_vote` deserialises the group account without checking it belongs to the board or is `group_id` | an open board 1 in Vote, with the group account of closed board 2 | the group must be the `group_id` group of this board | not executed | NativeFindings.CastVoteAsWrittenCounterexample | NativeInvariants.CastVoteKeepsValid |
| programs/retroquest/src/processor.rs:606-661 | `assign_note_to_group` ignores `_note_id` and never ties the group account to `group_id` | a note of board 1 assigned id 7 while passing group 0 | note and group must be `note_id` and `group_id` of this board | not executed | NativeFindings.AssignNoteToGroupAsWrittenCounterexample | NativeInvariants.AssignNoteToGroupKeepsValid |
| programs/retroquest/src/processor.rs:663-711 | `unassign_note` ignores `_note_id` | open board 1, with a grouped note of closed board 2 | the note must be `note_id` of this board | not executed | NativeFindings.UnassignNoteAsWrittenCounterexample | NativeInvariants.UnassignNoteKeepsValid |
| programs/retroquest/src/processor.rs:554-604 | `set_group_title` ignores `_group_id` | open board 1, with a group of closed board 2 | the group must be `group_id` of this board | not executed | NativeFindings.SetGroupTitleAsWrittenCounterexample | NativeInvariants.SetGroupTitleKeepsValid |
| programs/retroquest/src/processor.rs:998-1126 | `cast_verification_vote` ignores `_action_item_id` and never ties the item to the board | a closed board 2 passed with a pending item of open board 1 | the item must be `action_item_id` of this board | not executed | NativeFindings.CastVerificationVoteAsWrittenCounterexample | NativeInvariants.CastVerificationVoteKeepsValid |

=== FILE: anchor_invariants.dfy ===
/**
 * What a ledger built by the Anchor variant's handlers always satisfies, the
 * proofs that each handler keeps it, and the properties that follow: the
 * participant cap, the note quota, the credit budget, one join per
 * participant, and assignment and unassignment undoing each other.
 */
module AnchorInvariants {
  import opened Wrappers
  import opened Primitives
  import opened Stages
  import opened AnchorState
  import opened AnchorProgram

  // ---------------------------------------------------------------------
  // The invariant
  // ---------------------------------------------------------------------

  /** Every record sits at the address derived from its own identity fields. */
  predicate WellPlaced(a: Address, acct: Account) {
    match acct
    case RegistryAccount(reg) => a == TeamRegistryPda(reg.teamAuthority)
    case SessionAccount(s) => a == SessionPda(s.teamAuthority, s.sessionIndex)
    case AllowlistAccount(e) => a == AllowlistPda(e.session, e.participant)
    case ParticipantAccount(e) => a == ParticipantPda(e.session, e.participant)
    case NoteAccount(n) => a == NotePda(n.session, n.noteId)
    case GroupAccount(g) => a == GroupPda(g.session, g.groupId)
    case VoteRecordAccount(v) => a == VotePda(v.session, v.participant, v.groupId)
  }

  function SessionAt(l: Ledger, a: Address): RetroSession
    requires HasSession(l, a)
  {
    l[a].session
  }

  /** The facts about one account that refer to the rest of the ledger. */
  predicate Linked(l: Ledger, acct: Account) {
    match acct
    case RegistryAccount(_) => true
    case SessionAccount(s) =>
      && s.facilitator == s.teamAuthority
      && (s.closed ==> s.stage == Discuss)
      && CategoriesValid(s.categories)
      && s.participantCount <= MAX_PARTICIPANTS
      && var rk := TeamRegistryPda(s.teamAuthority);
         rk in l && l[rk].RegistryAccount? && s.sessionIndex < l[rk].registry.sessionCount
    case AllowlistAccount(e) => HasSession(l, e.session) && e.allowed
    case ParticipantAccount(e) =>
      && HasSession(l, e.session) && e.joined
      && e.notesSubmitted <= SessionAt(l, e.session).maxNotesPerParticipant
      && e.creditsSpent <= SessionAt(l, e.session).votingCreditsPerParticipant
    case NoteAccount(n) =>
      && HasSession(l, n.session)
      && n.noteId < SessionAt(l, n.session).noteCount
      && n.categoryId < |SessionAt(l, n.session).categories|
      && |n.content| <= MAX_NOTE_CHARS
      && HasParticipant(l, ParticipantPda(n.session, n.author))
      && (n.groupId.Some? ==> HasGroup(l, GroupPda(n.session, n.groupId.value)))
    case GroupAccount(g) =>
      && HasSession(l, g.session)
      && g.groupId < SessionAt(l, g.session).groupCount
      && |g.title| <= MAX_GROUP_TITLE_CHARS
    case VoteRecordAccount(v) =>
      && HasSession(l, v.session)
      && var pk := ParticipantPda(v.session, v.participant);
         var gk := GroupPda(v.session, v.groupId);
         && HasParticipant(l, pk) && v.creditsSpent <= l[pk].participant.creditsSpent
         && HasGroup(l, gk) && v.creditsSpent <= l[gk].group.voteTally
  }

  predicate AccountOk(l: Ledger, a: Address)
    requires a in l
  {
    WellPlaced(a, l[a]) && Linked(l, l[a])
  }

  /** The participant entries of session `sk`. */
  function ParticipantsOf(l: Ledger, sk: Address): set<Address> {
    set a | a in l && a.ParticipantPda? && a.session == sk
  }

  /** Every session's `participant_count` is the number of its participant entries. */
  ghost predicate Counted(l: Ledger) {
    forall sk :: HasSession(l, sk) ==> l[sk].session.participantCount == |ParticipantsOf(l, sk)|
  }

  ghost predicate Valid(l: Ledger) {
    && (forall a :: a in l ==> AccountOk(l, a))
    && Counted(l)
  }

  // ---------------------------------------------------------------------
  // How accounts may evolve
  // ---------------------------------------------------------------------

  /** A session keeps its identity, categories and budgets; its counters only grow; it never reopens. */
  predicate SessionEvolves(s: RetroSession, s': RetroSession) {
    && s'.teamAuthority == s.teamAuthority && s'.facilitator == s.facilitator
    && s'.sessionIndex == s.sessionIndex && s'.categories == s.categories
    && s'.maxNotesPerParticipant == s.maxNotesPerParticipant
    && s'.votingCreditsPerParticipant == s.votingCreditsPerParticipant
    && s'.allowlistEnabled == s.allowlistEnabled && s'.openJoin == s.openJoin
    && s'.participantCount >= s.participantCount
    && s'.noteCount >= s.noteCount && s'.groupCount >= s.groupCount
    && (s'.stage == s.stage || CanAdvanceTo(s.stage, s'.stage))
    && (s.closed ==> s'.closed)
  }

  /** What any handler may do to an existing account. */
  predicate Evolves(x: Account, y: Account) {
    match x
    case RegistryAccount(r) =>
      y.RegistryAccount? && y.registry.teamAuthority == r.teamAuthority && y.registry.sessionCount >= r.sessionCount
    case SessionAccount(s) => y.SessionAccount? && SessionEvolves(s, y.session)
    case AllowlistAccount(_) => y == x
    case ParticipantAccount(e) =>
      && y.ParticipantAccount? && y.participant.session == e.session && y.participant.participant == e.participant
      && y.participant.joined == e.joined
      && y.participant.notesSubmitted >= e.notesSubmitted && y.participant.creditsSpent >= e.creditsSpent
    case NoteAccount(n) =>
      && y.NoteAccount? && y.note == n.(groupId := y.note.groupId)
    case GroupAccount(g) =>
      && y.GroupAccount? && y.group.session == g.session && y.group.groupId == g.groupId
      && y.group.createdBy == g.createdBy && y.group.voteTally >= g.voteTally
    case VoteRecordAccount(v) =>
      && y.VoteRecordAccount? && y.record.session == v.session && y.record.participant == v.participant
      && y.record.groupId == v.groupId && y.record.creditsSpent >= v.creditsSpent
  }

  /** Accounts only evolve; the only ones that may disappear are allowlist entries. */
  ghost predicate Extends(l: Ledger, l': Ledger) {
    forall a :: a in l ==> if a in l' then Evolves(l[a], l'[a]) else l[a].AllowlistAccount?
  }

  /** An account whose record did not change stays in order when the rest of the ledger only evolves. */
  lemma UnchangedStaysOk(l: Ledger, l': Ledger, a: Address)
    requires a in l && AccountOk(l, a) && Extends(l, l')
    requires a in l' && l'[a] == l[a]
    ensures AccountOk(l', a)
  {
    match l[a]
    case RegistryAccount(_) =>
    case SessionAccount(s) =>
      var rk := TeamRegistryPda(s.teamAuthority);
      assert Evolves(l[rk], l'[rk]);
    case AllowlistAccount(e) =>
      assert Evolves(l[e.session], l'[e.session]);
    case ParticipantAccount(e) =>
      assert Evolves(l[e.session], l'[e.session]);
    case NoteAccount(n) =>
      assert Evolves(l[n.session], l'[n.session]);
      assert Evolves(l[ParticipantPda(n.session, n.author)], l'[ParticipantPda(n.session, n.author)]);
      if n.groupId.Some? {
        assert Evolves(l[GroupPda(n.session, n.groupId.value)], l'[GroupPda(n.session, n.groupId.value)]);
      }
    case GroupAccount(g) =>
      assert Evolves(l[g.session], l'[g.session]);
    case VoteRecordAccount(v) =>
      assert Evolves(l[v.session], l'[v.session]);
      assert Evolves(l[ParticipantPda(v.session, v.participant)], l'[ParticipantPda(v.session, v.participant)]);
      assert Evolves(l[GroupPda(v.session, v.groupId)], l'[GroupPda(v.session, v.groupId)]);
  }

  /** The facts about an account that depend on its own, possibly updated, contents. */
  predicate OwnOk(l: Ledger, acct: Account) {
    match acct
    case SessionAccount(s) => (s.closed ==> s.stage == Discuss) && s.participantCount <= MAX_PARTICIPANTS
    case ParticipantAccount(e) =>
      && HasSession(l, e.session)
      && e.notesSubmitted <= SessionAt(l, e.session).maxNotesPerParticipant
      && e.creditsSpent <= SessionAt(l, e.session).votingCreditsPerParticipant
    case NoteAccount(n) => n.groupId.Some? ==> HasGroup(l, GroupPda(n.session, n.groupId.value))
    case GroupAccount(g) => |g.title| <= MAX_GROUP_TITLE_CHARS
    case VoteRecordAccount(_) => Linked(l, acct)
    case _ => true
  }

  /** An account that evolved and whose own facts hold stays in order. */
  lemma EvolvedStaysOk(l: Ledger, l': Ledger, a: Address)
    requires a in l && AccountOk(l, a) && Extends(l, l')
    requires a in l' && OwnOk(l', l'[a])
    ensures AccountOk(l', a)
  {
    assert Evolves(l[a], l'[a]);
    match l[a]
    case RegistryAccount(_) =>
    case SessionAccount(s) =>
      var rk := TeamRegistryPda(s.teamAuthority);
      assert Evolves(l[rk], l'[rk]);
    case AllowlistAccount(e) =>
      UnchangedStaysOk(l, l', a);
    case ParticipantAccount(e) =>
    case NoteAccount(n) =>
      assert Evolves(l[n.session], l'[n.session]);
      assert Evolves(l[ParticipantPda(n.session, n.author)], l'[ParticipantPda(n.session, n.author)]);
    case GroupAccount(g) =>
      assert Evolves(l[g.session], l'[g.session]);
    case VoteRecordAccount(v) =>
  }

  // ---------------------------------------------------------------------
  // Participant counts
  // ---------------------------------------------------------------------

  ghost predicate SameParticipantKeys(l: Ledger, l': Ledger) {
    forall a: Address :: a.ParticipantPda? ==> (a in l <==> a in l')
  }

  lemma SameParticipantsOf(l: Ledger, l': Ledger, sk: Address)
    requires SameParticipantKeys(l, l')
    ensures ParticipantsOf(l', sk) == ParticipantsOf(l, sk)
  {
  }

  /**
   * After an instruction that creates no participant entry, every session's
   * count is still its number of entries, provided each session's count in
   * `l'` is the number of its entries in `l`.
   */
  lemma CountedWithoutJoin(l: Ledger, l': Ledger)
    requires SameParticipantKeys(l, l')
    requires forall sk :: HasSession(l', sk) ==> l'[sk].session.participantCount == |ParticipantsOf(l, sk)|
    ensures Counted(l')
  {
    forall sk | HasSession(l', sk) ensures l'[sk].session.participantCount == |ParticipantsOf(l', sk)| {
      SameParticipantsOf(l, l', sk);
    }
  }

  /** A session not in the ledger has no participant entries in a valid ledger. */
  lemma NoParticipantsOfMissingSession(l: Ledger, sk: Address)
    requires Valid(l) && sk !in l
    ensures ParticipantsOf(l, sk) == {}
  {
    forall a | a in l && a.ParticipantPda? ensures a.session in l {
      assert AccountOk(l, a);
    }
  }

  /** Outside the touched addresses, an instruction neither creates nor deletes accounts. */
  lemma UntouchedKeys(l: Ledger, l': Ledger, touched: set<Address>, a: Address)
    requires ChangesOnly(l, l', touched) && a !in touched
    ensures a in l' <==> a in l
  {
    assert a in l'.Keys - touched <==> a in l.Keys - touched;
  }

  // ---------------------------------------------------------------------
  // One successful instruction
  // ---------------------------------------------------------------------

  /** A closed session, and every account that belongs to it. */
  predicate Frozen(l: Ledger, a: Address)
    requires a in l
  {
    match l[a]
    case RegistryAccount(_) => false
    case SessionAccount(s) => s.closed
    case AllowlistAccount(e) => HasSession(l, e.session) && SessionAt(l, e.session).closed
    case ParticipantAccount(e) => HasSession(l, e.session) && SessionAt(l, e.session).closed
    case NoteAccount(n) => HasSession(l, n.session) && SessionAt(l, n.session).closed
    case GroupAccount(g) => HasSession(l, g.session) && SessionAt(l, g.session).closed
    case VoteRecordAccount(v) => HasSession(l, v.session) && SessionAt(l, v.session).closed
  }

  /** What one successful instruction does to the ledger: accounts only evolve, and frozen ones stay as they are. */
  ghost predicate Step(l: Ledger, l': Ledger) {
    && Extends(l, l')
    && forall a :: a in l && Frozen(l, a) ==> a in l' && l'[a] == l[a]
  }

  /**
   * What an instruction must do at one address it touches for the ledger to
   * stay valid: an existing account is not frozen and only evolves (or, for
   * an allowlist entry, disappears) and keeps its own facts; a new account
   * is in order in the new ledger.
   */
  ghost predicate TouchedOk(l: Ledger, l': Ledger, a: Address) {
    && (a in l ==> !Frozen(l, a) && if a in l' then Evolves(l[a], l'[a]) else l[a].AllowlistAccount?)
    && (a in l' ==> if a in l then OwnOk(l', l'[a]) else WellPlaced(a, l'[a]) && Linked(l', l'[a]))
  }

  lemma EvolvesReflexive(x: Account)
    ensures Evolves(x, x)
  {
  }

  /** An instruction that behaves at every touched address as `TouchedOk` says keeps every account in order and is a step. */
  lemma TouchedOnlyKeepsAccountsOk(l: Ledger, l': Ledger, touched: set<Address>)
    requires Valid(l) && ChangesOnly(l, l', touched)
    requires forall a :: a in touched ==> TouchedOk(l, l', a)
    ensures forall a :: a in l' ==> AccountOk(l', a)
    ensures Step(l, l')
  {
    forall a | a in l && a !in touched ensures a in l' && Evolves(l[a], l'[a]) {
      EvolvesReflexive(l[a]);
    }
    assert Extends(l, l');
    forall a | a in l' ensures AccountOk(l', a) {
      if a in touched {
        assert TouchedOk(l, l', a);
        if a in l { EvolvedStaysOk(l, l', a); }
      } else {
        UntouchedKeys(l, l', touched, a);
        UnchangedStaysOk(l, l', a);
      }
    }
  }

  /** An instruction that touches no participant entry and keeps the counts it touches keeps every count right. */
  lemma TouchedOnlyKeepsCounts(l: Ledger, l': Ledger, touched: set<Address>)
    requires Counted(l) && ChangesOnly(l, l', touched)
    requires forall a :: a in touched && a.ParticipantPda? ==> (a in l <==> a in l')
    requires forall a :: a in touched && HasSession(l', a) ==> l'[a].session.participantCount == |ParticipantsOf(l, a)|
    ensures Counted(l')
  {
    forall a: Address | a.ParticipantPda? ensures a in l <==> a in l' {
      if a !in touched { UntouchedKeys(l, l', touched, a); }
    }
    forall a | HasSession(l', a) ensures l'[a].session.participantCount == |ParticipantsOf(l, a)| {
      if a !in touched { UntouchedKeys(l, l', touched, a); }
    }
    CountedWithoutJoin(l, l');
  }

  lemma TouchedOnlyKeepsValid(l: Ledger, l': Ledger, touched: set<Address>)
    requires Valid(l) && ChangesOnly(l, l', touched)
    requires forall a :: a in touched ==> TouchedOk(l, l', a) && (a.ParticipantPda? ==> (a in l <==> a in l'))
    requires forall a :: a in touched && HasSession(l', a) ==> l'[a].session.participantCount == |ParticipantsOf(l, a)|
    ensures Valid(l') && Step(l, l')
  {
    TouchedOnlyKeepsAccountsOk(l, l', touched);
    TouchedOnlyKeepsCounts(l, l', touched);
  }

  lemma InitTeamRegistryKeepsValid(l: Ledger, authority: Pubkey)
    requires Valid(l) && InitTeamRegistry(l, authority).Ok?
    ensures Valid(InitTeamRegistry(l, authority).value)
    ensures Step(l, InitTeamRegistry(l, authority).value)
  {
    var l' := InitTeamRegistry(l, authority).value;
    var rk := TeamRegistryPda(authority);
    assert TouchedOk(l, l', rk);
    TouchedOnlyKeepsValid(l, l', {rk});
  }

  lemma CreateSessionKeepsValid(l: Ledger, authority: Pubkey, slot: nat, config: SessionConfig)
    requires Valid(l) && CreateSession(l, authority, slot, config).Ok?
    ensures Valid(CreateSession(l, authority, slot, config).value)
    ensures Step(l, CreateSession(l, authority, slot, config).value)
  {
    var l' := CreateSession(l, authority, slot, config).value;
    var rk := TeamRegistryPda(authority);
    var sk := SessionPda(authority, l[rk].registry.sessionCount);
    assert TouchedOk(l, l', rk);
    assert TouchedOk(l, l', sk);
    NoParticipantsOfMissingSession(l, sk);
    TouchedOnlyKeepsValid(l, l', {rk, sk});
  }

  lemma AdvanceStageKeepsValid(l: Ledger, signer: Pubkey, slot: nat, sk: Address, newStage: Stage)
    requires Valid(l) && AdvanceStage(l, signer, slot, sk, newStage).Ok?
    ensures Valid(AdvanceStage(l, signer, slot, sk, newStage).value)
    ensures Step(l, AdvanceStage(l, signer, slot, sk, newStage).value)
  {
    var l' := AdvanceStage(l, signer, slot, sk, newStage).value;
    assert AccountOk(l, sk);
    assert TouchedOk(l, l', sk);
    TouchedOnlyKeepsValid(l, l', {sk});
  }

  lemma CloseSessionKeepsValid(l: Ledger, signer: Pubkey, sk: Address)
    requires Valid(l) && CloseSession(l, signer, sk).Ok?
    ensures Valid(CloseSession(l, signer, sk).value)
    ensures Step(l, CloseSession(l, signer, sk).value)
  {
    var l' := CloseSession(l, signer, sk).value;
    assert AccountOk(l, sk);
    assert TouchedOk(l, l', sk);
    TouchedOnlyKeepsValid(l, l', {sk});
  }

  lemma AddToAllowlistKeepsValid(l: Ledger, signer: Pubkey, sk: Address, participant: Pubkey)
    requires Valid(l) && AddToAllowlist(l, signer, sk, participant).Ok?
    ensures Valid(AddToAllowlist(l, signer, sk, participant).value)
    ensures Step(l, AddToAllowlist(l, signer, sk, participant).value)
  {
    var l' := AddToAllowlist(l, signer, sk, participant).value;
    var ek := AllowlistPda(sk, participant);
    assert TouchedOk(l, l', ek);
    TouchedOnlyKeepsValid(l, l', {ek});
  }

  lemma RemoveFromAllowlistKeepsValid(l: Ledger, signer: Pubkey, sk: Address, participant: Pubkey)
    requires Valid(l) && RemoveFromAllowlist(l, signer, sk, participant).Ok?
    ensures Valid(RemoveFromAllowlist(l, signer, sk, participant).value)
    ensures Step(l, RemoveFromAllowlist(l, signer, sk, participant).value)
  {
    var l' := RemoveFromAllowlist(l, signer, sk, participant).value;
    var ek := AllowlistPda(sk, participant);
    assert AccountOk(l, ek);
    assert TouchedOk(l, l', ek);
    TouchedOnlyKeepsValid(l, l', {ek});
  }

  /** The two joins share their effect, so they share this proof. */
  lemma JoinedKeepsValid(l: Ledger, l': Ledger, sk: Address, signer: Pubkey)
    requires Valid(l) && Joined(l, l', sk, signer)
    ensures Valid(l') && Step(l, l')
  {
    var pk := ParticipantPda(sk, signer);
    assert AccountOk(l, sk);
    assert TouchedOk(l, l', sk);
    assert TouchedOk(l, l', pk);
    TouchedOnlyKeepsAccountsOk(l, l', {sk, pk});
    JoinedKeepsCounts(l, l', sk, signer);
  }

  /** Adding participant entry `pk` to a ledger adds it to its session's entries and to no other session's. */
  lemma ParticipantsAfterAdding(l: Ledger, l': Ledger, sk: Address, pk: Address, s: Address)
    requires pk.ParticipantPda? && pk.session == sk
    requires ChangesOnly(l, l', {sk, pk}) && sk in l && sk in l' && pk !in l && pk in l'
    ensures ParticipantsOf(l', s) == if s == sk then ParticipantsOf(l, s) + {pk} else ParticipantsOf(l, s)
  {
    forall a: Address | a.ParticipantPda? && a != pk && a != sk ensures a in l' <==> a in l {
      UntouchedKeys(l, l', {sk, pk}, a);
    }
  }

  lemma JoinedKeepsCounts(l: Ledger, l': Ledger, sk: Address, signer: Pubkey)
    requires Counted(l) && Joined(l, l', sk, signer)
    ensures Counted(l')
  {
    var pk := ParticipantPda(sk, signer);
    forall s | HasSession(l', s) ensures l'[s].session.participantCount == |ParticipantsOf(l', s)| {
      ParticipantsAfterAdding(l, l', sk, pk, s);
      if s != sk {
        assert s != pk;
        UntouchedKeys(l, l', {sk, pk}, s);
        assert l'[s] == l[s];
      } else {
        assert pk !in ParticipantsOf(l, s);
      }
    }
  }

  lemma JoinSessionWithAllowlistKeepsValid(l: Ledger, signer: Pubkey, sk: Address)
    requires Valid(l) && JoinSessionWithAllowlist(l, signer, sk).Ok?
    ensures Valid(JoinSessionWithAllowlist(l, signer, sk).value)
    ensures Step(l, JoinSessionWithAllowlist(l, signer, sk).value)
  {
    JoinedKeepsValid(l, JoinSessionWithAllowlist(l, signer, sk).value, sk, signer);
  }

  lemma JoinSessionOpenKeepsValid(l: Ledger, signer: Pubkey, sk: Address)
    requires Valid(l) && JoinSessionOpen(l, signer, sk).Ok?
    ensures Valid(JoinSessionOpen(l, signer, sk).value)
    ensures Step(l, JoinSessionOpen(l, signer, sk).value)
  {
    JoinedKeepsValid(l, JoinSessionOpen(l, signer, sk).value, sk, signer);
  }

  lemma CreateNoteKeepsValid(l: Ledger, signer: Pubkey, slot: nat, sk: Address, categoryId: U8, content: Bytes)
    requires Valid(l) && CreateNote(l, signer, slot, sk, categoryId, content).Ok?
    ensures Valid(CreateNote(l, signer, slot, sk, categoryId, content).value)
    ensures Step(l, CreateNote(l, signer, slot, sk, categoryId, content).value)
  {
    var l' := CreateNote(l, signer, slot, sk, categoryId, content).value;
    var pk := ParticipantPda(sk, signer);
    var nk := NotePda(sk, l[sk].session.noteCount);
    assert AccountOk(l, sk) && AccountOk(l, pk);
    assert TouchedOk(l, l', sk);
    assert TouchedOk(l, l', pk);
    assert TouchedOk(l, l', nk);
    TouchedOnlyKeepsValid(l, l', {sk, pk, nk});
  }

  lemma CreateGroupKeepsValid(l: Ledger, signer: Pubkey, sk: Address, title: Bytes)
    requires Valid(l) && CreateGroup(l, signer, sk, title).Ok?
    ensures Valid(CreateGroup(l, signer, sk, title).value)
    ensures Step(l, CreateGroup(l, signer, sk, title).value)
  {
    var l' := CreateGroup(l, signer, sk, title).value;
    var gk := GroupPda(sk, l[sk].session.groupCount);
    assert AccountOk(l, sk);
    assert TouchedOk(l, l', sk);
    assert TouchedOk(l, l', gk);
    TouchedOnlyKeepsValid(l, l', {sk, gk});
  }

  lemma SetGroupTitleKeepsValid(l: Ledger, signer: Pubkey, sk: Address, groupId: nat, title: Bytes)
    requires Valid(l) && SetGroupTitle(l, signer, sk, groupId, title).Ok?
    ensures Valid(SetGroupTitle(l, signer, sk, groupId, title).value)
    ensures Step(l, SetGroupTitle(l, signer, sk, groupId, title).value)
  {
    var l' := SetGroupTitle(l, signer, sk, groupId, title).value;
    var gk := GroupPda(sk, groupId);
    assert AccountOk(l, gk);
    assert TouchedOk(l, l', gk);
    TouchedOnlyKeepsValid(l, l', {gk});
  }

  lemma AssignNoteToGroupKeepsValid(l: Ledger, signer: Pubkey, sk: Address, noteId: nat, groupId: nat)
    requires Valid(l) && AssignNoteToGroup(l, signer, sk, noteId, groupId).Ok?
    ensures Valid(AssignNoteToGroup(l, signer, sk, noteId, groupId).value)
    ensures Step(l, AssignNoteToGroup(l, signer, sk, noteId, groupId).value)
  {
    var l' := AssignNoteToGroup(l, signer, sk, noteId, groupId).value;
    var nk := NotePda(sk, noteId);
    assert AccountOk(l, nk);
    assert TouchedOk(l, l', nk);
    TouchedOnlyKeepsValid(l, l', {nk});
  }

  lemma UnassignNoteKeepsValid(l: Ledger, signer: Pubkey, sk: Address, noteId: nat)
    requires Valid(l) && UnassignNote(l, signer, sk, noteId).Ok?
    ensures Valid(UnassignNote(l, signer, sk, noteId).value)
    ensures Step(l, UnassignNote(l, signer, sk, noteId).value)
  {
    var l' := UnassignNote(l, signer, sk, noteId).value;
    var nk := NotePda(sk, noteId);
    assert AccountOk(l, nk);
    assert TouchedOk(l, l', nk);
    TouchedOnlyKeepsValid(l, l', {nk});
  }

  /** What a successful vote does, as `CastVote` promises it. */
  ghost predicate VoteUpdate(l: Ledger, l': Ledger, sk: Address, signer: Pubkey, groupId: nat, delta: U8) {
    && MemberGate(l, sk, signer, Vote)
    && var pk := ParticipantPda(sk, signer);
       var gk := GroupPda(sk, groupId);
       var vk := VotePda(sk, signer, groupId);
       var e := l[pk].participant;
       var v := RecordBefore(l, sk, signer, groupId);
       && HasGroup(l, gk) && (vk !in l || l[vk].VoteRecordAccount?)
       && var g := l[gk].group;
          && ChangesOnly(l, l', {pk, gk, vk})
          && e.creditsSpent + delta <= l[sk].session.votingCreditsPerParticipant
          && v.creditsSpent + delta < U8_LIMIT && g.voteTally + delta < U64_LIMIT
          && pk in l' && l'[pk] == ParticipantAccount(e.(creditsSpent := e.creditsSpent + delta))
          && gk in l' && l'[gk] == GroupAccount(g.(voteTally := g.voteTally + delta))
          && vk in l' && l'[vk] == VoteRecordAccount(v.(creditsSpent := v.creditsSpent + delta))
  }

  lemma VoteUpdateKeepsValid(l: Ledger, l': Ledger, sk: Address, signer: Pubkey, groupId: nat, delta: U8)
    requires Valid(l) && VoteUpdate(l, l', sk, signer, groupId, delta)
    ensures Valid(l') && Step(l, l')
  {
    var pk := ParticipantPda(sk, signer);
    var gk := GroupPda(sk, groupId);
    var vk := VotePda(sk, signer, groupId);
    assert AccountOk(l, pk) && AccountOk(l, gk);
    if vk in l { assert AccountOk(l, vk); }
    assert TouchedOk(l, l', pk);
    assert TouchedOk(l, l', gk);
    assert TouchedOk(l, l', vk);
    TouchedOnlyKeepsValid(l, l', {pk, gk, vk});
  }

  lemma CastVoteKeepsValid(l: Ledger, signer: Pubkey, sk: Address, groupId: nat, delta: U8)
    requires Valid(l) && CastVote(l, signer, sk, groupId, delta).Ok?
    ensures Valid(CastVote(l, signer, sk, groupId, delta).value)
    ensures Step(l, CastVote(l, signer, sk, groupId, delta).value)
  {
    VoteUpdateKeepsValid(l, CastVote(l, signer, sk, groupId, delta).value, sk, signer, groupId, delta);
  }
}

=== FILE: anchor_program.dfy ===
/**
 * The Anchor variant's instruction handlers, each a pure function from the
 * ledger, the signer's key, the session the transaction names, the current
 * slot and the arguments to the new ledger or the first error.
 *
 * Every other account an instruction names is located by its seeds, which
 * the model computes from the same inputs. The checks run in the order the
 * framework's account validation runs them, then the handler's own:
 *   1. every account that is not being created is loaded, in declaration
 *      order (`AccountNotInitialized`, `AccountDiscriminatorMismatch`);
 *   2. every `init` / `init_if_needed` account is created, in declaration
 *      order (`AccountAlreadyInUse`);
 *   3. the `has_one` / `constraint` checks of the loaded accounts, in
 *      declaration order;
 *   4. the handler's `require!`s, in program order.
 * A failed transaction leaves the ledger as it was.
 */
module AnchorProgram {
  import opened Wrappers
  import opened Primitives
  import opened Stages
  import opened AnchorState

  /** A checked addition's failure as a program error. */
  function OrFail<T>(o: Option<T>, e: RetroError): (r: Result<T, AnchorError>)
    ensures r.Ok? <==> o.Some?
    ensures r.Ok? ==> r.value == o.value
    ensures r.Err? ==> r.error == Program(e)
  {
    match o
    case Some(v) => Ok(v)
    case None => Err(Program(e))
  }

  // ---------------------------------------------------------------------
  // Registry and session lifecycle
  // ---------------------------------------------------------------------

  /** One registry per authority, at the address its key alone derives. */
  function InitTeamRegistry(l: Ledger, authority: Pubkey): (r: Result<Ledger, AnchorError>)
    ensures r.Ok? <==> TeamRegistryPda(authority) !in l
    ensures r.Err? ==> r.error == AccountAlreadyInUse
    ensures r.Ok? ==> && ChangesOnly(l, r.value, {TeamRegistryPda(authority)})
                      && TeamRegistryPda(authority) in r.value
                      && r.value[TeamRegistryPda(authority)] == RegistryAccount(TeamRegistry(authority, 0))
  {
    var key := TeamRegistryPda(authority);
    var _ :- CheckUnused(l, key);
    Ok(l[key := RegistryAccount(TeamRegistry(authority, 0))])
  }

  datatype SessionConfig = SessionConfig(
    categories: seq<Bytes>,
    maxNotesPerParticipant: Option<U8>,
    votingCreditsPerParticipant: Option<U8>,
    allowlistEnabled: bool,
    openJoin: bool)

  predicate CategoriesValid(categories: seq<Bytes>) {
    && 0 < |categories| <= MAX_CATEGORIES
    && forall i :: 0 <= i < |categories| ==> |categories[i]| <= MAX_CATEGORY_NAME_LEN
  }

  /** The category checks of session creation, in order. */
  function CheckCategories(categories: seq<Bytes>): (r: Result<(), AnchorError>)
    ensures r.Ok? <==> CategoriesValid(categories)
    ensures |categories| == 0 ==> r == Err(Program(NoCategoriesSpecified))
    ensures |categories| > MAX_CATEGORIES ==> r == Err(Program(TooManyCategories))
    ensures 0 < |categories| <= MAX_CATEGORIES && !CategoriesValid(categories) ==> r == Err(Program(CategoryNameTooLong))
  {
    var _ :- Require(|categories| != 0, NoCategoriesSpecified);
    var _ :- Require(|categories| <= MAX_CATEGORIES, TooManyCategories);
    Require(forall i :: 0 <= i < |categories| ==> |categories[i]| <= MAX_CATEGORY_NAME_LEN, CategoryNameTooLong)
  }

  function NewSession(authority: Pubkey, index: nat, config: SessionConfig, slot: nat): RetroSession {
    RetroSession(
      authority, authority, index, Setup, false, config.categories,
      config.maxNotesPerParticipant.GetOr(MAX_NOTES_PER_PARTICIPANT),
      config.votingCreditsPerParticipant.GetOr(VOTING_CREDITS_DEFAULT),
      config.allowlistEnabled, config.openJoin, 0, 0, 0, slot, slot)
  }

  /**
   * Creates session number `session_count` of the authority's registry and
   * counts it. Only the registry's own authority can: anyone else's key
   * derives a different registry address.
   */
  function CreateSession(l: Ledger, authority: Pubkey, slot: nat, config: SessionConfig): (r: Result<Ledger, AnchorError>)
    ensures r.Ok? <==> && var rk := TeamRegistryPda(authority);
                         && rk in l && l[rk].RegistryAccount?
                         && l[rk].registry.teamAuthority == authority
                         && SessionPda(authority, l[rk].registry.sessionCount) !in l
                         && CategoriesValid(config.categories)
    ensures r.Ok? ==> && var rk := TeamRegistryPda(authority);
                         var reg := l[rk].registry;
                         var sk := SessionPda(authority, reg.sessionCount);
                         && ChangesOnly(l, r.value, {rk, sk})
                         && rk in r.value && r.value[rk] == RegistryAccount(reg.(sessionCount := reg.sessionCount + 1))
                         && sk in r.value && r.value[sk].SessionAccount?
                         && var s := r.value[sk].session;
                            && s.teamAuthority == authority && s.facilitator == authority
                            && s.sessionIndex == reg.sessionCount
                            && s.stage == Setup && !s.closed && s.categories == config.categories
                            && s.participantCount == 0 && s.noteCount == 0 && s.groupCount == 0
                            && s.maxNotesPerParticipant == config.maxNotesPerParticipant.GetOr(10)
                            && s.votingCreditsPerParticipant == config.votingCreditsPerParticipant.GetOr(5)
                            && s.allowlistEnabled == config.allowlistEnabled && s.openJoin == config.openJoin
                            && s.createdAtSlot == slot && s.stageChangedAtSlot == slot
    ensures TeamRegistryPda(authority) !in l ==> r == Err(AccountNotInitialized)
    ensures && var rk := TeamRegistryPda(authority);
            && rk in l && l[rk].RegistryAccount?
            && SessionPda(authority, l[rk].registry.sessionCount) in l
            ==> r == Err(AccountAlreadyInUse)
    ensures && var rk := TeamRegistryPda(authority);
            && rk in l && l[rk].RegistryAccount?
            && SessionPda(authority, l[rk].registry.sessionCount) !in l
            && l[rk].registry.teamAuthority != authority
            ==> r == Err(Program(UnauthorizedTeamAuthority))
    ensures && var rk := TeamRegistryPda(authority);
            && rk in l && l[rk].RegistryAccount?
            && SessionPda(authority, l[rk].registry.sessionCount) !in l
            && l[rk].registry.teamAuthority == authority
            && CheckCategories(config.categories).Err?
            ==> r == Err(CheckCategories(config.categories).error)
  {
    var rk := TeamRegistryPda(authority);
    var registry :- LoadRegistry(l, rk);
    var sk := SessionPda(authority, registry.sessionCount);
    var _ :- CheckUnused(l, sk);
    var _ :- Require(registry.teamAuthority == authority, UnauthorizedTeamAuthority);
    var _ :- CheckCategories(config.categories);
    var session := NewSession(authority, registry.sessionCount, config, slot);
    Ok(l[sk := SessionAccount(session)][rk := RegistryAccount(registry.(sessionCount := registry.sessionCount + 1))])
  }

  /** Only the facilitator moves an open session on, and only to the next stage. */
  function AdvanceStage(l: Ledger, signer: Pubkey, slot: nat, sk: Address, newStage: Stage): (r: Result<Ledger, AnchorError>)
    ensures r.Ok? <==> && HasSession(l, sk)
                       && var s := l[sk].session;
                          s.facilitator == signer && !s.closed && CanAdvanceTo(s.stage, newStage)
    ensures HasSession(l, sk) && l[sk].session.facilitator != signer ==> r == Err(Program(UnauthorizedFacilitator))
    ensures HasSession(l, sk) && l[sk].session.facilitator == signer && l[sk].session.closed ==> r == Err(Program(SessionClosed))
    ensures r.Ok? ==> && ChangesOnly(l, r.value, {sk})
                      && var s := l[sk].session;
                         sk in r.value && r.value[sk] == SessionAccount(s.(stage := newStage, stageChangedAtSlot := slot))
  {
    var session :- LoadSession(l, sk);
    var _ :- Require(session.facilitator == signer, UnauthorizedFacilitator);
    var _ :- Require(!session.closed, SessionClosed);
    var _ :- Require(CanAdvanceTo(session.stage, newStage), InvalidStageTransition);
    Ok(l[sk := SessionAccount(session.(stage := newStage, stageChangedAtSlot := slot))])
  }

  /** Only the facilitator closes a session, once, and only from the discussion stage. */
  function CloseSession(l: Ledger, signer: Pubkey, sk: Address): (r: Result<Ledger, AnchorError>)
    ensures r.Ok? <==> && HasSession(l, sk)
                       && var s := l[sk].session;
                          s.facilitator == signer && !s.closed && s.stage == Discuss
    ensures HasSession(l, sk) && l[sk].session.facilitator == signer && l[sk].session.closed ==> r == Err(Program(SessionClosed))
    ensures r.Ok? ==> && ChangesOnly(l, r.value, {sk})
                      && sk in r.value && r.value[sk] == SessionAccount(l[sk].session.(closed := true))
  {
    var session :- LoadSession(l, sk);
    var _ :- Require(session.facilitator == signer, UnauthorizedFacilitator);
    var _ :- Require(!session.closed, SessionClosed);
    var _ :- Require(session.stage == Discuss, InvalidStage);
    Ok(l[sk := SessionAccount(session.(closed := true))])
  }

  // ---------------------------------------------------------------------
  // Allowlist and joining
  // ---------------------------------------------------------------------

  /** The gate both allowlist edits share: facilitator, open session, setup stage, allowlist enabled. */
  predicate AllowlistEditable(s: RetroSession, signer: Pubkey) {
    s.facilitator == signer && !s.closed && s.stage == Setup && s.allowlistEnabled
  }

  function AddToAllowlist(l: Ledger, signer: Pubkey, sk: Address, participant: Pubkey): (r: Result<Ledger, AnchorError>)
    ensures r.Ok? <==> && HasSession(l, sk) && AllowlistPda(sk, participant) !in l
                       && AllowlistEditable(l[sk].session, signer)
    ensures HasSession(l, sk) && AllowlistPda(sk, participant) in l ==> r == Err(AccountAlreadyInUse)
    ensures r.Ok? ==> && ChangesOnly(l, r.value, {AllowlistPda(sk, participant)})
                      && AllowlistPda(sk, participant) in r.value
                      && r.value[AllowlistPda(sk, participant)] == AllowlistAccount(AllowlistEntry(sk, participant, true))
  {
    var session :- LoadSession(l, sk);
    var ek := AllowlistPda(sk, participant);
    var _ :- CheckUnused(l, ek);
    var _ :- Require(session.facilitator == signer, UnauthorizedFacilitator);
    var _ :- Require(!session.closed, SessionClosed);
    var _ :- Require(session.stage == Setup, InvalidStage);
    var _ :- Require(session.allowlistEnabled, AllowlistDisabled);
    Ok(l[ek := AllowlistAccount(AllowlistEntry(sk, participant, true))])
  }

  /** Closes the participant's allowlist entry; a participant who already joined stays joined. */
  function RemoveFromAllowlist(l: Ledger, signer: Pubkey, sk: Address, participant: Pubkey): (r: Result<Ledger, AnchorError>)
    ensures r.Ok? <==> && HasSession(l, sk)
                       && AllowlistPda(sk, participant) in l && l[AllowlistPda(sk, participant)].AllowlistAccount?
                       && AllowlistEditable(l[sk].session, signer)
    ensures HasSession(l, sk) && AllowlistPda(sk, participant) !in l ==> r == Err(AccountNotInitialized)
    ensures r.Ok? ==> && ChangesOnly(l, r.value, {AllowlistPda(sk, participant)})
                      && AllowlistPda(sk, participant) !in r.value
  {
    var session :- LoadSession(l, sk);
    var ek := AllowlistPda(sk, participant);
    var _ :- LoadAllowlistEntry(l, ek);
    var _ :- Require(session.facilitator == signer, UnauthorizedFacilitator);
    var _ :- Require(!session.closed, SessionClosed);
    var _ :- Require(session.stage == Setup, InvalidStage);
    var _ :- Require(session.allowlistEnabled, AllowlistDisabled);
    Ok(l - {ek})
  }

  function NewParticipant(sk: Address, participant: Pubkey): ParticipantEntry {
    ParticipantEntry(sk, participant, true, 0, 0)
  }

  /** The common effect of both joins: a fresh entry, and one more participant counted. */
  predicate Joined(l: Ledger, l': Ledger, sk: Address, signer: Pubkey) {
    && HasSession(l, sk)
    && var s := l[sk].session;
       var pk := ParticipantPda(sk, signer);
       && ChangesOnly(l, l', {sk, pk})
       && pk !in l && pk in l' && l'[pk] == ParticipantAccount(NewParticipant(sk, signer))
       && sk in l' && l'[sk] == SessionAccount(s.(participantCount := s.participantCount + 1))
       && !s.closed && s.participantCount < MAX_PARTICIPANTS
  }

  /** Joining through an allowlist entry. The session's stage is not checked. */
  function JoinSessionWithAllowlist(l: Ledger, signer: Pubkey, sk: Address): (r: Result<Ledger, AnchorError>)
    ensures r.Ok? <==> && HasSession(l, sk)
                       && var ak := AllowlistPda(sk, signer);
                          var s := l[sk].session;
                          && ak in l && l[ak].AllowlistAccount? && l[ak].allowlist.allowed
                          && ParticipantPda(sk, signer) !in l
                          && !s.closed && s.allowlistEnabled && s.participantCount < MAX_PARTICIPANTS
    ensures HasSession(l, sk) && AllowlistPda(sk, signer) !in l ==> r == Err(AccountNotInitialized)
    ensures && HasSession(l, sk) && AllowlistPda(sk, signer) in l && l[AllowlistPda(sk, signer)].AllowlistAccount?
            && ParticipantPda(sk, signer) in l
            ==> r == Err(AccountAlreadyInUse)
    ensures r.Ok? ==> Joined(l, r.value, sk, signer)
  {
    var session :- LoadSession(l, sk);
    var allow :- LoadAllowlistEntry(l, AllowlistPda(sk, signer));
    var pk := ParticipantPda(sk, signer);
    var _ :- CheckUnused(l, pk);
    var _ :- Require(allow.allowed, NotOnAllowlist);
    var _ :- Require(!session.closed, SessionClosed);
    var _ :- Require(session.allowlistEnabled, AllowlistDisabled);
    var _ :- Require(session.participantCount < MAX_PARTICIPANTS, MaxParticipantsReached);
    Ok(l[pk := ParticipantAccount(NewParticipant(sk, signer))]
        [sk := SessionAccount(session.(participantCount := session.participantCount + 1))])
  }

  /** Joining a session that admits anyone. The session's stage is not checked. */
  function JoinSessionOpen(l: Ledger, signer: Pubkey, sk: Address): (r: Result<Ledger, AnchorError>)
    ensures r.Ok? <==> && HasSession(l, sk)
                       && var s := l[sk].session;
                          && ParticipantPda(sk, signer) !in l
                          && s.openJoin && !s.closed && s.participantCount < MAX_PARTICIPANTS
    ensures HasSession(l, sk) && ParticipantPda(sk, signer) in l ==> r == Err(AccountAlreadyInUse)
    ensures r.Ok? ==> Joined(l, r.value, sk, signer)
  {
    var session :- LoadSession(l, sk);
    var pk := ParticipantPda(sk, signer);
    var _ :- CheckUnused(l, pk);
    var _ :- Require(session.openJoin, OpenJoinDisabled);
    var _ :- Require(!session.closed, SessionClosed);
    var _ :- Require(session.participantCount < MAX_PARTICIPANTS, MaxParticipantsReached);
    Ok(l[pk := ParticipantAccount(NewParticipant(sk, signer))]
        [sk := SessionAccount(session.(participantCount := session.participantCount + 1))])
  }

  // ---------------------------------------------------------------------
  // Notes and groups
  // ---------------------------------------------------------------------

  /** The session and participant checks the note, group and vote instructions share. */
  predicate MemberGate(l: Ledger, sk: Address, signer: Pubkey, stage: Stage) {
    && HasSession(l, sk) && HasParticipant(l, ParticipantPda(sk, signer))
    && l[sk].session.stage == stage && l[ParticipantPda(sk, signer)].participant.joined
    && !l[sk].session.closed
  }

  function CreateNote(l: Ledger, signer: Pubkey, slot: nat, sk: Address, categoryId: U8, content: Bytes): (r: Result<Ledger, AnchorError>)
    ensures r.Ok? <==> && MemberGate(l, sk, signer, WriteNotes)
                       && var s := l[sk].session;
                          var e := l[ParticipantPda(sk, signer)].participant;
                          && NotePda(sk, s.noteCount) !in l
                          && |content| <= MAX_NOTE_CHARS && categoryId < |s.categories|
                          && e.notesSubmitted < s.maxNotesPerParticipant
    ensures && HasSession(l, sk) && HasParticipant(l, ParticipantPda(sk, signer))
            && NotePda(sk, l[sk].session.noteCount) !in l && MemberGate(l, sk, signer, WriteNotes)
            && l[ParticipantPda(sk, signer)].participant.notesSubmitted >= l[sk].session.maxNotesPerParticipant
            && |content| <= MAX_NOTE_CHARS && categoryId < |l[sk].session.categories|
            ==> r == Err(Program(MaxNotesReached))
    ensures r.Ok? ==> && var s := l[sk].session;
                         var pk := ParticipantPda(sk, signer);
                         var e := l[pk].participant;
                         var nk := NotePda(sk, s.noteCount);
                         && ChangesOnly(l, r.value, {sk, pk, nk})
                         && sk in r.value && r.value[sk] == SessionAccount(s.(noteCount := s.noteCount + 1))
                         && pk in r.value && r.value[pk] == ParticipantAccount(e.(notesSubmitted := e.notesSubmitted + 1))
                         && nk in r.value && r.value[nk] == NoteAccount(Note(sk, s.noteCount, signer, categoryId, content, slot, None))
  {
    var session :- LoadSession(l, sk);
    var pk := ParticipantPda(sk, signer);
    var entry :- LoadParticipant(l, pk);
    var nk := NotePda(sk, session.noteCount);
    var _ :- CheckUnused(l, nk);
    var _ :- Require(session.stage == WriteNotes, InvalidStage);
    var _ :- Require(entry.joined, NotJoined);
    var _ :- Require(!session.closed, SessionClosed);
    var _ :- Require(|content| <= MAX_NOTE_CHARS, NoteTooLong);
    var _ :- Require(categoryId < |session.categories|, InvalidCategoryId);
    var _ :- Require(entry.notesSubmitted < session.maxNotesPerParticipant, MaxNotesReached);
    var note := Note(sk, session.noteCount, signer, categoryId, content, slot, None);
    Ok(l[nk := NoteAccount(note)]
        [pk := ParticipantAccount(entry.(notesSubmitted := entry.notesSubmitted + 1))]
        [sk := SessionAccount(session.(noteCount := session.noteCount + 1))])
  }

  function CreateGroup(l: Ledger, signer: Pubkey, sk: Address, title: Bytes): (r: Result<Ledger, AnchorError>)
    ensures r.Ok? <==> && MemberGate(l, sk, signer, GroupDuplicates)
                       && GroupPda(sk, l[sk].session.groupCount) !in l
                       && |title| <= MAX_GROUP_TITLE_CHARS
    ensures r.Ok? ==> && var s := l[sk].session;
                         var gk := GroupPda(sk, s.groupCount);
                         && ChangesOnly(l, r.value, {sk, gk})
                         && sk in r.value && r.value[sk] == SessionAccount(s.(groupCount := s.groupCount + 1))
                         && gk in r.value && r.value[gk] == GroupAccount(Group(sk, s.groupCount, title, signer, 0))
  {
    var session :- LoadSession(l, sk);
    var entry :- LoadParticipant(l, ParticipantPda(sk, signer));
    var gk := GroupPda(sk, session.groupCount);
    var _ :- CheckUnused(l, gk);
    var _ :- Require(session.stage == GroupDuplicates, InvalidStage);
    var _ :- Require(entry.joined, NotJoined);
    var _ :- Require(!session.closed, SessionClosed);
    var _ :- Require(|title| <= MAX_GROUP_TITLE_CHARS, GroupTitleTooLong);
    Ok(l[gk := GroupAccount(Group(sk, session.groupCount, title, signer, 0))]
        [sk := SessionAccount(session.(groupCount := session.groupCount + 1))])
  }

  /** Renames group `groupId` of the session; any joined participant may. */
  function SetGroupTitle(l: Ledger, signer: Pubkey, sk: Address, groupId: nat, title: Bytes): (r: Result<Ledger, AnchorError>)
    ensures r.Ok? <==> && MemberGate(l, sk, signer, GroupDuplicates)
                       && HasGroup(l, GroupPda(sk, groupId))
                       && |title| <= MAX_GROUP_TITLE_CHARS
    ensures r.Ok? ==> && var gk := GroupPda(sk, groupId);
                         && ChangesOnly(l, r.value, {gk})
                         && gk in r.value && r.value[gk] == GroupAccount(l[gk].group.(title := title))
  {
    var session :- LoadSession(l, sk);
    var entry :- LoadParticipant(l, ParticipantPda(sk, signer));
    var gk := GroupPda(sk, groupId);
    var group :- LoadGroup(l, gk);
    var _ :- Require(session.stage == GroupDuplicates, InvalidStage);
    var _ :- Require(entry.joined, NotJoined);
    var _ :- Require(!session.closed, SessionClosed);
    var _ :- Require(|title| <= MAX_GROUP_TITLE_CHARS, GroupTitleTooLong);
    Ok(l[gk := GroupAccount(group.(title := title))])
  }

  /** Puts note `noteId` into group `groupId`, both of this session; a grouped note must be unassigned first. */
  function AssignNoteToGroup(l: Ledger, signer: Pubkey, sk: Address, noteId: nat, groupId: nat): (r: Result<Ledger, AnchorError>)
    ensures r.Ok? <==> && MemberGate(l, sk, signer, GroupDuplicates)
                       && var nk := NotePda(sk, noteId);
                          && nk in l && l[nk].NoteAccount? && l[nk].note.groupId.None?
                          && HasGroup(l, GroupPda(sk, groupId))
    ensures && MemberGate(l, sk, signer, GroupDuplicates) && HasGroup(l, GroupPda(sk, groupId))
            && NotePda(sk, noteId) in l && l[NotePda(sk, noteId)].NoteAccount? && l[NotePda(sk, noteId)].note.groupId.Some?
            ==> r == Err(Program(NoteAlreadyGrouped))
    ensures r.Ok? ==> && var nk := NotePda(sk, noteId);
                         && ChangesOnly(l, r.value, {nk})
                         && nk in r.value && r.value[nk] == NoteAccount(l[nk].note.(groupId := Some(groupId)))
  {
    var session :- LoadSession(l, sk);
    var entry :- LoadParticipant(l, ParticipantPda(sk, signer));
    var nk := NotePda(sk, noteId);
    var note :- LoadNote(l, nk);
    var _ :- LoadGroup(l, GroupPda(sk, groupId));
    var _ :- Require(session.stage == GroupDuplicates, InvalidStage);
    var _ :- Require(entry.joined, NotJoined);
    var _ :- Require(!session.closed, SessionClosed);
    var _ :- Require(note.groupId.None?, NoteAlreadyGrouped);
    Ok(l[nk := NoteAccount(note.(groupId := Some(groupId)))])
  }

  function UnassignNote(l: Ledger, signer: Pubkey, sk: Address, noteId: nat): (r: Result<Ledger, AnchorError>)
    ensures r.Ok? <==> && MemberGate(l, sk, signer, GroupDuplicates)
                       && var nk := NotePda(sk, noteId);
                          nk in l && l[nk].NoteAccount? && l[nk].note.groupId.Some?
    ensures && MemberGate(l, sk, signer, GroupDuplicates)
            && NotePda(sk, noteId) in l && l[NotePda(sk, noteId)].NoteAccount? && l[NotePda(sk, noteId)].note.groupId.None?
            ==> r == Err(Program(NoteNotGrouped))
    ensures r.Ok? ==> && var nk := NotePda(sk, noteId);
                         && ChangesOnly(l, r.value, {nk})
                         && nk in r.value && r.value[nk] == NoteAccount(l[nk].note.(groupId := None))
  {
    var session :- LoadSession(l, sk);
    var entry :- LoadParticipant(l, ParticipantPda(sk, signer));
    var nk := NotePda(sk, noteId);
    var note :- LoadNote(l, nk);
    var _ :- Require(session.stage == GroupDuplicates, InvalidStage);
    var _ :- Require(entry.joined, NotJoined);
    var _ :- Require(!session.closed, SessionClosed);
    var _ :- Require(note.groupId.Some?, NoteNotGrouped);
    Ok(l[nk := NoteAccount(note.(groupId := None))])
  }

  // ---------------------------------------------------------------------
  // Voting
  // ---------------------------------------------------------------------

  /** The voter's record for the group as the handler sees it: the stored one, or a fresh one with no credits. */
  function RecordBefore(l: Ledger, sk: Address, voter: Pubkey, groupId: nat): VoteRecord {
    var vk := VotePda(sk, voter, groupId);
    if vk in l && l[vk].VoteRecordAccount? then l[vk].record else VoteRecord(sk, voter, groupId, 0)
  }

  /**
   * Spends `delta` more credits on group `groupId`: the voter's total, the
   * voter's record for the group and the group's tally each rise by exactly
   * `delta`, and the voter's total never exceeds the session's budget.
   */
  function CastVote(l: Ledger, signer: Pubkey, sk: Address, groupId: nat, delta: U8): (r: Result<Ledger, AnchorError>)
    ensures r.Ok? <==> && MemberGate(l, sk, signer, Vote)
                       && var vk := VotePda(sk, signer, groupId);
                          var gk := GroupPda(sk, groupId);
                          var e := l[ParticipantPda(sk, signer)].participant;
                          && HasGroup(l, gk) && (vk !in l || l[vk].VoteRecordAccount?)
                          && delta > 0
                          && e.creditsSpent + delta <= l[sk].session.votingCreditsPerParticipant
                          && RecordBefore(l, sk, signer, groupId).creditsSpent + delta < U8_LIMIT
                          && l[gk].group.voteTally + delta < U64_LIMIT
    ensures && MemberGate(l, sk, signer, Vote) && HasGroup(l, GroupPda(sk, groupId))
            && (VotePda(sk, signer, groupId) !in l || l[VotePda(sk, signer, groupId)].VoteRecordAccount?)
            && delta == 0
            ==> r == Err(Program(CannotDecreaseVotes))
    // every arithmetic failure, the budget above all, is `InsufficientCredits`
    ensures && MemberGate(l, sk, signer, Vote) && HasGroup(l, GroupPda(sk, groupId))
            && (VotePda(sk, signer, groupId) !in l || l[VotePda(sk, signer, groupId)].VoteRecordAccount?)
            && delta > 0
            && (|| l[ParticipantPda(sk, signer)].participant.creditsSpent + delta > l[sk].session.votingCreditsPerParticipant
                || RecordBefore(l, sk, signer, groupId).creditsSpent + delta >= U8_LIMIT
                || l[GroupPda(sk, groupId)].group.voteTally + delta >= U64_LIMIT)
            ==> r == Err(Program(InsufficientCredits))
    ensures r.Ok? ==> && var pk := ParticipantPda(sk, signer);
                         var gk := GroupPda(sk, groupId);
                         var vk := VotePda(sk, signer, groupId);
                         var e := l[pk].participant;
                         var g := l[gk].group;
                         var v := RecordBefore(l, sk, signer, groupId);
                         && ChangesOnly(l, r.value, {pk, gk, vk})
                         && e.creditsSpent + delta <= l[sk].session.votingCreditsPerParticipant
                         && v.creditsSpent + delta < U8_LIMIT && g.voteTally + delta < U64_LIMIT
                         && pk in r.value && r.value[pk] == ParticipantAccount(e.(creditsSpent := e.creditsSpent + delta))
                         && gk in r.value && r.value[gk] == GroupAccount(g.(voteTally := g.voteTally + delta))
                         && vk in r.value && r.value[vk] == VoteRecordAccount(v.(creditsSpent := v.creditsSpent + delta))
  {
    var session :- LoadSession(l, sk);
    var pk := ParticipantPda(sk, signer);
    var entry :- LoadParticipant(l, pk);
    var gk := GroupPda(sk, groupId);
    var group :- LoadGroup(l, gk);
    var vk := VotePda(sk, signer, groupId);
    var existing :- LoadVoteRecordIfAny(l, vk);
    var _ :- Require(session.stage == Vote, InvalidStage);
    var _ :- Require(entry.joined, NotJoined);
    var _ :- Require(!session.closed, SessionClosed);
    var _ :- Require(delta > 0, CannotDecreaseVotes);
    var total :- OrFail(CheckedAddU8(entry.creditsSpent, delta), InsufficientCredits);
    var _ :- Require(total <= session.votingCreditsPerParticipant, InsufficientCredits);
    var record := existing.GetOr(VoteRecord(sk, signer, groupId, 0));
    var recordCredits :- OrFail(CheckedAddU8(record.creditsSpent, delta), InsufficientCredits);
    var tally :- OrFail(CheckedAddU64(group.voteTally, delta), InsufficientCredits);
    Ok(l[vk := VoteRecordAccount(record.(creditsSpent := recordCredits))]
        [pk := ParticipantAccount(entry.(creditsSpent := total))]
        [gk := GroupAccount(group.(voteTally := tally))])
  }
}

=== FILE: anchor_properties.dfy ===
/**
 * The Anchor variant's instruction set as one dispatcher, runs of
 * transactions from the empty ledger, and the properties every reachable
 * ledger has.
 */
module AnchorProperties {
  import opened Wrappers
  import opened Primitives
  import opened Stages
  import opened AnchorState
  import AnchorProgram
  import AnchorInvariants

  /** One instruction of the program, with the arguments and the session account it names. */
  datatype Instruction =
    | InitTeamRegistry
    | CreateSession(config: AnchorProgram.SessionConfig)
    | AdvanceStage(session: Address, newStage: Stage)
    | CloseSession(session: Address)
    | AddToAllowlist(session: Address, participant: Pubkey)
    | RemoveFromAllowlist(session: Address, participant: Pubkey)
    | JoinSessionWithAllowlist(session: Address)
    | JoinSessionOpen(session: Address)
    | CreateNote(session: Address, categoryId: U8, content: Bytes)
    | CreateGroup(session: Address, title: Bytes)
    | SetGroupTitle(session: Address, groupId: nat, title: Bytes)
    | AssignNoteToGroup(session: Address, noteId: nat, groupId: nat)
    | UnassignNote(session: Address, noteId: nat)
    | CastVote(session: Address, groupId: nat, delta: U8)

  /** A signed transaction carrying one instruction, landing at `slot`. */
  datatype Transaction = Transaction(signer: Pubkey, slot: nat, instruction: Instruction)

  function Execute(l: Ledger, tx: Transaction): Result<Ledger, AnchorError> {
    var signer := tx.signer;
    match tx.instruction
    case InitTeamRegistry => AnchorProgram.InitTeamRegistry(l, signer)
    case CreateSession(config) => AnchorProgram.CreateSession(l, signer, tx.slot, config)
    case AdvanceStage(sk, stage) => AnchorProgram.AdvanceStage(l, signer, tx.slot, sk, stage)
    case CloseSession(sk) => AnchorProgram.CloseSession(l, signer, sk)
    case AddToAllowlist(sk, p) => AnchorProgram.AddToAllowlist(l, signer, sk, p)
    case RemoveFromAllowlist(sk, p) => AnchorProgram.RemoveFromAllowlist(l, signer, sk, p)
    case JoinSessionWithAllowlist(sk) => AnchorProgram.JoinSessionWithAllowlist(l, signer, sk)
    case JoinSessionOpen(sk) => AnchorProgram.JoinSessionOpen(l, signer, sk)
    case CreateNote(sk, cat, content) => AnchorProgram.CreateNote(l, signer, tx.slot, sk, cat, content)
    case CreateGroup(sk, title) => AnchorProgram.CreateGroup(l, signer, sk, title)
    case SetGroupTitle(sk, g, title) => AnchorProgram.SetGroupTitle(l, signer, sk, g, title)
    case AssignNoteToGroup(sk, n, g) => AnchorProgram.AssignNoteToGroup(l, signer, sk, n, g)
    case UnassignNote(sk, n) => AnchorProgram.UnassignNote(l, signer, sk, n)
    case CastVote(sk, g, delta) => AnchorProgram.CastVote(l, signer, sk, g, delta)
  }

  /** Every instruction keeps a valid ledger valid, and a successful one is a step. */
  lemma ExecuteKeepsValid(l: Ledger, tx: Transaction)
    requires AnchorInvariants.Valid(l) && Execute(l, tx).Ok?
    ensures AnchorInvariants.Valid(Execute(l, tx).value)
    ensures AnchorInvariants.Step(l, Execute(l, tx).value)
  {
    var signer := tx.signer;
    match tx.instruction
    case InitTeamRegistry => AnchorInvariants.InitTeamRegistryKeepsValid(l, signer);
    case CreateSession(config) => AnchorInvariants.CreateSessionKeepsValid(l, signer, tx.slot, config);
    case AdvanceStage(sk, stage) => AnchorInvariants.AdvanceStageKeepsValid(l, signer, tx.slot, sk, stage);
    case CloseSession(sk) => AnchorInvariants.CloseSessionKeepsValid(l, signer, sk);
    case AddToAllowlist(sk, p) => AnchorInvariants.AddToAllowlistKeepsValid(l, signer, sk, p);
    case RemoveFromAllowlist(sk, p) => AnchorInvariants.RemoveFromAllowlistKeepsValid(l, signer, sk, p);
    case JoinSessionWithAllowlist(sk) => AnchorInvariants.JoinSessionWithAllowlistKeepsValid(l, signer, sk);
    case JoinSessionOpen(sk) => AnchorInvariants.JoinSessionOpenKeepsValid(l, signer, sk);
    case CreateNote(sk, cat, content) => AnchorInvariants.CreateNoteKeepsValid(l, signer, tx.slot, sk, cat, content);
    case CreateGroup(sk, title) => AnchorInvariants.CreateGroupKeepsValid(l, signer, sk, title);
    case SetGroupTitle(sk, g, title) => AnchorInvariants.SetGroupTitleKeepsValid(l, signer, sk, g, title);
    case AssignNoteToGroup(sk, n, g) => AnchorInvariants.AssignNoteToGroupKeepsValid(l, signer, sk, n, g);
    case UnassignNote(sk, n) => AnchorInvariants.UnassignNoteKeepsValid(l, signer, sk, n);
    case CastVote(sk, g, delta) => AnchorInvariants.CastVoteKeepsValid(l, signer, sk, g, delta);
  }

  /** The ledger after a sequence of transactions; a failed one changes nothing. */
  function Run(l: Ledger, txs: seq<Transaction>): Ledger
    decreases |txs|
  {
    if |txs| == 0 then l
    else
      var next := Execute(l, txs[0]);
      Run(if next.Ok? then next.value else l, txs[1..])
  }

  lemma {:induction false} RunKeepsValid(l: Ledger, txs: seq<Transaction>)
    requires AnchorInvariants.Valid(l)
    ensures AnchorInvariants.Valid(Run(l, txs))
    decreases |txs|
  {
    if |txs| > 0 {
      var next := Execute(l, txs[0]);
      if next.Ok? { ExecuteKeepsValid(l, txs[0]); }
      RunKeepsValid(if next.Ok? then next.value else l, txs[1..]);
    }
  }

  /** Every ledger the program can reach from an empty one is valid. */
  lemma ReachableLedgersAreValid(txs: seq<Transaction>)
    ensures AnchorInvariants.Valid(Run(map[], txs))
  {
    RunKeepsValid(map[], txs);
  }

  // ---------------------------------------------------------------------
  // Properties of valid ledgers
  // ---------------------------------------------------------------------

  /**
   * No session ever holds more than `MAX_PARTICIPANTS` participant entries,
   * every participant stays within the note quota and the credit budget of
   * its session, and every vote record within its voter's total and its
   * group's tally.
   */
  lemma BoundsHold(l: Ledger, a: Address)
    requires AnchorInvariants.Valid(l) && a in l
    ensures l[a].SessionAccount? ==>
              |AnchorInvariants.ParticipantsOf(l, a)| == l[a].session.participantCount <= MAX_PARTICIPANTS
    ensures l[a].ParticipantAccount? ==>
              var e := l[a].participant;
              && HasSession(l, e.session)
              && e.notesSubmitted <= l[e.session].session.maxNotesPerParticipant
              && e.creditsSpent <= l[e.session].session.votingCreditsPerParticipant
    ensures l[a].VoteRecordAccount? ==>
              var v := l[a].record;
              && HasParticipant(l, ParticipantPda(v.session, v.participant))
              && v.creditsSpent <= l[ParticipantPda(v.session, v.participant)].participant.creditsSpent
              && HasGroup(l, GroupPda(v.session, v.groupId))
              && v.creditsSpent <= l[GroupPda(v.session, v.groupId)].group.voteTally
  {
    assert AnchorInvariants.AccountOk(l, a);
  }

  /** A participant joins a session at most once: after a join, the same signer's next join fails. */
  lemma SecondJoinFails(l: Ledger, l': Ledger, sk: Address, signer: Pubkey)
    requires AnchorProgram.Joined(l, l', sk, signer)
    ensures AnchorProgram.JoinSessionOpen(l', signer, sk) == Err(AccountAlreadyInUse)
    ensures AnchorProgram.JoinSessionWithAllowlist(l', signer, sk).Err?
  {
  }

  /**
   * `NotOnAllowlist` is never raised in a valid ledger: every allowlist entry
   * says `allowed`, and a removed one no longer exists, so a signer without
   * an entry fails earlier, with `AccountNotInitialized`.
   */
  lemma NotOnAllowlistNeverRaised(l: Ledger, signer: Pubkey, sk: Address)
    requires AnchorInvariants.Valid(l)
    ensures AnchorProgram.JoinSessionWithAllowlist(l, signer, sk) != Err(Program(NotOnAllowlist))
  {
    var ak := AllowlistPda(sk, signer);
    if ak in l { assert AnchorInvariants.AccountOk(l, ak); }
  }

  /** The next session, note and group addresses are always free, so creating one never collides. */
  lemma NextIdsAreFree(l: Ledger, a: Address)
    requires AnchorInvariants.Valid(l) && a in l
    ensures l[a].RegistryAccount? ==> SessionPda(l[a].registry.teamAuthority, l[a].registry.sessionCount) !in l
    ensures l[a].SessionAccount? ==> NotePda(a, l[a].session.noteCount) !in l && GroupPda(a, l[a].session.groupCount) !in l
  {
    assert AnchorInvariants.AccountOk(l, a);
    var nk := if l[a].SessionAccount? then NotePda(a, l[a].session.noteCount) else a;
    var gk := if l[a].SessionAccount? then GroupPda(a, l[a].session.groupCount) else a;
    var sk := if l[a].RegistryAccount? then SessionPda(l[a].registry.teamAuthority, l[a].registry.sessionCount) else a;
    if nk in l { assert AnchorInvariants.AccountOk(l, nk); }
    if gk in l { assert AnchorInvariants.AccountOk(l, gk); }
    if sk in l { assert AnchorInvariants.AccountOk(l, sk); }
  }

  /** Consequently the creations' `init` never fails on a valid ledger. */
  lemma CreationsNeverCollide(l: Ledger, signer: Pubkey, slot: nat, sk: Address, config: AnchorProgram.SessionConfig,
                              categoryId: U8, content: Bytes, title: Bytes)
    requires AnchorInvariants.Valid(l)
    ensures AnchorProgram.CreateSession(l, signer, slot, config) != Err(AccountAlreadyInUse)
    ensures AnchorProgram.CreateNote(l, signer, slot, sk, categoryId, content) != Err(AccountAlreadyInUse)
    ensures AnchorProgram.CreateGroup(l, signer, sk, title) != Err(AccountAlreadyInUse)
  {
    var rk := TeamRegistryPda(signer);
    if rk in l { NextIdsAreFree(l, rk); }
    if sk in l { NextIdsAreFree(l, sk); }
  }

  /** Ungrouping the note just grouped gives back the ledger as it was. */
  lemma UnassignUndoesAssign(l: Ledger, signer: Pubkey, sk: Address, noteId: nat, groupId: nat)
    requires AnchorProgram.AssignNoteToGroup(l, signer, sk, noteId, groupId).Ok?
    ensures AnchorProgram.UnassignNote(AnchorProgram.AssignNoteToGroup(l, signer, sk, noteId, groupId).value, signer, sk, noteId)
            == Ok(l)
  {
    var nk := NotePda(sk, noteId);
    var l1 := AnchorProgram.AssignNoteToGroup(l, signer, sk, noteId, groupId).value;
    var l2 := AnchorProgram.UnassignNote(l1, signer, sk, noteId).value;
    assert l2[nk] == l[nk];
    assert l2 == l;
  }

  /** Putting a note back into the group it was taken out of gives back the ledger as it was. */
  lemma AssignUndoesUnassign(l: Ledger, signer: Pubkey, sk: Address, noteId: nat)
    requires AnchorInvariants.Valid(l)
    requires AnchorProgram.UnassignNote(l, signer, sk, noteId).Ok?
    ensures var groupId := l[NotePda(sk, noteId)].note.groupId.value;
            AnchorProgram.AssignNoteToGroup(AnchorProgram.UnassignNote(l, signer, sk, noteId).value, signer, sk, noteId, groupId)
            == Ok(l)
  {
    var nk := NotePda(sk, noteId);
    assert AnchorInvariants.AccountOk(l, nk);
    var groupId := l[nk].note.groupId.value;
    var l1 := AnchorProgram.UnassignNote(l, signer, sk, noteId).value;
    assert l1[GroupPda(sk, groupId)] == l[GroupPda(sk, groupId)];
    var l2 := AnchorProgram.AssignNoteToGroup(l1, signer, sk, noteId, groupId).value;
    assert l2[nk] == l[nk];
    assert l2 == l;
  }

  /**
   * Sessions only move forward: one instruction keeps a session's stage or
   * advances it to the next stage, and a closed session, with everything
   * that belongs to it, stays as it is.
   */
  lemma SessionsOnlyMoveForward(l: Ledger, tx: Transaction, a: Address)
    requires AnchorInvariants.Valid(l) && Execute(l, tx).Ok? && HasSession(l, a)
    ensures var l' := Execute(l, tx).value;
            && HasSession(l', a)
            && var s, s' := l[a].session, l'[a].session;
               && (s'.stage == s.stage || Next(s.stage) == Some(s'.stage))
               && (s.closed ==> s' == s)
  {
    var l' := Execute(l, tx).value;
    ExecuteKeepsValid(l, tx);
    assert AnchorInvariants.Evolves(l[a], l'[a]);
    CanAdvanceIsNext(l[a].session.stage, l'[a].session.stage);
    if l[a].session.closed { assert AnchorInvariants.Frozen(l, a); }
  }
}

=== FILE: anchor_state.dfy ===
/**
 * The accounts of the Anchor variant of the retrospective program: a team
 * registry per authority, sessions indexed by the registry's counter, and per
 * session allowlist entries, participant entries, notes, groups and vote
 * records.
 *
 * As in the native model, derived addresses are constructors of `Address`
 * applied to their seeds, so they are injective by construction; the ledger
 * holds the program-owned accounts and an address outside it is an
 * uninitialized account. Anchor's 8-byte account discriminator is modelled by
 * the record kind stored at an address, and bump seeds are not modelled.
 */
module AnchorState {
  import opened Wrappers
  import opened Primitives
  import opened Stages
  import StateLayout

  // ---------------------------------------------------------------------
  // Limits (the same values `constants.rs` and `state.rs` declare)
  // ---------------------------------------------------------------------

  const MAX_NOTE_CHARS: nat := StateLayout.MAX_NOTE_CHARS
  const MAX_GROUP_TITLE_CHARS: nat := StateLayout.MAX_GROUP_TITLE_CHARS
  const MAX_PARTICIPANTS: nat := StateLayout.MAX_PARTICIPANTS
  const MAX_NOTES_PER_PARTICIPANT: U8 := StateLayout.MAX_NOTES_PER_PARTICIPANT
  const MAX_CATEGORIES: nat := StateLayout.MAX_CATEGORIES
  const MAX_CATEGORY_NAME_LEN: nat := StateLayout.MAX_CATEGORY_NAME_LEN
  const VOTING_CREDITS_DEFAULT: U8 := StateLayout.VOTING_CREDITS_DEFAULT

  // ---------------------------------------------------------------------
  // Addresses
  // ---------------------------------------------------------------------

  datatype Address =
    | Wallet(pk: Pubkey)
      /** seeds: "team_registry", authority */
    | TeamRegistryPda(authority: Pubkey)
      /** seeds: "session", authority, session index (u64 little-endian) */
    | SessionPda(authority: Pubkey, index: nat)
      /** seeds: "allowlist", session, participant */
    | AllowlistPda(session: Address, participant: Pubkey)
      /** seeds: "participant", session, participant */
    | ParticipantPda(session: Address, participant: Pubkey)
      /** seeds: "note", session, note id */
    | NotePda(session: Address, noteId: nat)
      /** seeds: "group", session, group id */
    | GroupPda(session: Address, groupId: nat)
      /** seeds: "vote", session, voter, group id */
    | VotePda(session: Address, voter: Pubkey, groupId: nat)

  // ---------------------------------------------------------------------
  // Records
  // ---------------------------------------------------------------------

  datatype TeamRegistry = TeamRegistry(teamAuthority: Pubkey, sessionCount: nat)

  datatype RetroSession = RetroSession(
    teamAuthority: Pubkey,
    facilitator: Pubkey,
    sessionIndex: nat,
    stage: Stage,
    closed: bool,
    categories: seq<Bytes>,
    maxNotesPerParticipant: U8,
    votingCreditsPerParticipant: U8,
    allowlistEnabled: bool,
    openJoin: bool,
    participantCount: nat,
    noteCount: nat,
    groupCount: nat,
    createdAtSlot: nat,
    stageChangedAtSlot: nat)

  datatype AllowlistEntry = AllowlistEntry(session: Address, participant: Pubkey, allowed: bool)

  datatype ParticipantEntry = ParticipantEntry(
    session: Address,
    participant: Pubkey,
    joined: bool,
    notesSubmitted: U8,
    creditsSpent: U8)

  datatype Note = Note(
    session: Address,
    noteId: nat,
    author: Pubkey,
    categoryId: U8,
    content: Bytes,
    createdAtSlot: nat,
    groupId: Option<nat>)

  datatype Group = Group(session: Address, groupId: nat, title: Bytes, createdBy: Pubkey, voteTally: U64)

  datatype VoteRecord = VoteRecord(session: Address, participant: Pubkey, groupId: nat, creditsSpent: U8)

  datatype Account =
    | RegistryAccount(registry: TeamRegistry)
    | SessionAccount(session: RetroSession)
    | AllowlistAccount(allowlist: AllowlistEntry)
    | ParticipantAccount(participant: ParticipantEntry)
    | NoteAccount(note: Note)
    | GroupAccount(group: Group)
    | VoteRecordAccount(record: VoteRecord)

  type Ledger = map<Address, Account>

  // ---------------------------------------------------------------------
  // Errors
  // ---------------------------------------------------------------------

  /** The program's own error codes, in declaration order. */
  datatype RetroError =
    | UnauthorizedFacilitator
    | UnauthorizedTeamAuthority
    | SessionClosed
    | InvalidStage
    | InvalidStageTransition
    | NotOnAllowlist
    | AlreadyJoined
    | NotJoined
    | MaxParticipantsReached
    | MaxNotesReached
    | InvalidCategoryId
    | NoteTooLong
    | GroupTitleTooLong
    | NoteAlreadyGrouped
    | NoteNotGrouped
    | InsufficientCredits
    | CannotDecreaseVotes
    | TooManyCategories
    | CategoryNameTooLong
    | NoCategoriesSpecified
    | OpenJoinDisabled
    | AllowlistDisabled
    | SessionNotStarted

  /** The variant's position in the declaration. */
  function Ordinal(e: RetroError): (n: nat)
    ensures n < 23
  {
    match e
    case UnauthorizedFacilitator => 0
    case UnauthorizedTeamAuthority => 1
    case SessionClosed => 2
    case InvalidStage => 3
    case InvalidStageTransition => 4
    case NotOnAllowlist => 5
    case AlreadyJoined => 6
    case NotJoined => 7
    case MaxParticipantsReached => 8
    case MaxNotesReached => 9
    case InvalidCategoryId => 10
    case NoteTooLong => 11
    case GroupTitleTooLong => 12
    case NoteAlreadyGrouped => 13
    case NoteNotGrouped => 14
    case InsufficientCredits => 15
    case CannotDecreaseVotes => 16
    case TooManyCategories => 17
    case CategoryNameTooLong => 18
    case NoCategoriesSpecified => 19
    case OpenJoinDisabled => 20
    case AllowlistDisabled => 21
    case SessionNotStarted => 22
  }

  /** `#[error_code]` numbers the program's errors from 6000 in declaration order. */
  function ErrorCode(e: RetroError): (code: nat)
    ensures 6000 <= code < 6023
  {
    6000 + Ordinal(e)
  }

  lemma ErrorCodesDistinct(e1: RetroError, e2: RetroError)
    ensures ErrorCode(e1) == ErrorCode(e2) ==> e1 == e2
  {
    match e1
    case UnauthorizedFacilitator =>
    case UnauthorizedTeamAuthority =>
    case SessionClosed =>
    case InvalidStage =>
    case InvalidStageTransition =>
    case NotOnAllowlist =>
    case AlreadyJoined =>
    case NotJoined =>
    case MaxParticipantsReached =>
    case MaxNotesReached =>
    case InvalidCategoryId =>
    case NoteTooLong =>
    case GroupTitleTooLong =>
    case NoteAlreadyGrouped =>
    case NoteNotGrouped =>
    case InsufficientCredits =>
    case CannotDecreaseVotes =>
    case TooManyCategories =>
    case CategoryNameTooLong =>
    case NoCategoriesSpecified =>
    case OpenJoinDisabled =>
    case AllowlistDisabled =>
    case SessionNotStarted =>
  }

  /** What a transaction can fail with: a framework account check, or one of the program's errors. */
  datatype AnchorError =
      /** an `Account<T>` was passed an address holding no program account */
    | AccountNotInitialized
      /** an `Account<T>` was passed an account holding a record of another type */
    | AccountDiscriminatorMismatch
      /** `init` on an address that already holds an account */
    | AccountAlreadyInUse
    | Program(error: RetroError)

  // ---------------------------------------------------------------------
  // Loading and creating accounts
  // ---------------------------------------------------------------------

  /** `Account<'info, RetroSession>`: an initialized account holding a session. */
  function LoadSession(l: Ledger, a: Address): (r: Result<RetroSession, AnchorError>)
    ensures r.Ok? <==> a in l && l[a].SessionAccount?
    ensures r.Ok? ==> l[a] == SessionAccount(r.value)
    ensures a !in l ==> r == Err(AccountNotInitialized)
    ensures a in l && !l[a].SessionAccount? ==> r == Err(AccountDiscriminatorMismatch)
  {
    if a !in l then Err(AccountNotInitialized)
    else if !l[a].SessionAccount? then Err(AccountDiscriminatorMismatch)
    else Ok(l[a].session)
  }

  function LoadRegistry(l: Ledger, a: Address): (r: Result<TeamRegistry, AnchorError>)
    ensures r.Ok? <==> a in l && l[a].RegistryAccount?
    ensures r.Ok? ==> l[a] == RegistryAccount(r.value)
    ensures a !in l ==> r == Err(AccountNotInitialized)
    ensures a in l && !l[a].RegistryAccount? ==> r == Err(AccountDiscriminatorMismatch)
  {
    if a !in l then Err(AccountNotInitialized)
    else if !l[a].RegistryAccount? then Err(AccountDiscriminatorMismatch)
    else Ok(l[a].registry)
  }

  function LoadAllowlistEntry(l: Ledger, a: Address): (r: Result<AllowlistEntry, AnchorError>)
    ensures r.Ok? <==> a in l && l[a].AllowlistAccount?
    ensures r.Ok? ==> l[a] == AllowlistAccount(r.value)
    ensures a !in l ==> r == Err(AccountNotInitialized)
    ensures a in l && !l[a].AllowlistAccount? ==> r == Err(AccountDiscriminatorMismatch)
  {
    if a !in l then Err(AccountNotInitialized)
    else if !l[a].AllowlistAccount? then Err(AccountDiscriminatorMismatch)
    else Ok(l[a].allowlist)
  }

  function LoadParticipant(l: Ledger, a: Address): (r: Result<ParticipantEntry, AnchorError>)
    ensures r.Ok? <==> a in l && l[a].ParticipantAccount?
    ensures r.Ok? ==> l[a] == ParticipantAccount(r.value)
    ensures a !in l ==> r == Err(AccountNotInitialized)
    ensures a in l && !l[a].ParticipantAccount? ==> r == Err(AccountDiscriminatorMismatch)
  {
    if a !in l then Err(AccountNotInitialized)
    else if !l[a].ParticipantAccount? then Err(AccountDiscriminatorMismatch)
    else Ok(l[a].participant)
  }

  function LoadNote(l: Ledger, a: Address): (r: Result<Note, AnchorError>)
    ensures r.Ok? <==> a in l && l[a].NoteAccount?
    ensures r.Ok? ==> l[a] == NoteAccount(r.value)
    ensures a !in l ==> r == Err(AccountNotInitialized)
    ensures a in l && !l[a].NoteAccount? ==> r == Err(AccountDiscriminatorMismatch)
  {
    if a !in l then Err(AccountNotInitialized)
    else if !l[a].NoteAccount? then Err(AccountDiscriminatorMismatch)
    else Ok(l[a].note)
  }

  function LoadGroup(l: Ledger, a: Address): (r: Result<Group, AnchorError>)
    ensures r.Ok? <==> a in l && l[a].GroupAccount?
    ensures r.Ok? ==> l[a] == GroupAccount(r.value)
    ensures a !in l ==> r == Err(AccountNotInitialized)
    ensures a in l && !l[a].GroupAccount? ==> r == Err(AccountDiscriminatorMismatch)
  {
    if a !in l then Err(AccountNotInitialized)
    else if !l[a].GroupAccount? then Err(AccountDiscriminatorMismatch)
    else Ok(l[a].group)
  }

  /**
   * `init_if_needed` on a vote record: an existing account must hold a vote
   * record; an uninitialized one reads as `None` (the all-zero record whose
   * session key is the default key).
   */
  function LoadVoteRecordIfAny(l: Ledger, a: Address): (r: Result<Option<VoteRecord>, AnchorError>)
    ensures r.Ok? <==> a !in l || l[a].VoteRecordAccount?
    ensures r.Ok? && r.value.Some? <==> a in l && l[a].VoteRecordAccount?
    ensures r.Ok? && r.value.Some? ==> l[a] == VoteRecordAccount(r.value.value)
    ensures r.Err? ==> r.error == AccountDiscriminatorMismatch
  {
    if a !in l then Ok(None)
    else if !l[a].VoteRecordAccount? then Err(AccountDiscriminatorMismatch)
    else Ok(Some(l[a].record))
  }

  /** `init`: the address must not hold an account yet. */
  function CheckUnused(l: Ledger, a: Address): (r: Result<(), AnchorError>)
    ensures r.Ok? <==> a !in l
    ensures r.Err? ==> r.error == AccountAlreadyInUse
  {
    if a in l then Err(AccountAlreadyInUse) else Ok(())
  }

  /** A program error as a failed `require!`. */
  function Require(cond: bool, e: RetroError): (r: Result<(), AnchorError>)
    ensures r.Ok? <==> cond
    ensures r.Err? ==> r.error == Program(e)
  {
    if cond then Ok(()) else Err(Program(e))
  }

  /** `after` differs from `before` only at addresses in `touched`. */
  predicate ChangesOnly(before: Ledger, after: Ledger, touched: set<Address>) {
    && after.Keys - touched == before.Keys - touched
    && forall a :: a in before && a !in touched ==> a in after && after[a] == before[a]
  }

  predicate HasSession(l: Ledger, a: Address) {
    a in l && l[a].SessionAccount?
  }

  predicate HasParticipant(l: Ledger, a: Address) {
    a in l && l[a].ParticipantAccount?
  }

  predicate HasGroup(l: Ledger, a: Address) {
    a in l && l[a].GroupAccount?
  }
}

=== FILE: borsh.dfy ===
/**
 * The Borsh wire format for the field types the payloads and records use:
 * little-endian fixed-width integers, `bool` as one byte 0 or 1, `Pubkey` as
 * 32 raw bytes, `Option<T>` as a tag byte 0 or 1, `String` and `Vec<T>` as a
 * u32 length prefix followed by the content.
 *
 * A reader consumes a prefix of its input and returns the value with the
 * remaining bytes. Every reader is the exact inverse of its writer: reading
 * what was written gives the value back, and whatever a reader accepts is the
 * writer's output for the value it returned (the encoding is canonical).
 */
module Borsh {
  import opened Wrappers
  import opened Primitives
  import opened Utf8

  datatype Decoded<T> = Decoded(value: T, rest: Bytes)

  // ---------------------------------------------------------------------
  // Little-endian integers
  // ---------------------------------------------------------------------

  function Pow256(n: nat): (r: nat)
    ensures r > 0
  {
    if n == 0 then 1 else 0x100 * Pow256(n - 1)
  }

  lemma Pow256Values()
    ensures Pow256(1) == U8_LIMIT
    ensures Pow256(4) == U32_LIMIT
    ensures Pow256(8) == U64_LIMIT
  {
    assert Pow256(2) == 0x1_0000;
    assert Pow256(3) == 0x100_0000;
    assert Pow256(5) == 0x100_0000_0000;
    assert Pow256(6) == 0x1_0000_0000_0000;
    assert Pow256(7) == 0x100_0000_0000_0000;
  }

  /** The `n` low-order bytes of `x`, least significant first. */
  function LittleEndian(x: nat, n: nat): (r: Bytes)
    ensures |r| == n
  {
    if n == 0 then [] else [x % 0x100] + LittleEndian(x / 0x100, n - 1)
  }

  /** The number whose little-endian digits are `bs`. */
  function FromLittleEndian(bs: Bytes): (r: nat)
    ensures r < Pow256(|bs|)
  {
    if |bs| == 0 then 0 else bs[0] + 0x100 * FromLittleEndian(bs[1..])
  }

  lemma {:induction false} LittleEndianRoundTrip(x: nat, n: nat)
    requires x < Pow256(n)
    ensures FromLittleEndian(LittleEndian(x, n)) == x
  {
    if n > 0 {
      LittleEndianRoundTrip(x / 0x100, n - 1);
      var r := LittleEndian(x, n);
      assert r[1..] == LittleEndian(x / 0x100, n - 1);
    }
  }

  lemma {:induction false} FromLittleEndianRoundTrip(bs: Bytes)
    ensures LittleEndian(FromLittleEndian(bs), |bs|) == bs
  {
    if |bs| > 0 {
      FromLittleEndianRoundTrip(bs[1..]);
      var x := FromLittleEndian(bs);
      assert x % 0x100 == bs[0];
      assert x / 0x100 == FromLittleEndian(bs[1..]);
    }
  }

  // ---------------------------------------------------------------------
  // Scalars
  // ---------------------------------------------------------------------

  function WriteU8(x: U8): Bytes {
    [x]
  }

  function ReadU8(bs: Bytes): (r: Option<Decoded<U8>>)
    ensures r.Some? <==> |bs| >= 1
    ensures r.Some? ==> bs == WriteU8(r.value.value) + r.value.rest
  {
    if |bs| < 1 then None else Some(Decoded(bs[0], bs[1..]))
  }

  function WriteU32(x: U32): (r: Bytes)
    ensures |r| == 4
  {
    LittleEndian(x, 4)
  }

  function ReadU32(bs: Bytes): (r: Option<Decoded<U32>>)
    ensures r.Some? <==> |bs| >= 4
    ensures r.Some? ==> bs == WriteU32(r.value.value) + r.value.rest
  {
    if |bs| < 4 then None
    else
      Pow256Values();
      FromLittleEndianRoundTrip(bs[..4]);
      var v: U32 := FromLittleEndian(bs[..4]);
      Some(Decoded(v, bs[4..]))
  }

  function WriteU64(x: U64): (r: Bytes)
    ensures |r| == 8
  {
    LittleEndian(x, 8)
  }

  function ReadU64(bs: Bytes): (r: Option<Decoded<U64>>)
    ensures r.Some? <==> |bs| >= 8
    ensures r.Some? ==> bs == WriteU64(r.value.value) + r.value.rest
  {
    if |bs| < 8 then None
    else
      Pow256Values();
      FromLittleEndianRoundTrip(bs[..8]);
      var v: U64 := FromLittleEndian(bs[..8]);
      Some(Decoded(v, bs[8..]))
  }

  /** Two's complement, 8 bytes little-endian. */
  function WriteI64(x: I64): (r: Bytes)
    ensures |r| == 8
  {
    if x >= 0 then LittleEndian(x, 8) else LittleEndian(x + U64_LIMIT, 8)
  }

  function ReadI64(bs: Bytes): (r: Option<Decoded<I64>>)
    ensures r.Some? <==> |bs| >= 8
    ensures r.Some? ==> bs == WriteI64(r.value.value) + r.value.rest
  {
    if |bs| < 8 then None
    else
      Pow256Values();
      FromLittleEndianRoundTrip(bs[..8]);
      var u := FromLittleEndian(bs[..8]);
      var v: I64 := if u <= I64_MAX then u else u - U64_LIMIT;
      Some(Decoded(v, bs[8..]))
  }

  function WriteBool(b: bool): Bytes {
    if b then [1] else [0]
  }

  /** Any tag byte other than 0 or 1 is rejected. */
  function ReadBool(bs: Bytes): (r: Option<Decoded<bool>>)
    ensures r.Some? <==> |bs| >= 1 && bs[0] <= 1
    ensures r.Some? ==> bs == WriteBool(r.value.value) + r.value.rest
  {
    if |bs| < 1 || bs[0] > 1 then None else Some(Decoded(bs[0] == 1, bs[1..]))
  }

  function WritePubkey(k: Pubkey): Bytes {
    k
  }

  function ReadPubkey(bs: Bytes): (r: Option<Decoded<Pubkey>>)
    ensures r.Some? <==> |bs| >= 32
    ensures r.Some? ==> bs == WritePubkey(r.value.value) + r.value.rest
  {
    if |bs| < 32 then None
    else
      var k: Pubkey := bs[..32];
      Some(Decoded(k, bs[32..]))
  }

  function WriteOptionU8(o: Option<U8>): Bytes {
    match o
    case None => [0]
    case Some(x) => [1, x]
  }

  function ReadOptionU8(bs: Bytes): (r: Option<Decoded<Option<U8>>>)
    ensures r.Some? ==> bs == WriteOptionU8(r.value.value) + r.value.rest
  {
    if |bs| < 1 then None
    else if bs[0] == 0 then Some(Decoded(None, bs[1..]))
    else if bs[0] == 1 then
      var x :- ReadU8(bs[1..]);
      Some(Decoded(Some(x.value), x.rest))
    else None
  }

  // ---------------------------------------------------------------------
  // Strings and vectors
  // ---------------------------------------------------------------------

  /** A Rust `String`: its UTF-8 bytes, at most u32::MAX of them. */
  predicate IsWireString(s: Bytes) {
    |s| < U32_LIMIT && ValidUtf8(s)
  }

  function WriteString(s: Bytes): Bytes
    requires |s| < U32_LIMIT
  {
    WriteU32(|s|) + s
  }

  function ReadString(bs: Bytes): (r: Option<Decoded<Bytes>>)
    ensures r.Some? ==> IsWireString(r.value.value)
    ensures r.Some? ==> bs == WriteString(r.value.value) + r.value.rest
  {
    var len :- ReadU32(bs);
    if |len.rest| < len.value then None
    else
      var s := len.rest[..len.value];
      if !ValidUtf8(s) then None
      else
        assert len.rest == s + len.rest[len.value..];
        Some(Decoded(s, len.rest[len.value..]))
  }

  predicate AllWireStrings(ss: seq<Bytes>) {
    forall i :: 0 <= i < |ss| ==> IsWireString(ss[i])
  }

  function WriteStrings(ss: seq<Bytes>): Bytes
    requires AllWireStrings(ss)
  {
    if |ss| == 0 then [] else WriteString(ss[0]) + WriteStrings(ss[1..])
  }

  lemma ConsWireStrings(h: Bytes, t: seq<Bytes>, rest: Bytes)
    requires IsWireString(h) && AllWireStrings(t)
    ensures AllWireStrings([h] + t)
    ensures WriteStrings([h] + t) + rest == WriteString(h) + (WriteStrings(t) + rest)
  {
    var ss := [h] + t;
    assert ss[0] == h && ss[1..] == t;
    forall i | 0 <= i < |ss|
      ensures IsWireString(ss[i])
    {
      if i > 0 {
        assert ss[i] == t[i - 1];
      }
    }
  }

  /** `count` strings, one after the other. */
  function ReadStrings(count: nat, bs: Bytes): (r: Option<Decoded<seq<Bytes>>>)
    ensures r.Some? ==> |r.value.value| == count && AllWireStrings(r.value.value)
    ensures r.Some? ==> bs == WriteStrings(r.value.value) + r.value.rest
  {
    if count == 0 then Some(Decoded([], bs))
    else
      match ReadString(bs)
      case None => None
      case Some(head) =>
        match ReadStrings(count - 1, head.rest)
        case None => None
        case Some(tail) =>
          var ss := [head.value] + tail.value;
          ConsWireStrings(head.value, tail.value, tail.rest);
          Some(Decoded(ss, tail.rest))
  }

  function WriteStringVec(ss: seq<Bytes>): Bytes
    requires |ss| < U32_LIMIT && AllWireStrings(ss)
  {
    WriteU32(|ss|) + WriteStrings(ss)
  }

  function ReadStringVec(bs: Bytes): (r: Option<Decoded<seq<Bytes>>>)
    ensures r.Some? ==> |r.value.value| < U32_LIMIT && AllWireStrings(r.value.value)
    ensures r.Some? ==> bs == WriteStringVec(r.value.value) + r.value.rest
  {
    var count :- ReadU32(bs);
    var items :- ReadStrings(count.value, count.rest);
    Some(items)
  }

  function WritePubkeys(ks: seq<Pubkey>): Bytes {
    if |ks| == 0 then [] else WritePubkey(ks[0]) + WritePubkeys(ks[1..])
  }

  function ReadPubkeys(count: nat, bs: Bytes): (r: Option<Decoded<seq<Pubkey>>>)
    ensures r.Some? ==> |r.value.value| == count
    ensures r.Some? ==> bs == WritePubkeys(r.value.value) + r.value.rest
  {
    if count == 0 then Some(Decoded([], bs))
    else
      match ReadPubkey(bs)
      case None => None
      case Some(head) =>
        match ReadPubkeys(count - 1, head.rest)
        case None => None
        case Some(tail) =>
          var ks := [head.value] + tail.value;
          assert ks[0] == head.value && ks[1..] == tail.value;
          assert WritePubkeys(ks) == WritePubkey(head.value) + WritePubkeys(tail.value);
          Some(Decoded(ks, tail.rest))
  }

  function WritePubkeyVec(ks: seq<Pubkey>): Bytes
    requires |ks| < U32_LIMIT
  {
    WriteU32(|ks|) + WritePubkeys(ks)
  }

  function ReadPubkeyVec(bs: Bytes): (r: Option<Decoded<seq<Pubkey>>>)
    ensures r.Some? ==> |r.value.value| < U32_LIMIT
    ensures r.Some? ==> bs == WritePubkeyVec(r.value.value) + r.value.rest
  {
    var count :- ReadU32(bs);
    var items :- ReadPubkeys(count.value, count.rest);
    Some(items)
  }

  // ---------------------------------------------------------------------
  // Reading back what was written
  // ---------------------------------------------------------------------

  lemma ReadWriteU8(x: U8, rest: Bytes)
    ensures ReadU8(WriteU8(x) + rest) == Some(Decoded(x, rest))
  {
    assert (WriteU8(x) + rest)[1..] == rest;
  }

  lemma ReadWriteU32(x: U32, rest: Bytes)
    ensures ReadU32(WriteU32(x) + rest) == Some(Decoded(x, rest))
  {
    var bs := WriteU32(x) + rest;
    assert bs[..4] == WriteU32(x);
    assert bs[4..] == rest;
    Pow256Values();
    LittleEndianRoundTrip(x, 4);
  }

  lemma ReadWriteU64(x: U64, rest: Bytes)
    ensures ReadU64(WriteU64(x) + rest) == Some(Decoded(x, rest))
  {
    var bs := WriteU64(x) + rest;
    assert bs[..8] == WriteU64(x);
    assert bs[8..] == rest;
    Pow256Values();
    LittleEndianRoundTrip(x, 8);
  }

  lemma ReadWriteI64(x: I64, rest: Bytes)
    ensures ReadI64(WriteI64(x) + rest) == Some(Decoded(x, rest))
  {
    var bs := WriteI64(x) + rest;
    assert bs[..8] == WriteI64(x);
    assert bs[8..] == rest;
    Pow256Values();
    if x >= 0 {
      LittleEndianRoundTrip(x, 8);
    } else {
      LittleEndianRoundTrip(x + U64_LIMIT, 8);
    }
  }

  lemma ReadWriteBool(b: bool, rest: Bytes)
    ensures ReadBool(WriteBool(b) + rest) == Some(Decoded(b, rest))
  {
    assert (WriteBool(b) + rest)[1..] == rest;
  }

  lemma ReadWritePubkey(k: Pubkey, rest: Bytes)
    ensures ReadPubkey(WritePubkey(k) + rest) == Some(Decoded(k, rest))
  {
    assert (WritePubkey(k) + rest)[..32] == k;
    assert (WritePubkey(k) + rest)[32..] == rest;
  }

  lemma ReadWriteOptionU8(o: Option<U8>, rest: Bytes)
    ensures ReadOptionU8(WriteOptionU8(o) + rest) == Some(Decoded(o, rest))
  {
    var bs := WriteOptionU8(o) + rest;
    if o.Some? {
      assert bs[1..] == WriteU8(o.value) + rest;
      ReadWriteU8(o.value, rest);
    } else {
      assert bs[1..] == rest;
    }
  }

  lemma ReadWriteString(s: Bytes, rest: Bytes)
    requires IsWireString(s)
    ensures ReadString(WriteString(s) + rest) == Some(Decoded(s, rest))
  {
    var bs := WriteString(s) + rest;
    assert bs == WriteU32(|s|) + (s + rest);
    ReadWriteU32(|s|, s + rest);
    assert (s + rest)[..|s|] == s;
    assert (s + rest)[|s|..] == rest;
  }

  lemma {:induction false} ReadWriteStrings(ss: seq<Bytes>, rest: Bytes)
    requires AllWireStrings(ss)
    ensures ReadStrings(|ss|, WriteStrings(ss) + rest) == Some(Decoded(ss, rest))
  {
    if |ss| > 0 {
      var tailBytes := WriteStrings(ss[1..]) + rest;
      assert WriteStrings(ss) + rest == WriteString(ss[0]) + tailBytes;
      ReadWriteString(ss[0], tailBytes);
      ReadWriteStrings(ss[1..], rest);
      assert |ss[1..]| == |ss| - 1;
      assert ReadString(WriteStrings(ss) + rest) == Some(Decoded(ss[0], tailBytes));
      assert ReadStrings(|ss| - 1, tailBytes) == Some(Decoded(ss[1..], rest));
      assert [ss[0]] + ss[1..] == ss;
    } else {
      assert WriteStrings(ss) + rest == rest;
    }
  }

  lemma ReadWriteStringVec(ss: seq<Bytes>, rest: Bytes)
    requires |ss| < U32_LIMIT && AllWireStrings(ss)
    ensures ReadStringVec(WriteStringVec(ss) + rest) == Some(Decoded(ss, rest))
  {
    assert WriteStringVec(ss) + rest == WriteU32(|ss|) + (WriteStrings(ss) + rest);
    ReadWriteU32(|ss|, WriteStrings(ss) + rest);
    ReadWriteStrings(ss, rest);
  }

  lemma {:induction false} ReadWritePubkeys(ks: seq<Pubkey>, rest: Bytes)
    ensures ReadPubkeys(|ks|, WritePubkeys(ks) + rest) == Some(Decoded(ks, rest))
  {
    if |ks| > 0 {
      var tailBytes := WritePubkeys(ks[1..]) + rest;
      assert WritePubkeys(ks) + rest == WritePubkey(ks[0]) + tailBytes;
      ReadWritePubkey(ks[0], tailBytes);
      ReadWritePubkeys(ks[1..], rest);
      assert |ks[1..]| == |ks| - 1;
      assert ReadPubkey(WritePubkeys(ks) + rest) == Some(Decoded(ks[0], tailBytes));
      assert ReadPubkeys(|ks| - 1, tailBytes) == Some(Decoded(ks[1..], rest));
      assert [ks[0]] + ks[1..] == ks;
    } else {
      assert WritePubkeys(ks) + rest == rest;
    }
  }

  lemma ReadWritePubkeyVec(ks: seq<Pubkey>, rest: Bytes)
    requires |ks| < U32_LIMIT
    ensures ReadPubkeyVec(WritePubkeyVec(ks) + rest) == Some(Decoded(ks, rest))
  {
    assert WritePubkeyVec(ks) + rest == WriteU32(|ks|) + (WritePubkeys(ks) + rest);
    ReadWriteU32(|ks|, WritePubkeys(ks) + rest);
    ReadWritePubkeys(ks, rest);
  }
}

=== FILE: native_findings.dfy ===
/**
 * Concrete ledgers on which the as-written handlers that ignore their id
 * argument break the ledger invariant or touch a closed board, and the
 * corrected handlers reject the same call.
 *
 * The ledger has one facilitator with two boards. Board 1 is open; board 2
 * is closed. Both allowlist the same two participants, and each board has
 * one group and one note. Board 1 also has a pending action item.
 */
module NativeFindings {
  import opened Wrappers
  import opened Primitives
  import opened Stages
  import opened NativeState
  import opened NativeProcessor
  import opened NativeInvariants

  function Key(b: Byte): Pubkey {
    seq(32, _ => b)
  }

  lemma KeysDistinct(b: Byte, c: Byte)
    requires b != c
    ensures Key(b) != Key(c)
  {
    assert Key(b)[0] != Key(c)[0];
  }

  const Facilitator: Address := Wallet(Key(0))
  const Voter: Address := Wallet(Key(1))
  const Owner: Address := Wallet(Key(2))
  const SystemProgram: Address := Wallet(Key(3))
  const Board1: Address := BoardPda(Facilitator, 0)
  const Board2: Address := BoardPda(Facilitator, 1)
  const Item1: Address := ActionItemPda(Board1, 0)

  function OpenBoard(stage: Stage): RetroBoard {
    RetroBoard(Facilitator, 0, stage, false, [[]], [Voter, Owner], 5, 1, 1, 1, 0, 0)
  }

  const ClosedBoard: RetroBoard := RetroBoard(Facilitator, 1, Discuss, true, [[]], [Voter, Owner], 5, 1, 1, 0, 0, 0)

  const PendingItem: ActionItem := ActionItem(Board1, 0, [], Owner, [Voter], 1, 0, Pending, 0, None)

  /** The two-board ledger, with board 1 at `stage`. */
  function Demo(stage: Stage): Ledger {
    map[
      RegistryPda(Facilitator) := RegistryAccount(FacilitatorRegistry(Facilitator, 2)),
      Board1 := BoardAccount(OpenBoard(stage)),
      Board2 := BoardAccount(ClosedBoard),
      MembershipPda(Board1, Voter) := MembershipAccount(FreshMembership(Board1, Voter)),
      MembershipPda(Board1, Owner) := MembershipAccount(FreshMembership(Board1, Owner)),
      MembershipPda(Board2, Voter) := MembershipAccount(FreshMembership(Board2, Voter)),
      MembershipPda(Board2, Owner) := MembershipAccount(FreshMembership(Board2, Owner)),
      GroupPda(Board1, 0) := GroupAccount(Group(Board1, 0, [], Voter, 0)),
      GroupPda(Board2, 0) := GroupAccount(Group(Board2, 0, [], Voter, 0)),
      NotePda(Board1, 0) := NoteAccount(Note(Board1, 0, Voter, 0, [], 0, None)),
      NotePda(Board2, 0) := NoteAccount(Note(Board2, 0, Voter, 0, [], 0, Some(0))),
      Item1 := ActionItemAccount(PendingItem)
    ]
  }

  lemma DemoBoardsOk(stage: Stage)
    ensures AccountOk(Demo(stage), Board1) && AccountOk(Demo(stage), Board2)
  {
    var l := Demo(stage);
    assert HasMembership(l, MembershipPda(Board1, Voter)) && HasMembership(l, MembershipPda(Board1, Owner));
    assert HasMembership(l, MembershipPda(Board2, Voter)) && HasMembership(l, MembershipPda(Board2, Owner));
    assert MembershipsExist(l, Board1);
    assert MembershipsExist(l, Board2);
  }

  lemma DemoItemOk(stage: Stage)
    ensures AccountOk(Demo(stage), Item1)
  {
    KeysDistinct(1, 2);
  }

  lemma DemoValid(stage: Stage)
    ensures Valid(Demo(stage))
  {
    var l := Demo(stage);
    DemoBoardsOk(stage);
    DemoItemOk(stage);
    forall a | a in l ensures AccountOk(l, a) {
    }
  }

  function Plain(a: Address): AccountRef { AccountRef(a, false) }
  function Signer(a: Address): AccountRef { AccountRef(a, true) }

  // ---------------------------------------------------------------------
  // cast_vote: the group account is not tied to the board or to group_id
  // ---------------------------------------------------------------------

  function VoteAccounts(): seq<AccountRef> {
    [Plain(Board1), Plain(MembershipPda(Board1, Voter)), Plain(GroupPda(Board2, 0)),
     Plain(VotePda(Board1, Voter, 0)), Signer(Voter), Plain(SystemProgram)]
  }

  /** The ledger the as-written vote leaves behind. */
  function AfterStrayVote(): Ledger {
    Demo(Vote)[VotePda(Board1, Voter, 0) := VoteRecordAccount(VoteRecord(Board1, Voter, 0, 1))]
              [MembershipPda(Board1, Voter) := MembershipAccount(FreshMembership(Board1, Voter).(creditsSpent := 1))]
              [GroupPda(Board2, 0) := GroupAccount(Group(Board2, 0, [], Voter, 1))]
  }

  lemma StrayVoteResult()
    ensures CastVoteAsWritten(Demo(Vote), VoteAccounts(), 0, 1) == Ok(AfterStrayVote())
  {
    var l := Demo(Vote);
    assert LoadBoard(l, Board1) == Ok(OpenBoard(Vote));
    assert LoadOrCreateMembership(l, MembershipPda(Board1, Voter), Board1, Voter) == Ok((l, FreshMembership(Board1, Voter)));
    assert LoadGroup(l, GroupPda(Board2, 0)) == Ok(Group(Board2, 0, [], Voter, 0));
    var vk := VotePda(Board1, Voter, 0);
    assert vk !in l;
    var rec0 := VoteRecord(Board1, Voter, 0, 0);
    assert LoadOrCreateVoteRecord(l, vk, Board1, Voter, 0) == Ok((l[vk := VoteRecordAccount(rec0)], rec0));
    assert l[vk := VoteRecordAccount(rec0)][vk := VoteRecordAccount(rec0.(creditsSpent := 1))]
        == l[vk := VoteRecordAccount(VoteRecord(Board1, Voter, 0, 1))];
  }

  lemma StrayVoteTouchesClosedBoard()
    ensures !Step(Demo(Vote), AfterStrayVote())
  {
    var l, l' := Demo(Vote), AfterStrayVote();
    var g2 := GroupPda(Board2, 0);
    assert Frozen(l, g2);
    assert l'[g2] != l[g2];
  }

  lemma StrayVoteBreaksValid()
    ensures !Valid(AfterStrayVote())
  {
    var l' := AfterStrayVote();
    var vk := VotePda(Board1, Voter, 0);
    assert l'[vk].record.creditsSpent == 1;
    assert l'[GroupPda(Board1, 0)].group.voteTally == 0;
    assert !AccountOk(l', vk);
  }

  /**
   * Voting on board 1 for group 0 while passing group 0 of the closed board
   * 2: the closed board's tally rises, and board 1's vote record now exceeds
   * its group's tally.
   */
  lemma CastVoteAsWrittenCounterexample()
    ensures Valid(Demo(Vote))
    ensures var r := CastVoteAsWritten(Demo(Vote), VoteAccounts(), 0, 1);
            && r.Ok?
            && r.value[GroupPda(Board2, 0)].group.voteTally == 1
            && !Step(Demo(Vote), r.value)
            && !Valid(r.value)
    ensures CastVote(Demo(Vote), VoteAccounts(), 0, 1) == Err(InvalidPDA)
  {
    DemoValid(Vote);
    StrayVoteResult();
    StrayVoteTouchesClosedBoard();
    StrayVoteBreaksValid();
  }

  // ---------------------------------------------------------------------
  // assign_note_to_group: the note gets group_id, whatever group was passed
  // ---------------------------------------------------------------------

  function AssignAccounts(): seq<AccountRef> {
    [Plain(Board1), Plain(NotePda(Board1, 0)), Plain(GroupPda(Board1, 0)), Signer(Voter)]
  }

  function AfterStrayAssign(): Ledger {
    Demo(GroupDuplicates)[NotePda(Board1, 0) := NoteAccount(Note(Board1, 0, Voter, 0, [], 0, Some(7)))]
  }

  lemma StrayAssignResult()
    ensures AssignNoteToGroupAsWritten(Demo(GroupDuplicates), AssignAccounts(), 7) == Ok(AfterStrayAssign())
  {
    var l := Demo(GroupDuplicates);
    assert LoadBoard(l, Board1) == Ok(OpenBoard(GroupDuplicates));
    assert LoadGroup(l, GroupPda(Board1, 0)).Ok?;
    assert LoadNote(l, NotePda(Board1, 0)) == Ok(Note(Board1, 0, Voter, 0, [], 0, None));
  }

  lemma StrayAssignBreaksValid()
    ensures AfterStrayAssign()[NotePda(Board1, 0)].note.groupId == Some(7)
    ensures GroupPda(Board1, 7) !in AfterStrayAssign()
    ensures !Valid(AfterStrayAssign())
  {
    var l' := AfterStrayAssign();
    assert GroupPda(Board1, 7) !in l';
    assert !AccountOk(l', NotePda(Board1, 0));
  }

  /** Assigning note 0 of board 1 to group 7, which does not exist, while passing group 0. */
  lemma AssignNoteToGroupAsWrittenCounterexample()
    ensures Valid(Demo(GroupDuplicates))
    ensures var r := AssignNoteToGroupAsWritten(Demo(GroupDuplicates), AssignAccounts(), 7);
            && r.Ok?
            && r.value[NotePda(Board1, 0)].note.groupId == Some(7)
            && GroupPda(Board1, 7) !in r.value
            && !Valid(r.value)
    ensures AssignNoteToGroup(Demo(GroupDuplicates), AssignAccounts(), 0, 7) == Err(InvalidPDA)
  {
    DemoValid(GroupDuplicates);
    StrayAssignResult();
    StrayAssignBreaksValid();
    var r := AssignNoteToGroupAsWritten(Demo(GroupDuplicates), AssignAccounts(), 7);
    assert r == Ok(AfterStrayAssign());
    assert GroupPda(Board1, 0) != GroupPda(Board1, 7);
  }

  // ---------------------------------------------------------------------
  // unassign_note and set_group_title: the account modified may belong to
  // another board, including a closed one
  // ---------------------------------------------------------------------

  function UnassignAccounts(): seq<AccountRef> {
    [Plain(Board1), Plain(NotePda(Board2, 0)), Signer(Voter)]
  }

  function AfterStrayUnassign(): Ledger {
    Demo(GroupDuplicates)[NotePda(Board2, 0) := NoteAccount(Note(Board2, 0, Voter, 0, [], 0, None))]
  }

  lemma StrayUnassignResult()
    ensures UnassignNoteAsWritten(Demo(GroupDuplicates), UnassignAccounts()) == Ok(AfterStrayUnassign())
  {
    var l := Demo(GroupDuplicates);
    assert LoadBoard(l, Board1) == Ok(OpenBoard(GroupDuplicates));
    assert LoadNote(l, NotePda(Board2, 0)) == Ok(Note(Board2, 0, Voter, 0, [], 0, Some(0)));
  }

  lemma StrayUnassignTouchesClosedBoard()
    ensures !Step(Demo(GroupDuplicates), AfterStrayUnassign())
  {
    var l, l' := Demo(GroupDuplicates), AfterStrayUnassign();
    var n2 := NotePda(Board2, 0);
    assert Frozen(l, n2);
    assert l'[n2] != l[n2];
  }

  /** Ungrouping a note of the closed board 2 through the open board 1. */
  lemma UnassignNoteAsWrittenCounterexample()
    ensures Valid(Demo(GroupDuplicates))
    ensures var r := UnassignNoteAsWritten(Demo(GroupDuplicates), UnassignAccounts());
            && r.Ok?
            && Demo(GroupDuplicates)[Board2].board.closed
            && r.value[NotePda(Board2, 0)] != Demo(GroupDuplicates)[NotePda(Board2, 0)]
            && !Step(Demo(GroupDuplicates), r.value)
    ensures UnassignNote(Demo(GroupDuplicates), UnassignAccounts(), 0) == Err(InvalidPDA)
  {
    DemoValid(GroupDuplicates);
    StrayUnassignResult();
    StrayUnassignTouchesClosedBoard();
  }

  function TitleAccounts(): seq<AccountRef> {
    [Plain(Board1), Plain(GroupPda(Board2, 0)), Signer(Voter)]
  }

  function AfterStrayTitle(): Ledger {
    Demo(GroupDuplicates)[GroupPda(Board2, 0) := GroupAccount(Group(Board2, 0, [1], Voter, 0))]
  }

  lemma StrayTitleResult()
    ensures SetGroupTitleAsWritten(Demo(GroupDuplicates), TitleAccounts(), [1]) == Ok(AfterStrayTitle())
  {
    var l := Demo(GroupDuplicates);
    assert LoadBoard(l, Board1) == Ok(OpenBoard(GroupDuplicates));
    assert LoadGroup(l, GroupPda(Board2, 0)) == Ok(Group(Board2, 0, [], Voter, 0));
  }

  lemma StrayTitleTouchesClosedBoard()
    ensures !Step(Demo(GroupDuplicates), AfterStrayTitle())
  {
    var l, l' := Demo(GroupDuplicates), AfterStrayTitle();
    var g2 := GroupPda(Board2, 0);
    assert Frozen(l, g2);
    assert l'[g2] != l[g2];
  }

  /** Renaming group 0 of the closed board 2 through the open board 1. */
  lemma SetGroupTitleAsWrittenCounterexample()
    ensures Valid(Demo(GroupDuplicates))
    ensures var r := SetGroupTitleAsWritten(Demo(GroupDuplicates), TitleAccounts(), [1]);
            && r.Ok?
            && r.value[GroupPda(Board2, 0)].group.title == [1]
            && !Step(Demo(GroupDuplicates), r.value)
    ensures SetGroupTitle(Demo(GroupDuplicates), TitleAccounts(), 0, [1]) == Err(InvalidPDA)
  {
    DemoValid(GroupDuplicates);
    StrayTitleResult();
    StrayTitleTouchesClosedBoard();
  }

  // ---------------------------------------------------------------------
  // cast_verification_vote: the action item is not tied to the closed board
  // ---------------------------------------------------------------------

  function VerifyAccounts(): seq<AccountRef> {
    [Plain(Board2), Plain(Item1), Plain(VerificationPda(Item1, Voter)), Plain(MembershipPda(Board2, Owner)),
     Signer(Voter), Plain(SystemProgram)]
  }

  function AfterStrayVerification(): Ledger {
    Demo(Discuss)[VerificationPda(Item1, Voter) := VerificationVoteAccount(VerificationVote(Item1, Voter, true, 0))]
                 [MembershipPda(Board2, Owner) := MembershipAccount(FreshMembership(Board2, Owner).(totalScore := 1))]
                 [Item1 := ActionItemAccount(PendingItem.(approvals := 1, status := Completed, verifiedAtSlot := Some(0)))]
  }

  lemma StrayVerificationResult()
    ensures CastVerificationVoteAsWritten(Demo(Discuss), VerifyAccounts(), 0, true) == Ok(AfterStrayVerification())
  {
    var l := Demo(Discuss);
    assert LoadBoard(l, Board2) == Ok(ClosedBoard);
    assert LoadActionItem(l, Item1) == Ok(PendingItem);
    assert VerificationPda(Item1, Voter) !in l;
    assert Completes(PendingItem, true);
  }

  lemma StrayVerificationBreaksValid()
    ensures !Valid(AfterStrayVerification())
  {
    var l' := AfterStrayVerification();
    assert !l'[Board1].board.closed;
    assert !AccountOk(l', VerificationPda(Item1, Voter));
  }

  /**
   * Verifying board 1's pending item through the closed board 2 while board
   * 1 is still open: the item completes and the owner's reward goes to their
   * membership on board 2.
   */
  lemma CastVerificationVoteAsWrittenCounterexample()
    ensures Valid(Demo(Discuss))
    ensures var r := CastVerificationVoteAsWritten(Demo(Discuss), VerifyAccounts(), 0, true);
            && r.Ok?
            && !Demo(Discuss)[Board1].board.closed
            && r.value[Item1].item.status == Completed
            && r.value[MembershipPda(Board2, Owner)].membership.totalScore == 1
            && !Valid(r.value)
    ensures CastVerificationVote(Demo(Discuss), VerifyAccounts(), 0, 0, true) == Err(InvalidPDA)
  {
    DemoValid(Discuss);
    StrayVerificationResult();
    StrayVerificationBreaksValid();
  }
}

=== FILE: native_instruction.dfy ===
/**
 * The native program's instruction format: one discriminator byte, then the
 * Borsh-encoded payload struct of that instruction. `Unpack` is the decoder
 * the program runs; `Pack` is the client-side encoding it inverts.
 */
module NativeInstruction {
  import opened Wrappers
  import opened Primitives
  import opened Borsh
  import opened Stages
  import opened NativeState

  const INIT_FACILITATOR_REGISTRY: Byte := 0
  const CREATE_BOARD: Byte := 1
  const ADVANCE_STAGE: Byte := 2
  const CLOSE_BOARD: Byte := 3
  const CREATE_NOTE: Byte := 4
  const CREATE_GROUP: Byte := 5
  const SET_GROUP_TITLE: Byte := 6
  const ASSIGN_NOTE_TO_GROUP: Byte := 7
  const UNASSIGN_NOTE: Byte := 8
  const CAST_VOTE: Byte := 9
  const CREATE_ACTION_ITEM: Byte := 10
  const CAST_VERIFICATION_VOTE: Byte := 11

  /** Strings are carried as their UTF-8 bytes. */
  datatype RetroInstruction =
    | InitFacilitatorRegistry
    | CreateBoard(categories: seq<Bytes>, allowlist: seq<Pubkey>, votingCreditsPerParticipant: Option<U8>)
    | AdvanceStage(newStage: Stage)
    | CloseBoard
    | CreateNote(categoryId: U8, content: Bytes)
    | CreateGroup(title: Bytes)
    | SetGroupTitle(groupId: U64, title: Bytes)
    | AssignNoteToGroup(noteId: U64, groupId: U64)
    | UnassignNote(noteId: U64)
    | CastVote(groupId: U64, creditsDelta: U8)
    | CreateActionItem(description: Bytes, owner: Pubkey, verifiers: seq<Pubkey>, threshold: U8)
    | CastVerificationVote(actionItemId: U64, approved: bool)

  /** The discriminator constant of each variant. */
  function Tag(ix: RetroInstruction): (t: Byte)
    ensures t <= 11
  {
    match ix
    case InitFacilitatorRegistry => INIT_FACILITATOR_REGISTRY
    case CreateBoard(_, _, _) => CREATE_BOARD
    case AdvanceStage(_) => ADVANCE_STAGE
    case CloseBoard => CLOSE_BOARD
    case CreateNote(_, _) => CREATE_NOTE
    case CreateGroup(_) => CREATE_GROUP
    case SetGroupTitle(_, _) => SET_GROUP_TITLE
    case AssignNoteToGroup(_, _) => ASSIGN_NOTE_TO_GROUP
    case UnassignNote(_) => UNASSIGN_NOTE
    case CastVote(_, _) => CAST_VOTE
    case CreateActionItem(_, _, _, _) => CREATE_ACTION_ITEM
    case CastVerificationVote(_, _) => CAST_VERIFICATION_VOTE
  }

  /** What a client can encode: every string is UTF-8 and every length fits Borsh's u32 prefix. */
  predicate Encodable(ix: RetroInstruction) {
    match ix
    case CreateBoard(cats, allow, _) => |cats| < U32_LIMIT && AllWireStrings(cats) && |allow| < U32_LIMIT
    case CreateNote(_, content) => IsWireString(content)
    case CreateGroup(title) => IsWireString(title)
    case SetGroupTitle(_, title) => IsWireString(title)
    case CreateActionItem(desc, _, verifiers, _) => IsWireString(desc) && |verifiers| < U32_LIMIT
    case _ => true
  }

  /** The payload struct's fields, Borsh-encoded in declaration order. */
  function PackPayload(ix: RetroInstruction): Bytes
    requires Encodable(ix)
  {
    match ix
    case InitFacilitatorRegistry => []
    case CreateBoard(cats, allow, credits) => WriteStringVec(cats) + WritePubkeyVec(allow) + WriteOptionU8(credits)
    case AdvanceStage(st) => WriteU8(Discriminant(st))
    case CloseBoard => []
    case CreateNote(cat, content) => WriteU8(cat) + WriteString(content)
    case CreateGroup(title) => WriteString(title)
    case SetGroupTitle(g, title) => WriteU64(g) + WriteString(title)
    case AssignNoteToGroup(n, g) => WriteU64(n) + WriteU64(g)
    case UnassignNote(n) => WriteU64(n)
    case CastVote(g, delta) => WriteU64(g) + WriteU8(delta)
    case CreateActionItem(desc, owner, verifiers, threshold) =>
      WriteString(desc) + WritePubkey(owner) + WritePubkeyVec(verifiers) + WriteU8(threshold)
    case CastVerificationVote(item, approved) => WriteU64(item) + WriteBool(approved)
  }

  function Pack(ix: RetroInstruction): (bs: Bytes)
    requires Encodable(ix)
    ensures |bs| >= 1 && bs[0] == Tag(ix)
  {
    [Tag(ix)] + PackPayload(ix)
  }

  // ---------------------------------------------------------------------
  // Decoding
  // ---------------------------------------------------------------------

  /** Regrouping a three-part encoding followed by the rest of the input. */
  lemma Concat3(a: Bytes, b: Bytes, c: Bytes, rest: Bytes)
    ensures a + (b + (c + rest)) == a + b + c + rest
  {
  }

  /** Regrouping a four-part encoding followed by the rest of the input. */
  lemma Concat4(a: Bytes, b: Bytes, c: Bytes, d: Bytes, rest: Bytes)
    ensures a + (b + (c + (d + rest))) == a + b + c + d + rest
  {
  }

  // One reader per payload struct; each leaves whatever follows the payload.

  function ReadCreateBoard(bs: Bytes): (r: Option<Decoded<RetroInstruction>>)
    ensures r.Some? ==> r.value.value.CreateBoard? && Encodable(r.value.value)
    ensures r.Some? ==> bs == PackPayload(r.value.value) + r.value.rest
  {
    var cats :- ReadStringVec(bs);
    var allow :- ReadPubkeyVec(cats.rest);
    var credits :- ReadOptionU8(allow.rest);
    var ix := CreateBoard(cats.value, allow.value, credits.value);
    Concat3(WriteStringVec(cats.value), WritePubkeyVec(allow.value), WriteOptionU8(credits.value), credits.rest);
    Some(Decoded(ix, credits.rest))
  }

  /** The raw byte must also name a stage. */
  function ReadAdvanceStage(bs: Bytes): (r: Option<Decoded<RetroInstruction>>)
    ensures r.Some? ==> r.value.value.AdvanceStage? && Encodable(r.value.value)
    ensures r.Some? ==> bs == PackPayload(r.value.value) + r.value.rest
  {
    var b :- ReadU8(bs);
    var st :- FromByte(b.value);
    Some(Decoded(AdvanceStage(st), b.rest))
  }

  function ReadCreateNote(bs: Bytes): (r: Option<Decoded<RetroInstruction>>)
    ensures r.Some? ==> r.value.value.CreateNote? && Encodable(r.value.value)
    ensures r.Some? ==> bs == PackPayload(r.value.value) + r.value.rest
  {
    var cat :- ReadU8(bs);
    var content :- ReadString(cat.rest);
    var ix := CreateNote(cat.value, content.value);
    assert bs == PackPayload(ix) + content.rest;
    Some(Decoded(ix, content.rest))
  }

  function ReadCreateGroup(bs: Bytes): (r: Option<Decoded<RetroInstruction>>)
    ensures r.Some? ==> r.value.value.CreateGroup? && Encodable(r.value.value)
    ensures r.Some? ==> bs == PackPayload(r.value.value) + r.value.rest
  {
    var title :- ReadString(bs);
    Some(Decoded(CreateGroup(title.value), title.rest))
  }

  function ReadSetGroupTitle(bs: Bytes): (r: Option<Decoded<RetroInstruction>>)
    ensures r.Some? ==> r.value.value.SetGroupTitle? && Encodable(r.value.value)
    ensures r.Some? ==> bs == PackPayload(r.value.value) + r.value.rest
  {
    var g :- ReadU64(bs);
    var title :- ReadString(g.rest);
    var ix := SetGroupTitle(g.value, title.value);
    assert bs == PackPayload(ix) + title.rest;
    Some(Decoded(ix, title.rest))
  }

  function ReadAssignNote(bs: Bytes): (r: Option<Decoded<RetroInstruction>>)
    ensures r.Some? ==> r.value.value.AssignNoteToGroup? && Encodable(r.value.value)
    ensures r.Some? ==> bs == PackPayload(r.value.value) + r.value.rest
  {
    var n :- ReadU64(bs);
    var g :- ReadU64(n.rest);
    var ix := AssignNoteToGroup(n.value, g.value);
    assert bs == PackPayload(ix) + g.rest;
    Some(Decoded(ix, g.rest))
  }

  function ReadUnassignNote(bs: Bytes): (r: Option<Decoded<RetroInstruction>>)
    ensures r.Some? ==> r.value.value.UnassignNote? && Encodable(r.value.value)
    ensures r.Some? ==> bs == PackPayload(r.value.value) + r.value.rest
  {
    var n :- ReadU64(bs);
    Some(Decoded(UnassignNote(n.value), n.rest))
  }

  function ReadCastVote(bs: Bytes): (r: Option<Decoded<RetroInstruction>>)
    ensures r.Some? ==> r.value.value.CastVote? && Encodable(r.value.value)
    ensures r.Some? ==> bs == PackPayload(r.value.value) + r.value.rest
  {
    var g :- ReadU64(bs);
    var delta :- ReadU8(g.rest);
    var ix := CastVote(g.value, delta.value);
    assert bs == PackPayload(ix) + delta.rest;
    Some(Decoded(ix, delta.rest))
  }

  function ReadCreateActionItem(bs: Bytes): (r: Option<Decoded<RetroInstruction>>)
    ensures r.Some? ==> r.value.value.CreateActionItem? && Encodable(r.value.value)
    ensures r.Some? ==> bs == PackPayload(r.value.value) + r.value.rest
  {
    var desc :- ReadString(bs);
    var owner :- ReadPubkey(desc.rest);
    var verifiers :- ReadPubkeyVec(owner.rest);
    var threshold :- ReadU8(verifiers.rest);
    var ix := CreateActionItem(desc.value, owner.value, verifiers.value, threshold.value);
    Concat4(WriteString(desc.value), WritePubkey(owner.value), WritePubkeyVec(verifiers.value),
            WriteU8(threshold.value), threshold.rest);
    Some(Decoded(ix, threshold.rest))
  }

  function ReadCastVerificationVote(bs: Bytes): (r: Option<Decoded<RetroInstruction>>)
    ensures r.Some? ==> r.value.value.CastVerificationVote? && Encodable(r.value.value)
    ensures r.Some? ==> bs == PackPayload(r.value.value) + r.value.rest
  {
    var item :- ReadU64(bs);
    var approved :- ReadBool(item.rest);
    var ix := CastVerificationVote(item.value, approved.value);
    assert bs == PackPayload(ix) + approved.rest;
    Some(Decoded(ix, approved.rest))
  }

  /** The payload reader of a discriminator that carries one (1, 2 and 4..11). */
  function ReadPayload(tag: Byte, bs: Bytes): (r: Option<Decoded<RetroInstruction>>)
    requires tag !in {INIT_FACILITATOR_REGISTRY, CLOSE_BOARD} && tag <= 11
    ensures r.Some? ==> Encodable(r.value.value) && Tag(r.value.value) == tag
    ensures r.Some? ==> bs == PackPayload(r.value.value) + r.value.rest
  {
    if tag == CREATE_BOARD then ReadCreateBoard(bs)
    else if tag == ADVANCE_STAGE then ReadAdvanceStage(bs)
    else if tag == CREATE_NOTE then ReadCreateNote(bs)
    else if tag == CREATE_GROUP then ReadCreateGroup(bs)
    else if tag == SET_GROUP_TITLE then ReadSetGroupTitle(bs)
    else if tag == ASSIGN_NOTE_TO_GROUP then ReadAssignNote(bs)
    else if tag == UNASSIGN_NOTE then ReadUnassignNote(bs)
    else if tag == CAST_VOTE then ReadCastVote(bs)
    else if tag == CREATE_ACTION_ITEM then ReadCreateActionItem(bs)
    else ReadCastVerificationVote(bs)
  }

  /**
   * `RetroInstruction::unpack`. Discriminators 0 and 3 carry no payload and
   * ignore anything after the first byte; every other payload is read with
   * `try_from_slice`, which rejects trailing bytes. Every failure is
   * `InvalidInstructionData`.
   */
  function Unpack(input: Bytes): (r: Result<RetroInstruction, NativeError>)
    ensures r.Err? ==> r.error == InvalidInstructionData
    ensures |input| == 0 ==> r.Err?
    ensures |input| > 0 && input[0] > 11 ==> r.Err?
    ensures r.Ok? ==> |input| > 0 && Tag(r.value) == input[0]
    ensures r.Ok? ==> Encodable(r.value)
    // whatever decodes is the encoding of what it decodes to: exactly, for
    // instructions with a payload; in its first byte, for the two without
    ensures r.Ok? && !(r.value.InitFacilitatorRegistry? || r.value.CloseBoard?) ==> input == Pack(r.value)
    ensures r.Ok? && (r.value.InitFacilitatorRegistry? || r.value.CloseBoard?) ==> input[..1] == Pack(r.value)
  {
    if |input| == 0 then Err(InvalidInstructionData)
    else
      var tag := input[0];
      if tag == INIT_FACILITATOR_REGISTRY then Ok(InitFacilitatorRegistry)
      else if tag == CLOSE_BOARD then Ok(CloseBoard)
      else if tag > 11 then Err(InvalidInstructionData)
      else match ReadPayload(tag, input[1..])
        case Some(d) =>
          if |d.rest| == 0 then
            assert input == [tag] + PackPayload(d.value) + d.rest;
            Ok(d.value)
          else Err(InvalidInstructionData)
        case None => Err(InvalidInstructionData)
  }

  // ---------------------------------------------------------------------
  // Properties of the format
  // ---------------------------------------------------------------------

  /** The two payload-less discriminators decode whatever follows them. */
  lemma PayloadlessIgnoresTrailing(trailing: Bytes)
    ensures Unpack([INIT_FACILITATOR_REGISTRY] + trailing) == Ok(InitFacilitatorRegistry)
    ensures Unpack([CLOSE_BOARD] + trailing) == Ok(CloseBoard)
  {
  }

  /** The stage byte of `AdvanceStage`: 0..4 name Setup..Discuss in order, anything else is rejected. */
  lemma AdvanceStageByte(b: Byte)
    ensures b <= 4 ==> Unpack([ADVANCE_STAGE, b]) == Ok(AdvanceStage(FromByte(b).value))
    ensures b <= 4 ==> Discriminant(FromByte(b).value) == b
    ensures b > 4 ==> Unpack([ADVANCE_STAGE, b]) == Err(InvalidInstructionData)
  {
    var input: Bytes := [ADVANCE_STAGE, b];
    assert input[1..] == [b];
  }

  lemma ReadCreateBoardPack(cats: seq<Bytes>, allow: seq<Pubkey>, credits: Option<U8>, rest: Bytes)
    requires Encodable(CreateBoard(cats, allow, credits))
    ensures ReadCreateBoard(PackPayload(CreateBoard(cats, allow, credits)) + rest)
            == Some(Decoded(CreateBoard(cats, allow, credits), rest))
  {
    var ix := CreateBoard(cats, allow, credits);
    assert PackPayload(ix) + rest == WriteStringVec(cats) + (WritePubkeyVec(allow) + (WriteOptionU8(credits) + rest));
    ReadWriteStringVec(cats, WritePubkeyVec(allow) + (WriteOptionU8(credits) + rest));
    ReadWritePubkeyVec(allow, WriteOptionU8(credits) + rest);
    ReadWriteOptionU8(credits, rest);
  }

  lemma ReadCreateActionItemPack(desc: Bytes, owner: Pubkey, verifiers: seq<Pubkey>, threshold: U8, rest: Bytes)
    requires Encodable(CreateActionItem(desc, owner, verifiers, threshold))
    ensures ReadCreateActionItem(PackPayload(CreateActionItem(desc, owner, verifiers, threshold)) + rest)
            == Some(Decoded(CreateActionItem(desc, owner, verifiers, threshold), rest))
  {
    Concat4(WriteString(desc), WritePubkey(owner), WritePubkeyVec(verifiers), WriteU8(threshold), rest);
    ReadWriteString(desc, WritePubkey(owner) + (WritePubkeyVec(verifiers) + (WriteU8(threshold) + rest)));
    ReadWritePubkey(owner, WritePubkeyVec(verifiers) + (WriteU8(threshold) + rest));
    ReadWritePubkeyVec(verifiers, WriteU8(threshold) + rest);
    ReadWriteU8(threshold, rest);
  }

  lemma ReadAdvanceStagePack(st: Stage, rest: Bytes)
    ensures ReadAdvanceStage(PackPayload(AdvanceStage(st)) + rest) == Some(Decoded(AdvanceStage(st), rest))
  {
    ReadWriteU8(Discriminant(st), rest);
    DiscriminantRoundTrip(st, st);
  }

  lemma ReadCreateNotePack(cat: U8, content: Bytes, rest: Bytes)
    requires Encodable(CreateNote(cat, content))
    ensures ReadCreateNote(PackPayload(CreateNote(cat, content)) + rest) == Some(Decoded(CreateNote(cat, content), rest))
  {
    assert PackPayload(CreateNote(cat, content)) + rest == WriteU8(cat) + (WriteString(content) + rest);
    ReadWriteU8(cat, WriteString(content) + rest);
    ReadWriteString(content, rest);
  }

  lemma ReadCreateGroupPack(title: Bytes, rest: Bytes)
    requires Encodable(CreateGroup(title))
    ensures ReadCreateGroup(PackPayload(CreateGroup(title)) + rest) == Some(Decoded(CreateGroup(title), rest))
  {
    ReadWriteString(title, rest);
  }

  lemma ReadSetGroupTitlePack(g: U64, title: Bytes, rest: Bytes)
    requires Encodable(SetGroupTitle(g, title))
    ensures ReadSetGroupTitle(PackPayload(SetGroupTitle(g, title)) + rest) == Some(Decoded(SetGroupTitle(g, title), rest))
  {
    assert PackPayload(SetGroupTitle(g, title)) + rest == WriteU64(g) + (WriteString(title) + rest);
    ReadWriteU64(g, WriteString(title) + rest);
    ReadWriteString(title, rest);
  }

  lemma ReadAssignNotePack(n: U64, g: U64, rest: Bytes)
    ensures ReadAssignNote(PackPayload(AssignNoteToGroup(n, g)) + rest) == Some(Decoded(AssignNoteToGroup(n, g), rest))
  {
    assert PackPayload(AssignNoteToGroup(n, g)) + rest == WriteU64(n) + (WriteU64(g) + rest);
    ReadWriteU64(n, WriteU64(g) + rest);
    ReadWriteU64(g, rest);
  }

  lemma ReadUnassignNotePack(n: U64, rest: Bytes)
    ensures ReadUnassignNote(PackPayload(UnassignNote(n)) + rest) == Some(Decoded(UnassignNote(n), rest))
  {
    ReadWriteU64(n, rest);
  }

  lemma ReadCastVotePack(g: U64, delta: U8, rest: Bytes)
    ensures ReadCastVote(PackPayload(CastVote(g, delta)) + rest) == Some(Decoded(CastVote(g, delta), rest))
  {
    assert PackPayload(CastVote(g, delta)) + rest == WriteU64(g) + (WriteU8(delta) + rest);
    ReadWriteU64(g, WriteU8(delta) + rest);
    ReadWriteU8(delta, rest);
  }

  lemma ReadCastVerificationVotePack(item: U64, approved: bool, rest: Bytes)
    ensures ReadCastVerificationVote(PackPayload(CastVerificationVote(item, approved)) + rest) == Some(Decoded(CastVerificationVote(item, approved), rest))
  {
    assert PackPayload(CastVerificationVote(item, approved)) + rest == WriteU64(item) + (WriteBool(approved) + rest);
    ReadWriteU64(item, WriteBool(approved) + rest);
    ReadWriteBool(approved, rest);
  }

  /** Each payload reader inverts the payload encoding and leaves the rest untouched. */
  lemma ReadPayloadPack(ix: RetroInstruction, rest: Bytes)
    requires Encodable(ix) && !ix.InitFacilitatorRegistry? && !ix.CloseBoard?
    ensures ReadPayload(Tag(ix), PackPayload(ix) + rest) == Some(Decoded(ix, rest))
  {
    match ix
    case CreateBoard(cats, allow, credits) => ReadCreateBoardPack(cats, allow, credits, rest);
    case AdvanceStage(st) => ReadAdvanceStagePack(st, rest);
    case CreateNote(cat, content) => ReadCreateNotePack(cat, content, rest);
    case CreateGroup(title) => ReadCreateGroupPack(title, rest);
    case SetGroupTitle(g, title) => ReadSetGroupTitlePack(g, title, rest);
    case AssignNoteToGroup(n, g) => ReadAssignNotePack(n, g, rest);
    case UnassignNote(n) => ReadUnassignNotePack(n, rest);
    case CastVote(g, delta) => ReadCastVotePack(g, delta, rest);
    case CreateActionItem(desc, owner, verifiers, threshold) =>
      ReadCreateActionItemPack(desc, owner, verifiers, threshold, rest);
    case CastVerificationVote(item, approved) => ReadCastVerificationVotePack(item, approved, rest);
  }

  /** Every encodable instruction decodes back from its encoding. */
  lemma UnpackPack(ix: RetroInstruction)
    requires Encodable(ix)
    ensures Unpack(Pack(ix)) == Ok(ix)
  {
    var bs := Pack(ix);
    assert bs[1..] == PackPayload(ix) + [];
    if !ix.InitFacilitatorRegistry? && !ix.CloseBoard? {
      ReadPayloadPack(ix, []);
    }
  }
}

=== FILE: native_invariants.dfy ===
/**
 * What a ledger built by the native program's handlers always satisfies,
 * and the proofs that each handler keeps it.
 */
module NativeInvariants {
  import opened Wrappers
  import opened Primitives
  import opened Stages
  import opened NativeState
  import opened NativeProcessor

  // ---------------------------------------------------------------------
  // The invariant
  // ---------------------------------------------------------------------

  /** Every record sits at the address derived from its own identity fields. */
  predicate WellPlaced(a: Address, acct: Account) {
    match acct
    case RegistryAccount(reg) => a == RegistryPda(reg.facilitator)
    case BoardAccount(b) => a == BoardPda(b.facilitator, b.boardIndex)
    case MembershipAccount(m) => a == MembershipPda(m.board, m.participant)
    case NoteAccount(n) => a == NotePda(n.board, n.noteId)
    case GroupAccount(g) => a == GroupPda(g.board, g.groupId)
    case VoteRecordAccount(v) => a == VotePda(v.board, v.participant, v.groupId)
    case ActionItemAccount(it) => a == ActionItemPda(it.board, it.itemId)
    case VerificationVoteAccount(vv) => a == VerificationPda(vv.actionItem, vv.verifier)
  }

  function BoardAt(l: Ledger, a: Address): RetroBoard
    requires HasBoard(l, a)
  {
    l[a].board
  }

  predicate HasMembership(l: Ledger, a: Address) {
    a in l && l[a].MembershipAccount?
  }

  predicate HasGroup(l: Ledger, a: Address) {
    a in l && l[a].GroupAccount?
  }

  predicate HasItem(l: Ledger, a: Address) {
    a in l && l[a].ActionItemAccount?
  }

  /**
   * An action item as creation leaves it and verification keeps it: a
   * bounded verifier list without the owner, a threshold between one and
   * the list's length, and approvals that stop exactly at the threshold,
   * where the item completes.
   */
  predicate ItemWellFormed(it: ActionItem) {
    && |it.verifiers| <= MAX_VERIFIERS
    && 1 <= it.threshold <= |it.verifiers|
    && it.owner !in it.verifiers
    && (it.status == Pending <==> it.approvals < it.threshold)
    && (it.status == Completed <==> it.approvals == it.threshold)
    && (it.status == Completed <==> it.verifiedAtSlot.Some?)
  }

  /** The facts about one account that refer to the rest of the ledger. */
  predicate Linked(l: Ledger, acct: Account) {
    match acct
    case RegistryAccount(_) => true
    case BoardAccount(b) =>
      && (b.closed ==> b.stage == Discuss)
      && var reg := RegistryPda(b.facilitator);
         reg in l && l[reg].RegistryAccount? && b.boardIndex < l[reg].registry.boardCount
    case MembershipAccount(m) =>
      HasBoard(l, m.board) && m.creditsSpent <= BoardAt(l, m.board).votingCredits
    case NoteAccount(n) =>
      && HasBoard(l, n.board) && n.noteId < BoardAt(l, n.board).noteCount
      && (n.groupId.Some? ==> HasGroup(l, GroupPda(n.board, n.groupId.value)))
    case GroupAccount(g) =>
      HasBoard(l, g.board) && g.groupId < BoardAt(l, g.board).groupCount
    case VoteRecordAccount(v) =>
      && HasBoard(l, v.board)
      && var m := MembershipPda(v.board, v.participant);
         var g := GroupPda(v.board, v.groupId);
         && HasMembership(l, m) && v.creditsSpent <= l[m].membership.creditsSpent
         && HasGroup(l, g) && v.creditsSpent <= l[g].group.voteTally
    case ActionItemAccount(it) =>
      && HasBoard(l, it.board) && it.itemId < BoardAt(l, it.board).actionItemCount
      && it.owner in BoardAt(l, it.board).allowlist
      && ItemWellFormed(it)
    case VerificationVoteAccount(vv) =>
      && HasItem(l, vv.actionItem)
      && var it := l[vv.actionItem].item;
         && vv.verifier in it.verifiers
         && HasBoard(l, it.board) && BoardAt(l, it.board).closed
  }

  /** Every allowlisted participant of a board has a membership on it. */
  predicate MembershipsExist(l: Ledger, a: Address) {
    HasBoard(l, a) ==> forall p :: p in BoardAt(l, a).allowlist ==> HasMembership(l, MembershipPda(a, p))
  }

  predicate AccountOk(l: Ledger, a: Address)
    requires a in l
  {
    WellPlaced(a, l[a]) && Linked(l, l[a]) && MembershipsExist(l, a)
  }

  predicate Valid(l: Ledger) {
    forall a :: a in l ==> AccountOk(l, a)
  }

  // ---------------------------------------------------------------------
  // How accounts may evolve
  // ---------------------------------------------------------------------

  /** A board keeps its identity, allowlist and budget; its counters only grow; it never reopens. */
  predicate BoardEvolves(b: RetroBoard, b': RetroBoard) {
    && b'.facilitator == b.facilitator && b'.boardIndex == b.boardIndex
    && b'.allowlist == b.allowlist && b'.votingCredits == b.votingCredits
    && b'.noteCount >= b.noteCount && b'.groupCount >= b.groupCount && b'.actionItemCount >= b.actionItemCount
    && (b'.stage == b.stage || CanAdvanceTo(b.stage, b'.stage))
    && (b.closed ==> b'.closed)
  }

  /** What any handler may do to an existing account. */
  predicate Evolves(x: Account, y: Account) {
    match x
    case RegistryAccount(r) =>
      y.RegistryAccount? && y.registry.facilitator == r.facilitator && y.registry.boardCount >= r.boardCount
    case BoardAccount(b) => y.BoardAccount? && BoardEvolves(b, y.board)
    case MembershipAccount(m) =>
      && y.MembershipAccount? && y.membership.board == m.board && y.membership.participant == m.participant
      && y.membership.creditsSpent >= m.creditsSpent
    case NoteAccount(n) => y.NoteAccount? && y.note.board == n.board && y.note.noteId == n.noteId
    case GroupAccount(g) =>
      && y.GroupAccount? && y.group.board == g.board && y.group.groupId == g.groupId
      && y.group.voteTally >= g.voteTally
    case VoteRecordAccount(v) =>
      && y.VoteRecordAccount? && y.record.board == v.board && y.record.participant == v.participant
      && y.record.groupId == v.groupId
    case ActionItemAccount(it) =>
      && y.ActionItemAccount? && y.item.board == it.board && y.item.itemId == it.itemId
      && y.item.owner == it.owner && y.item.verifiers == it.verifiers && y.item.threshold == it.threshold
      && (it.status == Completed ==> y == x)
    case VerificationVoteAccount(_) => y == x
  }

  predicate Extends(l: Ledger, l': Ledger) {
    forall a :: a in l ==> a in l' && Evolves(l[a], l'[a])
  }

  /** An account whose record did not change stays in order when the rest of the ledger only evolves. */
  lemma UnchangedStaysOk(l: Ledger, l': Ledger, a: Address)
    requires a in l && AccountOk(l, a) && Extends(l, l')
    requires a in l' && l'[a] == l[a]
    ensures AccountOk(l', a)
  {
    match l[a]
    case RegistryAccount(_) =>
    case BoardAccount(b) =>
      var reg := RegistryPda(b.facilitator);
      assert Evolves(l[reg], l'[reg]);
      forall p | p in b.allowlist ensures HasMembership(l', MembershipPda(a, p)) {
        assert Evolves(l[MembershipPda(a, p)], l'[MembershipPda(a, p)]);
      }
    case MembershipAccount(m) =>
      assert Evolves(l[m.board], l'[m.board]);
    case NoteAccount(n) =>
      assert Evolves(l[n.board], l'[n.board]);
      if n.groupId.Some? {
        assert Evolves(l[GroupPda(n.board, n.groupId.value)], l'[GroupPda(n.board, n.groupId.value)]);
      }
    case GroupAccount(g) =>
      assert Evolves(l[g.board], l'[g.board]);
    case VoteRecordAccount(v) =>
      assert Evolves(l[v.board], l'[v.board]);
      assert Evolves(l[MembershipPda(v.board, v.participant)], l'[MembershipPda(v.board, v.participant)]);
      assert Evolves(l[GroupPda(v.board, v.groupId)], l'[GroupPda(v.board, v.groupId)]);
    case ActionItemAccount(it) =>
      assert Evolves(l[it.board], l'[it.board]);
    case VerificationVoteAccount(vv) =>
      var it := l[vv.actionItem].item;
      assert Evolves(l[vv.actionItem], l'[vv.actionItem]);
      assert Evolves(l[it.board], l'[it.board]);
  }

  /** The facts about an account that depend on its own, possibly updated, contents. */
  predicate OwnOk(l: Ledger, acct: Account) {
    match acct
    case BoardAccount(b) => b.closed ==> b.stage == Discuss
    case MembershipAccount(m) => HasBoard(l, m.board) && m.creditsSpent <= BoardAt(l, m.board).votingCredits
    case NoteAccount(n) => n.groupId.Some? ==> HasGroup(l, GroupPda(n.board, n.groupId.value))
    case VoteRecordAccount(_) => Linked(l, acct)
    case ActionItemAccount(it) => ItemWellFormed(it)
    case _ => true
  }

  /** An account that evolved and whose own facts hold stays in order. */
  lemma EvolvedStaysOk(l: Ledger, l': Ledger, a: Address)
    requires a in l && AccountOk(l, a) && Extends(l, l')
    requires a in l' && OwnOk(l', l'[a])
    ensures AccountOk(l', a)
  {
    assert Evolves(l[a], l'[a]);
    match l[a]
    case RegistryAccount(_) =>
    case BoardAccount(b) =>
      var reg := RegistryPda(b.facilitator);
      assert Evolves(l[reg], l'[reg]);
      forall p | p in b.allowlist ensures HasMembership(l', MembershipPda(a, p)) {
        assert Evolves(l[MembershipPda(a, p)], l'[MembershipPda(a, p)]);
      }
    case MembershipAccount(m) =>
    case NoteAccount(n) =>
      assert Evolves(l[n.board], l'[n.board]);
    case GroupAccount(g) =>
      assert Evolves(l[g.board], l'[g.board]);
    case VoteRecordAccount(v) =>
    case ActionItemAccount(it) =>
      assert Evolves(l[it.board], l'[it.board]);
    case VerificationVoteAccount(vv) =>
      UnchangedStaysOk(l, l', a);
  }

  // ---------------------------------------------------------------------
  // One successful instruction
  // ---------------------------------------------------------------------

  /** A closed board, and the notes, groups and vote records on it. */
  predicate Frozen(l: Ledger, a: Address)
    requires a in l
  {
    match l[a]
    case BoardAccount(b) => b.closed
    case NoteAccount(n) => HasBoard(l, n.board) && BoardAt(l, n.board).closed
    case GroupAccount(g) => HasBoard(l, g.board) && BoardAt(l, g.board).closed
    case VoteRecordAccount(v) => HasBoard(l, v.board) && BoardAt(l, v.board).closed
    case _ => false
  }

  /** What one successful instruction does to the ledger: accounts only evolve, and frozen ones stay as they are. */
  predicate Step(l: Ledger, l': Ledger) {
    && Extends(l, l')
    && forall a :: a in l && Frozen(l, a) ==> a in l' && l'[a] == l[a]
  }

  lemma InitFacilitatorRegistryKeepsValid(l: Ledger, accounts: seq<AccountRef>)
    requires Valid(l) && InitFacilitatorRegistry(l, accounts).Ok?
    ensures Valid(InitFacilitatorRegistry(l, accounts).value)
    ensures Step(l, InitFacilitatorRegistry(l, accounts).value)
  {
    var l' := InitFacilitatorRegistry(l, accounts).value;
    assert Extends(l, l');
    forall a | a in l' ensures AccountOk(l', a) {
      if a in l { UnchangedStaysOk(l, l', a); }
    }
  }

  lemma AdvanceStageKeepsValid(l: Ledger, accounts: seq<AccountRef>, slot: nat, newStage: Stage)
    requires Valid(l) && AdvanceStage(l, accounts, slot, newStage).Ok?
    ensures Valid(AdvanceStage(l, accounts, slot, newStage).value)
    ensures Step(l, AdvanceStage(l, accounts, slot, newStage).value)
  {
    var l' := AdvanceStage(l, accounts, slot, newStage).value;
    var bk := accounts[0].key;
    assert Extends(l, l');
    forall a | a in l' ensures AccountOk(l', a) {
      assert AccountOk(l, a);
      if a == bk { EvolvedStaysOk(l, l', a); } else { UnchangedStaysOk(l, l', a); }
    }
  }

  lemma CloseBoardKeepsValid(l: Ledger, accounts: seq<AccountRef>)
    requires Valid(l) && CloseBoard(l, accounts).Ok?
    ensures Valid(CloseBoard(l, accounts).value)
    ensures Step(l, CloseBoard(l, accounts).value)
  {
    var l' := CloseBoard(l, accounts).value;
    var bk := accounts[0].key;
    assert Extends(l, l');
    forall a | a in l' ensures AccountOk(l', a) {
      assert AccountOk(l, a);
      if a == bk { EvolvedStaysOk(l, l', a); } else { UnchangedStaysOk(l, l', a); }
    }
  }

  function MembershipKeys(board: Address, allowlist: seq<Address>): set<Address> {
    set m | m in allowlist :: MembershipPda(board, m)
  }

  /** Board creation as an update: the new board, the registry's counter, and one fresh membership per allowlist entry. */
  predicate BoardCreation(l: Ledger, l': Ledger, rk: Address, bk: Address, allowlist: seq<Address>) {
    && rk in l && l[rk].RegistryAccount? && bk !in l
    && var reg := l[rk].registry;
       && rk == RegistryPda(reg.facilitator)
       && ChangesOnly(l, l', {bk, rk} + MembershipKeys(bk, allowlist))
       && bk in l' && l'[bk].BoardAccount?
       && var b := l'[bk].board;
          && bk == BoardPda(b.facilitator, b.boardIndex)
          && b.facilitator == reg.facilitator && b.boardIndex == reg.boardCount
          && !b.closed && b.allowlist == allowlist
          && rk in l' && l'[rk] == RegistryAccount(reg.(boardCount := reg.boardCount + 1))
          && forall m :: m in allowlist ==>
               MembershipPda(bk, m) in l' && l'[MembershipPda(bk, m)] == MembershipAccount(FreshMembership(bk, m))
  }

  lemma CreateBoardIsCreation(l: Ledger, accounts: seq<AccountRef>, slot: nat, categories: seq<Bytes>,
                              allowlist: seq<Address>, credits: Option<U8>)
    requires Valid(l) && CreateBoard(l, accounts, slot, categories, allowlist, credits).Ok?
    ensures BoardCreation(l, CreateBoard(l, accounts, slot, categories, allowlist, credits).value,
                          accounts[0].key, accounts[1].key, allowlist)
  {
    assert AccountOk(l, accounts[0].key);
  }

  lemma BoardCreationIsStep(l: Ledger, l': Ledger, rk: Address, bk: Address, allowlist: seq<Address>)
    requires Valid(l) && BoardCreation(l, l', rk, bk, allowlist)
    ensures Step(l, l')
  {
    forall a | a in l ensures a in l' && Evolves(l[a], l'[a]) {
      if a != rk {
        if a in MembershipKeys(bk, allowlist) {
          assert false;
        }
        assert l'[a] == l[a];
      }
    }
  }

  lemma BoardCreationKeepsValid(l: Ledger, l': Ledger, rk: Address, bk: Address, allowlist: seq<Address>)
    requires Valid(l) && BoardCreation(l, l', rk, bk, allowlist)
    ensures Valid(l') && Step(l, l')
  {
    BoardCreationIsStep(l, l', rk, bk, allowlist);
    forall a | a in l' ensures AccountOk(l', a) {
      if a == bk {
      } else if a in l {
        assert AccountOk(l, a);
        if a == rk { EvolvedStaysOk(l, l', a); } else { UnchangedStaysOk(l, l', a); }
      } else {
        assert a in MembershipKeys(bk, allowlist);
      }
    }
  }

  lemma CreateBoardKeepsValid(l: Ledger, accounts: seq<AccountRef>, slot: nat, categories: seq<Bytes>,
                              allowlist: seq<Address>, credits: Option<U8>)
    requires Valid(l) && CreateBoard(l, accounts, slot, categories, allowlist, credits).Ok?
    ensures Valid(CreateBoard(l, accounts, slot, categories, allowlist, credits).value)
    ensures Step(l, CreateBoard(l, accounts, slot, categories, allowlist, credits).value)
  {
    CreateBoardIsCreation(l, accounts, slot, categories, allowlist, credits);
    BoardCreationKeepsValid(l, CreateBoard(l, accounts, slot, categories, allowlist, credits).value,
                            accounts[0].key, accounts[1].key, allowlist);
  }

  lemma CreateNoteKeepsValid(l: Ledger, accounts: seq<AccountRef>, slot: nat, categoryId: U8, content: Bytes)
    requires Valid(l) && CreateNote(l, accounts, slot, categoryId, content).Ok?
    ensures Valid(CreateNote(l, accounts, slot, categoryId, content).value)
    ensures Step(l, CreateNote(l, accounts, slot, categoryId, content).value)
  {
    var l' := CreateNote(l, accounts, slot, categoryId, content).value;
    var bk := accounts[0].key;
    assert Extends(l, l');
    forall a | a in l' ensures AccountOk(l', a) {
      if a in l {
        assert AccountOk(l, a);
        if a == bk { EvolvedStaysOk(l, l', a); } else { UnchangedStaysOk(l, l', a); }
      }
    }
  }

  lemma CreateGroupKeepsValid(l: Ledger, accounts: seq<AccountRef>, title: Bytes)
    requires Valid(l) && CreateGroup(l, accounts, title).Ok?
    ensures Valid(CreateGroup(l, accounts, title).value)
    ensures Step(l, CreateGroup(l, accounts, title).value)
  {
    var l' := CreateGroup(l, accounts, title).value;
    var bk := accounts[0].key;
    assert Extends(l, l');
    forall a | a in l' ensures AccountOk(l', a) {
      if a in l {
        assert AccountOk(l, a);
        if a == bk { EvolvedStaysOk(l, l', a); } else { UnchangedStaysOk(l, l', a); }
      }
    }
  }

  lemma CreateActionItemKeepsValid(l: Ledger, accounts: seq<AccountRef>, slot: nat, description: Bytes, owner: Address,
                                   verifiers: seq<Address>, threshold: U8)
    requires Valid(l) && CreateActionItem(l, accounts, slot, description, owner, verifiers, threshold).Ok?
    ensures Valid(CreateActionItem(l, accounts, slot, description, owner, verifiers, threshold).value)
    ensures Step(l, CreateActionItem(l, accounts, slot, description, owner, verifiers, threshold).value)
  {
    var l' := CreateActionItem(l, accounts, slot, description, owner, verifiers, threshold).value;
    var bk := accounts[0].key;
    assert Extends(l, l');
    forall a | a in l' ensures AccountOk(l', a) {
      if a in l {
        assert AccountOk(l, a);
        if a == bk { EvolvedStaysOk(l, l', a); } else { UnchangedStaysOk(l, l', a); }
      }
    }
  }

  lemma SetGroupTitleKeepsValid(l: Ledger, accounts: seq<AccountRef>, groupId: nat, title: Bytes)
    requires Valid(l) && SetGroupTitle(l, accounts, groupId, title).Ok?
    ensures Valid(SetGroupTitle(l, accounts, groupId, title).value)
    ensures Step(l, SetGroupTitle(l, accounts, groupId, title).value)
  {
    var l' := SetGroupTitle(l, accounts, groupId, title).value;
    var gk := accounts[1].key;
    assert AccountOk(l, gk);
    assert Extends(l, l');
    forall a | a in l' ensures AccountOk(l', a) {
      assert AccountOk(l, a);
      if a == gk { EvolvedStaysOk(l, l', a); } else { UnchangedStaysOk(l, l', a); }
    }
  }

  lemma AssignNoteToGroupKeepsValid(l: Ledger, accounts: seq<AccountRef>, noteId: nat, groupId: nat)
    requires Valid(l) && AssignNoteToGroup(l, accounts, noteId, groupId).Ok?
    ensures Valid(AssignNoteToGroup(l, accounts, noteId, groupId).value)
    ensures Step(l, AssignNoteToGroup(l, accounts, noteId, groupId).value)
  {
    var l' := AssignNoteToGroup(l, accounts, noteId, groupId).value;
    var nk := accounts[1].key;
    assert AccountOk(l, nk);
    assert Extends(l, l');
    forall a | a in l' ensures AccountOk(l', a) {
      assert AccountOk(l, a);
      if a == nk { EvolvedStaysOk(l, l', a); } else { UnchangedStaysOk(l, l', a); }
    }
  }

  lemma UnassignNoteKeepsValid(l: Ledger, accounts: seq<AccountRef>, noteId: nat)
    requires Valid(l) && UnassignNote(l, accounts, noteId).Ok?
    ensures Valid(UnassignNote(l, accounts, noteId).value)
    ensures Step(l, UnassignNote(l, accounts, noteId).value)
  {
    var l' := UnassignNote(l, accounts, noteId).value;
    var nk := accounts[1].key;
    assert AccountOk(l, nk);
    assert Extends(l, l');
    forall a | a in l' ensures AccountOk(l', a) {
      assert AccountOk(l, a);
      if a == nk { EvolvedStaysOk(l, l', a); } else { UnchangedStaysOk(l, l', a); }
    }
  }

  /** A vote as an update of three accounts: the voter's membership, the group and the vote record. */
  predicate VoteUpdate(l: Ledger, l': Ledger, bk: Address, voter: Address, groupId: nat, delta: U8) {
    var mk, gk, vk := MembershipPda(bk, voter), GroupPda(bk, groupId), VotePda(bk, voter, groupId);
    && HasBoard(l, bk) && !BoardAt(l, bk).closed
    && HasMembership(l, mk) && HasGroup(l, gk)
    && ChangesOnly(l, l', {mk, gk, vk})
    && mk in l' && gk in l' && vk in l'
    && var m, g, v := l[mk].membership, l[gk].group, RecordBefore(l, bk, voter, groupId);
       && (vk in l ==> l[vk].VoteRecordAccount?)
       && m.creditsSpent + delta <= BoardAt(l, bk).votingCredits
       && v.creditsSpent + delta < 0x100 && g.voteTally + delta < 0x1_0000_0000_0000_0000
       && l'[mk] == MembershipAccount(m.(creditsSpent := m.creditsSpent + delta))
       && l'[gk] == GroupAccount(g.(voteTally := g.voteTally + delta))
       && l'[vk] == VoteRecordAccount(v.(creditsSpent := v.creditsSpent + delta))
  }

  lemma CastVoteIsVoteUpdate(l: Ledger, accounts: seq<AccountRef>, groupId: nat, delta: U8)
    requires Valid(l) && CastVote(l, accounts, groupId, delta).Ok?
    ensures VoteUpdate(l, CastVote(l, accounts, groupId, delta).value, accounts[0].key, accounts[4].key, groupId, delta)
  {
    var bk, voter := accounts[0].key, accounts[4].key;
    assert AccountOk(l, bk);
    assert HasMembership(l, MembershipPda(bk, voter));
    var vk := VotePda(bk, voter, groupId);
    if vk in l {
      assert AccountOk(l, vk);
    }
  }

  lemma VoteUpdateExtends(l: Ledger, l': Ledger, bk: Address, voter: Address, groupId: nat, delta: U8)
    requires Valid(l) && VoteUpdate(l, l', bk, voter, groupId, delta)
    ensures Extends(l, l')
  {
    var mk, gk, vk := MembershipPda(bk, voter), GroupPda(bk, groupId), VotePda(bk, voter, groupId);
    forall a | a in l ensures a in l' && Evolves(l[a], l'[a]) {
      if a == vk {
        assert AccountOk(l, vk);
      } else if a != mk && a != gk {
        assert l'[a] == l[a];
      }
    }
  }

  lemma VoteUpdateIsStep(l: Ledger, l': Ledger, bk: Address, voter: Address, groupId: nat, delta: U8)
    requires Valid(l) && VoteUpdate(l, l', bk, voter, groupId, delta)
    ensures Step(l, l')
  {
    var mk, gk, vk := MembershipPda(bk, voter), GroupPda(bk, groupId), VotePda(bk, voter, groupId);
    VoteUpdateExtends(l, l', bk, voter, groupId, delta);
    forall a | a in l && Frozen(l, a) ensures a in l' && l'[a] == l[a] {
      if a == gk || a == vk {
        assert AccountOk(l, a);
      }
    }
  }

  lemma VoteRecordStaysOk(l: Ledger, l': Ledger, bk: Address, voter: Address, groupId: nat, delta: U8)
    requires Valid(l) && VoteUpdate(l, l', bk, voter, groupId, delta) && Extends(l, l')
    ensures AccountOk(l', VotePda(bk, voter, groupId))
  {
    var vk := VotePda(bk, voter, groupId);
    if vk in l {
      assert AccountOk(l, vk);
      EvolvedStaysOk(l, l', vk);
    }
  }

  lemma VoteUpdateKeepsValid(l: Ledger, l': Ledger, bk: Address, voter: Address, groupId: nat, delta: U8)
    requires Valid(l) && VoteUpdate(l, l', bk, voter, groupId, delta)
    ensures Valid(l') && Step(l, l')
  {
    var mk, gk, vk := MembershipPda(bk, voter), GroupPda(bk, groupId), VotePda(bk, voter, groupId);
    VoteUpdateIsStep(l, l', bk, voter, groupId, delta);
    forall a | a in l' ensures AccountOk(l', a) {
      if a == vk {
        VoteRecordStaysOk(l, l', bk, voter, groupId, delta);
      } else {
        assert AccountOk(l, a);
        if a == mk || a == gk { EvolvedStaysOk(l, l', a); } else { UnchangedStaysOk(l, l', a); }
      }
    }
  }

  lemma CastVoteKeepsValid(l: Ledger, accounts: seq<AccountRef>, groupId: nat, delta: U8)
    requires Valid(l) && CastVote(l, accounts, groupId, delta).Ok?
    ensures Valid(CastVote(l, accounts, groupId, delta).value)
    ensures Step(l, CastVote(l, accounts, groupId, delta).value)
  {
    CastVoteIsVoteUpdate(l, accounts, groupId, delta);
    VoteUpdateKeepsValid(l, CastVote(l, accounts, groupId, delta).value, accounts[0].key, accounts[4].key, groupId, delta);
  }

  lemma AfterVerificationVoteWellFormed(item: ActionItem, approved: bool, slot: nat)
    requires ItemWellFormed(item) && item.status == Pending
    ensures ItemWellFormed(AfterVerificationVote(item, approved, slot))
  {
  }

  /** A verification vote as an update: a new vote account, the item, and the owner's membership. */
  predicate VerificationUpdate(l: Ledger, l': Ledger, bk: Address, ik: Address, verifier: Address, approved: bool, slot: nat) {
    && HasBoard(l, bk) && BoardAt(l, bk).closed
    && HasItem(l, ik)
    && var item := l[ik].item;
       var vk, ok := VerificationPda(ik, verifier), MembershipPda(bk, item.owner);
       && item.board == bk && item.status == Pending && verifier in item.verifiers
       && vk !in l && HasMembership(l, ok)
       && ChangesOnly(l, l', {ik, vk, ok})
       && ik in l' && vk in l' && ok in l'
       && l'[vk] == VerificationVoteAccount(VerificationVote(ik, verifier, approved, slot))
       && l'[ik] == ActionItemAccount(AfterVerificationVote(item, approved, slot))
       && var m := l[ok].membership;
          l'[ok] == MembershipAccount(m.(totalScore := m.totalScore + if Completes(item, approved) then 1 else 0))
  }

  lemma CastVerificationVoteIsUpdate(l: Ledger, accounts: seq<AccountRef>, slot: nat, itemId: nat, approved: bool)
    requires Valid(l) && CastVerificationVote(l, accounts, slot, itemId, approved).Ok?
    ensures VerificationUpdate(l, CastVerificationVote(l, accounts, slot, itemId, approved).value,
                               accounts[0].key, accounts[1].key, accounts[4].key, approved, slot)
  {
    var bk, ik := accounts[0].key, accounts[1].key;
    assert AccountOk(l, bk) && AccountOk(l, ik);
  }

  lemma VerificationUpdateIsStep(l: Ledger, l': Ledger, bk: Address, ik: Address, verifier: Address, approved: bool, slot: nat)
    requires Valid(l) && VerificationUpdate(l, l', bk, ik, verifier, approved, slot)
    ensures Step(l, l')
  {
    var item := l[ik].item;
    var ok := MembershipPda(bk, item.owner);
    forall a | a in l ensures a in l' && Evolves(l[a], l'[a]) {
      if a != ik && a != ok {
        assert l'[a] == l[a];
      }
    }
  }

  lemma VerificationUpdateKeepsValid(l: Ledger, l': Ledger, bk: Address, ik: Address, verifier: Address, approved: bool, slot: nat)
    requires Valid(l) && VerificationUpdate(l, l', bk, ik, verifier, approved, slot)
    ensures Valid(l') && Step(l, l')
  {
    var item := l[ik].item;
    var vk, ok := VerificationPda(ik, verifier), MembershipPda(bk, item.owner);
    VerificationUpdateIsStep(l, l', bk, ik, verifier, approved, slot);
    assert AccountOk(l, ik) && AccountOk(l, bk);
    AfterVerificationVoteWellFormed(item, approved, slot);
    forall a | a in l' ensures AccountOk(l', a) {
      if a == vk {
        assert Evolves(l[bk], l'[bk]);
      } else {
        assert AccountOk(l, a);
        if a == ik || a == ok { EvolvedStaysOk(l, l', a); } else { UnchangedStaysOk(l, l', a); }
      }
    }
  }

  lemma CastVerificationVoteKeepsValid(l: Ledger, accounts: seq<AccountRef>, slot: nat, itemId: nat, approved: bool)
    requires Valid(l) && CastVerificationVote(l, accounts, slot, itemId, approved).Ok?
    ensures Valid(CastVerificationVote(l, accounts, slot, itemId, approved).value)
    ensures Step(l, CastVerificationVote(l, accounts, slot, itemId, approved).value)
  {
    CastVerificationVoteIsUpdate(l, accounts, slot, itemId, approved);
    VerificationUpdateKeepsValid(l, CastVerificationVote(l, accounts, slot, itemId, approved).value,
                                 accounts[0].key, accounts[1].key, accounts[4].key, approved, slot);
  }

  // ---------------------------------------------------------------------
  // Whole instructions
  // ---------------------------------------------------------------------

  /** Every successful instruction keeps the ledger valid and is a `Step`. */
  lemma ProcessKeepsValid(l: Ledger, accounts: seq<AccountRef>, slot: nat, data: Bytes)
    requires Valid(l) && Process(l, accounts, slot, data).Ok?
    ensures Valid(Process(l, accounts, slot, data).value)
    ensures Step(l, Process(l, accounts, slot, data).value)
  {
    var ix := NativeInstruction.Unpack(data).value;
    assert Process(l, accounts, slot, data) == Dispatch(l, accounts, slot, ix);
    match ix
    case InitFacilitatorRegistry => InitFacilitatorRegistryKeepsValid(l, accounts);
    case CreateBoard(cats, allow, credits) => CreateBoardKeepsValid(l, accounts, slot, cats, Wallets(allow), credits);
    case AdvanceStage(st) => AdvanceStageKeepsValid(l, accounts, slot, st);
    case CloseBoard => CloseBoardKeepsValid(l, accounts);
    case CreateNote(cat, content) => CreateNoteKeepsValid(l, accounts, slot, cat, content);
    case CreateGroup(title) => CreateGroupKeepsValid(l, accounts, title);
    case SetGroupTitle(g, title) => SetGroupTitleKeepsValid(l, accounts, g, title);
    case AssignNoteToGroup(n, g) => AssignNoteToGroupKeepsValid(l, accounts, n, g);
    case UnassignNote(n) => UnassignNoteKeepsValid(l, accounts, n);
    case CastVote(g, delta) => CastVoteKeepsValid(l, accounts, g, delta);
    case CreateActionItem(desc, owner, verifiers, threshold) =>
      CreateActionItemKeepsValid(l, accounts, slot, desc, Wallet(owner), Wallets(verifiers), threshold);
    case CastVerificationVote(item, approved) => CastVerificationVoteKeepsValid(l, accounts, slot, item, approved);
  }

  /**
   * Boards only move forward: one instruction keeps a board's stage or
   * advances it to the next stage of the flow, and a closed board stays
   * closed and unchanged.
   */
  lemma BoardsOnlyMoveForward(l: Ledger, accounts: seq<AccountRef>, slot: nat, data: Bytes, a: Address)
    requires Valid(l) && Process(l, accounts, slot, data).Ok? && HasBoard(l, a)
    ensures var l' := Process(l, accounts, slot, data).value;
            && HasBoard(l', a)
            && var b, b' := l[a].board, l'[a].board;
               && (b'.stage == b.stage || Next(b.stage) == Some(b'.stage))
               && (b.closed ==> b' == b)
  {
    var l' := Process(l, accounts, slot, data).value;
    ProcessKeepsValid(l, accounts, slot, data);
    assert Evolves(l[a], l'[a]);
    CanAdvanceIsNext(l[a].board.stage, l'[a].board.stage);
  }

  /** A completed action item is never modified again, so its owner's reward is paid once. */
  lemma CompletedItemsAreFinal(l: Ledger, accounts: seq<AccountRef>, slot: nat, data: Bytes, a: Address)
    requires Valid(l) && Process(l, accounts, slot, data).Ok?
    requires HasItem(l, a) && l[a].item.status == Completed
    ensures a in Process(l, accounts, slot, data).value && Process(l, accounts, slot, data).value[a] == l[a]
  {
    ProcessKeepsValid(l, accounts, slot, data);
    assert Evolves(l[a], Process(l, accounts, slot, data).value[a]);
  }

  /** The next note, group and action-item addresses of a board are free in a valid ledger. */
  lemma NextIdsAreFree(l: Ledger, a: Address)
    requires Valid(l) && HasBoard(l, a)
    ensures NotePda(a, l[a].board.noteCount) !in l
    ensures GroupPda(a, l[a].board.groupCount) !in l
    ensures ActionItemPda(a, l[a].board.actionItemCount) !in l
  {
  }

  /** Credits spent stay within the board's budget, and a vote record within its voter's total and its group's tally. */
  lemma CreditsWithinBudget(l: Ledger, a: Address)
    requires Valid(l) && a in l
    ensures l[a].MembershipAccount? ==>
              HasBoard(l, l[a].membership.board)
              && l[a].membership.creditsSpent <= l[l[a].membership.board].board.votingCredits
    ensures l[a].VoteRecordAccount? ==>
              var v := l[a].record;
              && HasMembership(l, MembershipPda(v.board, v.participant))
              && v.creditsSpent <= l[MembershipPda(v.board, v.participant)].membership.creditsSpent
              && HasGroup(l, GroupPda(v.board, v.groupId))
              && v.creditsSpent <= l[GroupPda(v.board, v.groupId)].group.voteTally
  {
    assert AccountOk(l, a);
  }

  /** Ungrouping the note just grouped gives back the ledger as it was. */
  lemma UnassignUndoesAssign(l: Ledger, accounts: seq<AccountRef>, noteId: nat, groupId: nat,
                              accounts2: seq<AccountRef>)
    requires AssignNoteToGroup(l, accounts, noteId, groupId).Ok?
    requires |accounts2| >= 2 && accounts2[1].key == accounts[1].key
    requires UnassignNote(AssignNoteToGroup(l, accounts, noteId, groupId).value, accounts2, noteId).Ok?
    ensures UnassignNote(AssignNoteToGroup(l, accounts, noteId, groupId).value, accounts2, noteId).value == l
  {
    var nk := accounts[1].key;
    var l1 := AssignNoteToGroup(l, accounts, noteId, groupId).value;
    var l2 := UnassignNote(l1, accounts2, noteId).value;
    var note := l[nk].note;
    assert l1[nk] == NoteAccount(note.(groupId := Some(groupId)));
    assert l2[nk] == NoteAccount(note);
    assert l2 == l;
  }

  /**
   * Once a verification vote completes an item, every further verification
   * vote on that item fails: the owner's reward is paid once.
   */
  lemma RewardPaidAtMostOnce(l: Ledger, accounts: seq<AccountRef>, slot: nat, itemId: nat, approved: bool,
                             accounts2: seq<AccountRef>, slot2: nat, itemId2: nat, approved2: bool)
    requires CastVerificationVote(l, accounts, slot, itemId, approved).Ok?
    requires Completes(l[accounts[1].key].item, approved)
    requires |accounts2| >= 2 && accounts2[1].key == accounts[1].key
    ensures CastVerificationVote(CastVerificationVote(l, accounts, slot, itemId, approved).value,
                                 accounts2, slot2, itemId2, approved2).Err?
  {
    var l1 := CastVerificationVote(l, accounts, slot, itemId, approved).value;
    assert l1[accounts[1].key].item.status == Completed;
  }
}

=== FILE: native_processor.dfy ===
/**
 * The native program's instruction handlers. Each is a pure function from
 * the ledger, the accounts the transaction passes (key and signer flag, in
 * order), the current slot and the decoded arguments to the new ledger or
 * the first error. An error aborts the whole transaction, so a failed
 * handler has no effect.
 *
 * Four handlers take an id argument they never use to locate the account
 * they then modify; they appear here twice: as written (`...AsWritten`), and
 * corrected with the missing binding check. `Process` dispatches to the
 * corrected ones.
 */
module NativeProcessor {
  import opened Wrappers
  import opened Primitives
  import opened Stages
  import opened NativeState
  import NativeInstruction

  // ---------------------------------------------------------------------
  // Registry and board lifecycle
  // ---------------------------------------------------------------------

  /** Accounts: registry, facilitator (signer), system program. */
  function InitFacilitatorRegistry(l: Ledger, accounts: seq<AccountRef>): (r: Result<Ledger, NativeError>)
    ensures r.Ok? <==> && |accounts| >= 3 && accounts[1].isSigner
                       && accounts[0].key == RegistryPda(accounts[1].key) && accounts[0].key !in l
    ensures (|accounts| >= 3 && accounts[1].isSigner && accounts[0].key == RegistryPda(accounts[1].key)
             && accounts[0].key in l) ==> r == Err(AccountAlreadyInUse)
    ensures r.Ok? ==> && ChangesOnly(l, r.value, {accounts[0].key})
                      && accounts[0].key in r.value
                      && r.value[accounts[0].key] == RegistryAccount(FacilitatorRegistry(accounts[1].key, 0))
  {
    if |accounts| < 3 then Err(NotEnoughAccountKeys)
    else
      var registryInfo, facilitator := accounts[0], accounts[1];
      if !facilitator.isSigner then Err(MissingRequiredSignature)
      else if registryInfo.key != RegistryPda(facilitator.key) then Err(InvalidPDA)
      else Create(l, registryInfo.key, RegistryAccount(FacilitatorRegistry(facilitator.key, 0)))
  }

  predicate CategoriesValid(categories: seq<Bytes>) {
    && 0 < |categories| <= MAX_CATEGORIES
    && forall i :: 0 <= i < |categories| ==> |categories[i]| <= MAX_CATEGORY_NAME_LEN
  }

  /** The category checks of board creation, in order. */
  function CheckCategories(categories: seq<Bytes>): (r: Result<(), NativeError>)
    ensures r.Ok? <==> CategoriesValid(categories)
    ensures |categories| == 0 ==> r == Err(NoCategoriesSpecified)
    ensures |categories| > MAX_CATEGORIES ==> r == Err(TooManyCategories)
    ensures 0 < |categories| <= MAX_CATEGORIES && !CategoriesValid(categories) ==> r == Err(CategoryNameTooLong)
  {
    if |categories| == 0 then Err(NoCategoriesSpecified)
    else if |categories| > MAX_CATEGORIES then Err(TooManyCategories)
    else if exists i :: 0 <= i < |categories| && |categories[i]| > MAX_CATEGORY_NAME_LEN then Err(CategoryNameTooLong)
    else Ok(())
  }

  function FreshMembership(board: Address, participant: Address): BoardMembership {
    BoardMembership(board, participant, 0, 0)
  }

  /** One membership account per allowlisted participant can be created from these accounts. */
  predicate MembershipsCreatable(l: Ledger, board: Address, members: seq<Address>, infos: seq<AccountRef>) {
    && |infos| >= |members|
    && Distinct(members)
    && (forall i :: 0 <= i < |members| ==> infos[i].key == MembershipPda(board, members[i]))
    && (forall i :: 0 <= i < |members| ==> MembershipPda(board, members[i]) !in l)
  }

  /**
   * The loop that creates a fresh membership for each allowlisted
   * participant, reading one account per participant.
   */
  function CreateMemberships(l: Ledger, board: Address, members: seq<Address>, infos: seq<AccountRef>): (r: Result<Ledger, NativeError>)
    decreases |members|
    ensures r.Ok? <==> MembershipsCreatable(l, board, members, infos)
    ensures r.Err? ==> r.error in {NotEnoughAccountKeys, InvalidPDA, AccountAlreadyInUse}
    ensures r.Ok? ==> r.value.Keys == l.Keys + (set m | m in members :: MembershipPda(board, m))
    ensures r.Ok? ==> forall a :: a in l ==> r.value[a] == l[a]
    ensures r.Ok? ==> forall m :: m in members ==> r.value[MembershipPda(board, m)] == MembershipAccount(FreshMembership(board, m))
  {
    if |members| == 0 then Ok(l)
    else if |infos| == 0 then Err(NotEnoughAccountKeys)
    else if infos[0].key != MembershipPda(board, members[0]) then Err(InvalidPDA)
    else match Create(l, infos[0].key, MembershipAccount(FreshMembership(board, members[0])))
      case Err(e) => Err(e)
      case Ok(l1) =>
        var r := CreateMemberships(l1, board, members[1..], infos[1..]);
        MembershipsCreatableStep(l, l1, board, members, infos);
        assert forall m :: m in members ==> m == members[0] || m in members[1..];
        r
  }

  lemma MembershipsCreatableStep(l: Ledger, l1: Ledger, board: Address, members: seq<Address>, infos: seq<AccountRef>)
    requires |members| > 0 && |infos| > 0 && infos[0].key == MembershipPda(board, members[0])
    requires infos[0].key !in l
    requires l1 == l[infos[0].key := MembershipAccount(FreshMembership(board, members[0]))]
    ensures MembershipsCreatable(l, board, members, infos)
            <==> MembershipsCreatable(l1, board, members[1..], infos[1..])
  {
    if MembershipsCreatable(l1, board, members[1..], infos[1..]) {
      forall i, j | 0 <= i < j < |members| ensures members[i] != members[j] {
        if i == 0 {
          assert MembershipPda(board, members[j]) !in l1;
        } else {
          assert members[i] == members[1..][i - 1] && members[j] == members[1..][j - 1];
        }
      }
      forall i | 0 <= i < |members| ensures infos[i].key == MembershipPda(board, members[i]) {
        if i > 0 { assert infos[i] == infos[1..][i - 1]; }
      }
      forall i | 0 <= i < |members| ensures MembershipPda(board, members[i]) !in l {
        if i > 0 { assert members[i] == members[1..][i - 1]; }
      }
    }
    if MembershipsCreatable(l, board, members, infos) {
      forall i | 0 <= i < |members[1..]| ensures MembershipPda(board, members[1..][i]) !in l1 {
        assert members[1..][i] == members[i + 1];
        assert members[0] != members[i + 1];
      }
    }
  }

  /** The board a successful `CreateBoard` writes. */
  function NewBoard(facilitator: Address, index: nat, categories: seq<Bytes>, allowlist: seq<Address>,
                    credits: Option<U8>, slot: nat): RetroBoard {
    RetroBoard(facilitator, index, Setup, false, categories, allowlist,
               credits.GetOr(VOTING_CREDITS_DEFAULT), 0, 0, 0, slot, slot)
  }

  /**
   * Accounts: registry, board, facilitator (signer), system program, then
   * one membership account per allowlist entry.
   */
  function CreateBoard(l: Ledger, accounts: seq<AccountRef>, slot: nat, categories: seq<Bytes>,
                       allowlist: seq<Address>, credits: Option<U8>): (r: Result<Ledger, NativeError>)
    ensures r.Ok? ==> && |accounts| >= 4 && accounts[2].isSigner
                      && CategoriesValid(categories) && |allowlist| <= MAX_PARTICIPANTS
                      && accounts[0].key in l && l[accounts[0].key].RegistryAccount?
                      && l[accounts[0].key].registry.facilitator == accounts[2].key
    ensures r.Ok? ==>
              var registry := l[accounts[0].key].registry;
              var board := accounts[1].key;
              && board == BoardPda(accounts[2].key, registry.boardCount) && board !in l
              && MembershipsCreatable(l[board := BoardAccount(NewBoard(accounts[2].key, registry.boardCount, categories, allowlist, credits, slot))], board, allowlist, accounts[4..])
              && board in r.value && accounts[0].key in r.value
              && r.value[board] == BoardAccount(NewBoard(accounts[2].key, registry.boardCount, categories, allowlist, credits, slot))
              && r.value[accounts[0].key] == RegistryAccount(registry.(boardCount := registry.boardCount + 1))
              && ChangesOnly(l, r.value, {board, accounts[0].key} + (set m | m in allowlist :: MembershipPda(board, m)))
              && (forall m :: m in allowlist ==> MembershipPda(board, m) in r.value && r.value[MembershipPda(board, m)] == MembershipAccount(FreshMembership(board, m)))
    ensures |accounts| >= 4 && accounts[2].isSigner && !CategoriesValid(categories)
            ==> r.Err? && r.error in {NoCategoriesSpecified, TooManyCategories, CategoryNameTooLong}
    ensures |accounts| >= 4 && accounts[2].isSigner && CategoriesValid(categories) && |allowlist| > MAX_PARTICIPANTS
            ==> r == Err(MaxParticipantsReached)
    ensures r.Ok? <==>
              && |accounts| >= 4 && accounts[2].isSigner
              && CategoriesValid(categories) && |allowlist| <= MAX_PARTICIPANTS
              && accounts[0].key in l && l[accounts[0].key].RegistryAccount?
              && var registry := l[accounts[0].key].registry;
                 var board := accounts[1].key;
                 && registry.facilitator == accounts[2].key
                 && board == BoardPda(accounts[2].key, registry.boardCount) && board !in l
                 && MembershipsCreatable(l[board := BoardAccount(NewBoard(accounts[2].key, registry.boardCount, categories, allowlist, credits, slot))],
                                         board, allowlist, accounts[4..])
    ensures (&& |accounts| >= 4 && accounts[2].isSigner
             && CategoriesValid(categories) && |allowlist| <= MAX_PARTICIPANTS
             && accounts[0].key in l && l[accounts[0].key].RegistryAccount?
             && l[accounts[0].key].registry.facilitator != accounts[2].key) ==> r == Err(UnauthorizedFacilitator)
  {
    if |accounts| < 4 then Err(NotEnoughAccountKeys)
    else
      var registryInfo, boardInfo, facilitator := accounts[0], accounts[1], accounts[2];
      if !facilitator.isSigner then Err(MissingRequiredSignature)
      else
        var _ :- CheckCategories(categories);
        if |allowlist| > MAX_PARTICIPANTS then Err(MaxParticipantsReached)
        else
          var registry :- LoadRegistry(l, registryInfo.key);
          if registry.facilitator != facilitator.key then Err(UnauthorizedFacilitator)
          else if boardInfo.key != BoardPda(facilitator.key, registry.boardCount) then Err(InvalidPDA)
          else
            var board := NewBoard(facilitator.key, registry.boardCount, categories, allowlist, credits, slot);
            var l1 :- Create(l, boardInfo.key, BoardAccount(board));
            var l2 :- CreateMemberships(l1, boardInfo.key, allowlist, accounts[4..]);
            Ok(l2[registryInfo.key := RegistryAccount(registry.(boardCount := registry.boardCount + 1))])
  }

  /** Accounts: board, facilitator (signer). */
  function AdvanceStage(l: Ledger, accounts: seq<AccountRef>, slot: nat, newStage: Stage): (r: Result<Ledger, NativeError>)
    ensures r.Ok? <==> && |accounts| >= 2 && accounts[1].isSigner && HasBoard(l, accounts[0].key)
                       && var b := l[accounts[0].key].board;
                          b.facilitator == accounts[1].key && !b.closed && CanAdvanceTo(b.stage, newStage)
    ensures r.Ok? ==> && ChangesOnly(l, r.value, {accounts[0].key})
                      && var b := l[accounts[0].key].board;
                         r.value[accounts[0].key] == BoardAccount(b.(stage := newStage, stageChangedAtSlot := slot))
    ensures (|accounts| >= 2 && accounts[1].isSigner && HasBoard(l, accounts[0].key)
             && l[accounts[0].key].board.facilitator != accounts[1].key) ==> r == Err(UnauthorizedFacilitator)
  {
    if |accounts| < 2 then Err(NotEnoughAccountKeys)
    else
      var boardInfo, facilitator := accounts[0], accounts[1];
      if !facilitator.isSigner then Err(MissingRequiredSignature)
      else
        var board :- LoadBoard(l, boardInfo.key);
        if board.facilitator != facilitator.key then Err(UnauthorizedFacilitator)
        else if board.closed then Err(BoardClosed)
        else if !CanAdvanceTo(board.stage, newStage) then Err(InvalidStageTransition)
        else Ok(l[boardInfo.key := BoardAccount(board.(stage := newStage, stageChangedAtSlot := slot))])
  }

  /** Accounts: board, facilitator (signer). */
  function CloseBoard(l: Ledger, accounts: seq<AccountRef>): (r: Result<Ledger, NativeError>)
    ensures r.Ok? <==> && |accounts| >= 2 && accounts[1].isSigner && HasBoard(l, accounts[0].key)
                       && var b := l[accounts[0].key].board;
                          b.facilitator == accounts[1].key && !b.closed && b.stage == Discuss
    ensures r.Ok? ==> && ChangesOnly(l, r.value, {accounts[0].key})
                      && r.value[accounts[0].key] == BoardAccount(l[accounts[0].key].board.(closed := true))
  {
    if |accounts| < 2 then Err(NotEnoughAccountKeys)
    else
      var boardInfo, facilitator := accounts[0], accounts[1];
      if !facilitator.isSigner then Err(MissingRequiredSignature)
      else
        var board :- LoadBoard(l, boardInfo.key);
        if board.facilitator != facilitator.key then Err(UnauthorizedFacilitator)
        else if board.closed then Err(BoardClosed)
        else if board.stage != Discuss then Err(InvalidStage)
        else Ok(l[boardInfo.key := BoardAccount(board.(closed := true))])
  }

  // ---------------------------------------------------------------------
  // Notes and groups
  // ---------------------------------------------------------------------

  /** The gate every participant instruction passes: open board, the right stage, an allowlisted signer. */
  predicate ParticipantGate(b: RetroBoard, stage: Stage, who: Address) {
    !b.closed && b.stage == stage && who in b.allowlist
  }

  /** Accounts: board, note, author (signer), system program. */
  function CreateNote(l: Ledger, accounts: seq<AccountRef>, slot: nat, categoryId: U8, content: Bytes): (r: Result<Ledger, NativeError>)
    ensures r.Ok? <==> && |accounts| >= 4 && accounts[2].isSigner && HasBoard(l, accounts[0].key)
                       && var b := l[accounts[0].key].board;
                          && ParticipantGate(b, WriteNotes, accounts[2].key)
                          && |content| <= MAX_NOTE_CHARS && categoryId < |b.categories|
                          && accounts[1].key == NotePda(accounts[0].key, b.noteCount)
                          && accounts[1].key !in l
    ensures r.Ok? ==> && ChangesOnly(l, r.value, {accounts[0].key, accounts[1].key})
                      && var b := l[accounts[0].key].board;
                         && r.value[accounts[0].key] == BoardAccount(b.(noteCount := b.noteCount + 1))
                         && accounts[1].key in r.value
                         && r.value[accounts[1].key]
                            == NoteAccount(Note(accounts[0].key, b.noteCount, accounts[2].key, categoryId, content, slot, None))
  {
    if |accounts| < 4 then Err(NotEnoughAccountKeys)
    else
      var boardInfo, noteInfo, author := accounts[0], accounts[1], accounts[2];
      if !author.isSigner then Err(MissingRequiredSignature)
      else
        var board :- LoadBoard(l, boardInfo.key);
        if board.closed then Err(BoardClosed)
        else if board.stage != WriteNotes then Err(InvalidStage)
        else if author.key !in board.allowlist then Err(NotOnAllowlist)
        else if |content| > MAX_NOTE_CHARS then Err(NoteTooLong)
        else if categoryId >= |board.categories| then Err(InvalidCategoryId)
        else if noteInfo.key != NotePda(boardInfo.key, board.noteCount) then Err(InvalidPDA)
        else
          var note := Note(boardInfo.key, board.noteCount, author.key, categoryId, content, slot, None);
          var l1 :- Create(l, noteInfo.key, NoteAccount(note));
          Ok(l1[boardInfo.key := BoardAccount(board.(noteCount := board.noteCount + 1))])
  }

  /** Accounts: board, group, creator (signer), system program. */
  function CreateGroup(l: Ledger, accounts: seq<AccountRef>, title: Bytes): (r: Result<Ledger, NativeError>)
    ensures r.Ok? <==> && |accounts| >= 4 && accounts[2].isSigner && HasBoard(l, accounts[0].key)
                       && var b := l[accounts[0].key].board;
                          && ParticipantGate(b, GroupDuplicates, accounts[2].key)
                          && |title| <= MAX_GROUP_TITLE_CHARS
                          && accounts[1].key == GroupPda(accounts[0].key, b.groupCount)
                          && accounts[1].key !in l
    ensures r.Ok? ==> && ChangesOnly(l, r.value, {accounts[0].key, accounts[1].key})
                      && var b := l[accounts[0].key].board;
                         && r.value[accounts[0].key] == BoardAccount(b.(groupCount := b.groupCount + 1))
                         && accounts[1].key in r.value
                         && r.value[accounts[1].key] == GroupAccount(Group(accounts[0].key, b.groupCount, title, accounts[2].key, 0))
  {
    if |accounts| < 4 then Err(NotEnoughAccountKeys)
    else
      var boardInfo, groupInfo, creator := accounts[0], accounts[1], accounts[2];
      if !creator.isSigner then Err(MissingRequiredSignature)
      else
        var board :- LoadBoard(l, boardInfo.key);
        if board.closed then Err(BoardClosed)
        else if board.stage != GroupDuplicates then Err(InvalidStage)
        else if creator.key !in board.allowlist then Err(NotOnAllowlist)
        else if |title| > MAX_GROUP_TITLE_CHARS then Err(GroupTitleTooLong)
        else if groupInfo.key != GroupPda(boardInfo.key, board.groupCount) then Err(InvalidPDA)
        else
          var l1 :- Create(l, groupInfo.key, GroupAccount(Group(boardInfo.key, board.groupCount, title, creator.key, 0)));
          Ok(l1[boardInfo.key := BoardAccount(board.(groupCount := board.groupCount + 1))])
  }

  /** Accounts: board, group, participant (signer). The group account is taken as given. */
  function SetGroupTitleAsWritten(l: Ledger, accounts: seq<AccountRef>, title: Bytes): (r: Result<Ledger, NativeError>)
    ensures r.Ok? <==> && |accounts| >= 3 && accounts[2].isSigner && HasBoard(l, accounts[0].key)
                       && ParticipantGate(l[accounts[0].key].board, GroupDuplicates, accounts[2].key)
                       && |title| <= MAX_GROUP_TITLE_CHARS
                       && accounts[1].key in l && l[accounts[1].key].GroupAccount?
    ensures r.Ok? ==> && ChangesOnly(l, r.value, {accounts[1].key})
                      && r.value[accounts[1].key] == GroupAccount(l[accounts[1].key].group.(title := title))
  {
    if |accounts| < 3 then Err(NotEnoughAccountKeys)
    else
      var boardInfo, groupInfo, participant := accounts[0], accounts[1], accounts[2];
      if !participant.isSigner then Err(MissingRequiredSignature)
      else
        var board :- LoadBoard(l, boardInfo.key);
        if board.closed then Err(BoardClosed)
        else if board.stage != GroupDuplicates then Err(InvalidStage)
        else if participant.key !in board.allowlist then Err(NotOnAllowlist)
        else if |title| > MAX_GROUP_TITLE_CHARS then Err(GroupTitleTooLong)
        else
          var group :- LoadGroup(l, groupInfo.key);
          Ok(l[groupInfo.key := GroupAccount(group.(title := title))])
  }

  /** `SetGroupTitleAsWritten`, plus the check that the group is group `groupId` of this board. */
  function SetGroupTitle(l: Ledger, accounts: seq<AccountRef>, groupId: nat, title: Bytes): (r: Result<Ledger, NativeError>)
    ensures r.Ok? <==> SetGroupTitleAsWritten(l, accounts, title).Ok? && accounts[1].key == GroupPda(accounts[0].key, groupId)
    ensures r.Ok? ==> r == SetGroupTitleAsWritten(l, accounts, title)
  {
    var r := SetGroupTitleAsWritten(l, accounts, title);
    if r.Ok? && accounts[1].key != GroupPda(accounts[0].key, groupId) then Err(InvalidPDA) else r
  }

  /** Accounts: board, note, group, participant (signer). Neither note nor group is tied to the board or the ids. */
  function AssignNoteToGroupAsWritten(l: Ledger, accounts: seq<AccountRef>, groupId: nat): (r: Result<Ledger, NativeError>)
    ensures r.Ok? <==> && |accounts| >= 4 && accounts[3].isSigner && HasBoard(l, accounts[0].key)
                       && ParticipantGate(l[accounts[0].key].board, GroupDuplicates, accounts[3].key)
                       && accounts[2].key in l && l[accounts[2].key].GroupAccount?
                       && accounts[1].key in l && l[accounts[1].key].NoteAccount?
                       && l[accounts[1].key].note.groupId.None?
    ensures r.Ok? ==> && ChangesOnly(l, r.value, {accounts[1].key})
                      && r.value[accounts[1].key] == NoteAccount(l[accounts[1].key].note.(groupId := Some(groupId)))
    ensures (&& |accounts| >= 4 && accounts[3].isSigner && HasBoard(l, accounts[0].key)
             && ParticipantGate(l[accounts[0].key].board, GroupDuplicates, accounts[3].key)
             && accounts[2].key in l && l[accounts[2].key].GroupAccount?
             && accounts[1].key in l && l[accounts[1].key].NoteAccount?
             && l[accounts[1].key].note.groupId.Some?) ==> r == Err(NoteAlreadyGrouped)
  {
    if |accounts| < 4 then Err(NotEnoughAccountKeys)
    else
      var boardInfo, noteInfo, groupInfo, participant := accounts[0], accounts[1], accounts[2], accounts[3];
      if !participant.isSigner then Err(MissingRequiredSignature)
      else
        var board :- LoadBoard(l, boardInfo.key);
        if board.closed then Err(BoardClosed)
        else if board.stage != GroupDuplicates then Err(InvalidStage)
        else if participant.key !in board.allowlist then Err(NotOnAllowlist)
        else
          var _ :- LoadGroup(l, groupInfo.key);
          var note :- LoadNote(l, noteInfo.key);
          if note.groupId.Some? then Err(NoteAlreadyGrouped)
          else Ok(l[noteInfo.key := NoteAccount(note.(groupId := Some(groupId)))])
  }

  /** `AssignNoteToGroupAsWritten`, plus the checks that note and group are note `noteId` and group `groupId` of this board. */
  function AssignNoteToGroup(l: Ledger, accounts: seq<AccountRef>, noteId: nat, groupId: nat): (r: Result<Ledger, NativeError>)
    ensures r.Ok? <==> && AssignNoteToGroupAsWritten(l, accounts, groupId).Ok?
                       && accounts[1].key == NotePda(accounts[0].key, noteId)
                       && accounts[2].key == GroupPda(accounts[0].key, groupId)
    ensures r.Ok? ==> r == AssignNoteToGroupAsWritten(l, accounts, groupId)
  {
    var r := AssignNoteToGroupAsWritten(l, accounts, groupId);
    if r.Ok? && (accounts[1].key != NotePda(accounts[0].key, noteId) || accounts[2].key != GroupPda(accounts[0].key, groupId))
    then Err(InvalidPDA)
    else r
  }

  /** Accounts: board, note, participant (signer). The note is not tied to the board. */
  function UnassignNoteAsWritten(l: Ledger, accounts: seq<AccountRef>): (r: Result<Ledger, NativeError>)
    ensures r.Ok? <==> && |accounts| >= 3 && accounts[2].isSigner && HasBoard(l, accounts[0].key)
                       && ParticipantGate(l[accounts[0].key].board, GroupDuplicates, accounts[2].key)
                       && accounts[1].key in l && l[accounts[1].key].NoteAccount?
                       && l[accounts[1].key].note.groupId.Some?
    ensures r.Ok? ==> && ChangesOnly(l, r.value, {accounts[1].key})
                      && r.value[accounts[1].key] == NoteAccount(l[accounts[1].key].note.(groupId := None))
    ensures (&& |accounts| >= 3 && accounts[2].isSigner && HasBoard(l, accounts[0].key)
             && ParticipantGate(l[accounts[0].key].board, GroupDuplicates, accounts[2].key)
             && accounts[1].key in l && l[accounts[1].key].NoteAccount?
             && l[accounts[1].key].note.groupId.None?) ==> r == Err(NoteNotGrouped)
  {
    if |accounts| < 3 then Err(NotEnoughAccountKeys)
    else
      var boardInfo, noteInfo, participant := accounts[0], accounts[1], accounts[2];
      if !participant.isSigner then Err(MissingRequiredSignature)
      else
        var board :- LoadBoard(l, boardInfo.key);
        if board.closed then Err(BoardClosed)
        else if board.stage != GroupDuplicates then Err(InvalidStage)
        else if participant.key !in board.allowlist then Err(NotOnAllowlist)
        else
          var note :- LoadNote(l, noteInfo.key);
          if note.groupId.None? then Err(NoteNotGrouped)
          else Ok(l[noteInfo.key := NoteAccount(note.(groupId := None))])
  }

  /** `UnassignNoteAsWritten`, plus the check that the note is note `noteId` of this board. */
  function UnassignNote(l: Ledger, accounts: seq<AccountRef>, noteId: nat): (r: Result<Ledger, NativeError>)
    ensures r.Ok? <==> UnassignNoteAsWritten(l, accounts).Ok? && accounts[1].key == NotePda(accounts[0].key, noteId)
    ensures r.Ok? ==> r == UnassignNoteAsWritten(l, accounts)
  {
    var r := UnassignNoteAsWritten(l, accounts);
    if r.Ok? && accounts[1].key != NotePda(accounts[0].key, noteId) then Err(InvalidPDA) else r
  }

  // ---------------------------------------------------------------------
  // Voting
  // ---------------------------------------------------------------------

  /** The voter's membership: created empty on first use, otherwise read. */
  function LoadOrCreateMembership(l: Ledger, key: Address, board: Address, voter: Address): (r: Result<(Ledger, BoardMembership), NativeError>)
    ensures key !in l ==> r == Ok((l[key := MembershipAccount(FreshMembership(board, voter))], FreshMembership(board, voter)))
    ensures key in l ==> r.Ok? == l[key].MembershipAccount?
    ensures key in l && r.Ok? ==> r.value == (l, l[key].membership)
  {
    if key !in l then
      var m := FreshMembership(board, voter);
      Ok((l[key := MembershipAccount(m)], m))
    else
      var m :- LoadMembership(l, key);
      Ok((l, m))
  }

  /** The (voter, group) vote record: created empty on first vote, otherwise read. */
  function LoadOrCreateVoteRecord(l: Ledger, key: Address, board: Address, voter: Address, groupId: nat): (r: Result<(Ledger, VoteRecord), NativeError>)
    ensures key !in l ==> r == Ok((l[key := VoteRecordAccount(VoteRecord(board, voter, groupId, 0))], VoteRecord(board, voter, groupId, 0)))
    ensures key in l ==> r.Ok? == l[key].VoteRecordAccount?
    ensures key in l && r.Ok? ==> r.value == (l, l[key].record)
  {
    if key !in l then
      var v := VoteRecord(board, voter, groupId, 0);
      Ok((l[key := VoteRecordAccount(v)], v))
    else
      var v :- LoadVoteRecord(l, key);
      Ok((l, v))
  }

  /** The membership a vote would start from: the stored one, or a fresh one. */
  function MembershipBefore(l: Ledger, board: Address, voter: Address): BoardMembership {
    var key := MembershipPda(board, voter);
    if key in l && l[key].MembershipAccount? then l[key].membership else FreshMembership(board, voter)
  }

  /** The (voter, group) vote record a vote would start from: the stored one, or an empty one. */
  function RecordBefore(l: Ledger, board: Address, voter: Address, groupId: nat): VoteRecord {
    var key := VotePda(board, voter, groupId);
    if key in l && l[key].VoteRecordAccount? then l[key].record else VoteRecord(board, voter, groupId, 0)
  }

  /**
   * Accounts: board, membership, group, vote record, voter (signer), system
   * program. The group whose tally rises is the account passed, which is
   * tied neither to the board nor to `groupId`.
   */
  function CastVoteAsWritten(l: Ledger, accounts: seq<AccountRef>, groupId: nat, delta: U8): (r: Result<Ledger, NativeError>)
    ensures r.Ok? ==> && |accounts| >= 6 && accounts[4].isSigner && HasBoard(l, accounts[0].key)
                      && ParticipantGate(l[accounts[0].key].board, Vote, accounts[4].key)
                      && delta > 0
                      && accounts[1].key == MembershipPda(accounts[0].key, accounts[4].key)
                      && accounts[3].key == VotePda(accounts[0].key, accounts[4].key, groupId)
                      && MembershipBefore(l, accounts[0].key, accounts[4].key).creditsSpent + delta
                         <= l[accounts[0].key].board.votingCredits
    ensures r.Ok? ==> && ChangesOnly(l, r.value, {accounts[1].key, accounts[2].key, accounts[3].key})
                      && accounts[2].key in l && l[accounts[2].key].GroupAccount?
                      && accounts[2].key in r.value && r.value[accounts[2].key].GroupAccount?
                      && var before, after := l[accounts[2].key].group, r.value[accounts[2].key].group;
                         after.voteTally == before.voteTally + delta && after == before.(voteTally := after.voteTally)
    ensures r.Ok? ==> && accounts[1].key in r.value && accounts[3].key in r.value
                      && var m := MembershipBefore(l, accounts[0].key, accounts[4].key);
                         var v := RecordBefore(l, accounts[0].key, accounts[4].key, groupId);
                         && v.creditsSpent + delta < 0x100
                         && r.value[accounts[1].key] == MembershipAccount(m.(creditsSpent := m.creditsSpent + delta))
                         && r.value[accounts[3].key] == VoteRecordAccount(v.(creditsSpent := v.creditsSpent + delta))
    ensures (|accounts| >= 6 && accounts[4].isSigner && HasBoard(l, accounts[0].key)
             && ParticipantGate(l[accounts[0].key].board, Vote, accounts[4].key) && delta == 0
            ) ==> r == Err(CannotDecreaseVotes)
    ensures r.Ok? <==> && |accounts| >= 6 && accounts[4].isSigner && HasBoard(l, accounts[0].key)
                       && ParticipantGate(l[accounts[0].key].board, Vote, accounts[4].key)
                       && delta > 0
                       && accounts[1].key == MembershipPda(accounts[0].key, accounts[4].key)
                       && (accounts[1].key !in l || l[accounts[1].key].MembershipAccount?)
                       && MembershipBefore(l, accounts[0].key, accounts[4].key).creditsSpent + delta
                          <= l[accounts[0].key].board.votingCredits
                       && accounts[2].key in l && l[accounts[2].key].GroupAccount?
                       && accounts[3].key == VotePda(accounts[0].key, accounts[4].key, groupId)
                       && (accounts[3].key !in l || l[accounts[3].key].VoteRecordAccount?)
                       && RecordBefore(l, accounts[0].key, accounts[4].key, groupId).creditsSpent + delta < U8_LIMIT
                       && l[accounts[2].key].group.voteTally + delta < U64_LIMIT
    // the voter's running total is checked against the board's budget before
    // the group is even read
    ensures (&& |accounts| >= 6 && accounts[4].isSigner && HasBoard(l, accounts[0].key)
             && ParticipantGate(l[accounts[0].key].board, Vote, accounts[4].key) && delta > 0
             && accounts[1].key == MembershipPda(accounts[0].key, accounts[4].key)
             && (accounts[1].key !in l || l[accounts[1].key].MembershipAccount?)
             && MembershipBefore(l, accounts[0].key, accounts[4].key).creditsSpent + delta
                > l[accounts[0].key].board.votingCredits) ==> r == Err(InsufficientCredits)
  {
    if |accounts| < 6 then Err(NotEnoughAccountKeys)
    else
      var boardInfo, membershipInfo, groupInfo, voteInfo, voter :=
        accounts[0], accounts[1], accounts[2], accounts[3], accounts[4];
      if !voter.isSigner then Err(MissingRequiredSignature)
      else
        var board :- LoadBoard(l, boardInfo.key);
        if board.closed then Err(BoardClosed)
        else if board.stage != Vote then Err(InvalidStage)
        else if voter.key !in board.allowlist then Err(NotOnAllowlist)
        else if delta == 0 then Err(CannotDecreaseVotes)
        else if membershipInfo.key != MembershipPda(boardInfo.key, voter.key) then Err(InvalidPDA)
        else
          var (l1, membership) :- LoadOrCreateMembership(l, membershipInfo.key, boardInfo.key, voter.key);
          match CheckedAddU8(membership.creditsSpent, delta)
          case None => Err(InsufficientCredits)
          case Some(total) =>
            if total > board.votingCredits then Err(InsufficientCredits)
            else
              var group :- LoadGroup(l1, groupInfo.key);
              if voteInfo.key != VotePda(boardInfo.key, voter.key, groupId) then Err(InvalidPDA)
              else
                var (l2, record) :- LoadOrCreateVoteRecord(l1, voteInfo.key, boardInfo.key, voter.key, groupId);
                match CheckedAddU8(record.creditsSpent, delta)
                case None => Err(InsufficientCredits)
                case Some(recordTotal) =>
                  var l3 := l2[voteInfo.key := VoteRecordAccount(record.(creditsSpent := recordTotal))];
                  var l4 := l3[membershipInfo.key := MembershipAccount(membership.(creditsSpent := total))];
                  match CheckedAddU64(group.voteTally, delta)
                  case None => Err(InsufficientCredits)
                  case Some(tally) => Ok(l4[groupInfo.key := GroupAccount(group.(voteTally := tally))])
  }

  /** `CastVoteAsWritten`, plus the check that the group is group `groupId` of this board. */
  function CastVote(l: Ledger, accounts: seq<AccountRef>, groupId: nat, delta: U8): (r: Result<Ledger, NativeError>)
    ensures r.Ok? <==> CastVoteAsWritten(l, accounts, groupId, delta).Ok? && accounts[2].key == GroupPda(accounts[0].key, groupId)
    ensures r.Ok? ==> r == CastVoteAsWritten(l, accounts, groupId, delta)
  {
    var r := CastVoteAsWritten(l, accounts, groupId, delta);
    if r.Ok? && accounts[2].key != GroupPda(accounts[0].key, groupId) then Err(InvalidPDA) else r
  }

  // ---------------------------------------------------------------------
  // Action items
  // ---------------------------------------------------------------------

  /** Each verifier, in order: on the allowlist, else `NotOnAllowlist`; not the owner, else `OwnerCannotVerify`. */
  function CheckVerifiers(verifiers: seq<Address>, owner: Address, allowlist: seq<Address>): (r: Result<(), NativeError>)
    ensures r.Ok? <==> forall i :: 0 <= i < |verifiers| ==> verifiers[i] in allowlist && verifiers[i] != owner
    ensures r.Err? ==> r.error in {NotOnAllowlist, OwnerCannotVerify}
  {
    if |verifiers| == 0 then Ok(())
    else if verifiers[0] !in allowlist then Err(NotOnAllowlist)
    else if verifiers[0] == owner then Err(OwnerCannotVerify)
    else
      var r := CheckVerifiers(verifiers[1..], owner, allowlist);
      assert forall i :: 1 <= i < |verifiers| ==> verifiers[i] == verifiers[1..][i - 1];
      r
  }

  /** What creation demands of an action item's verifier list and threshold. */
  predicate VerifiersValid(verifiers: seq<Address>, owner: Address, threshold: U8, allowlist: seq<Address>) {
    && |verifiers| <= MAX_VERIFIERS
    && 1 <= threshold <= |verifiers|
    && owner in allowlist
    && forall i :: 0 <= i < |verifiers| ==> verifiers[i] in allowlist && verifiers[i] != owner
  }

  function NewActionItem(board: Address, id: nat, description: Bytes, owner: Address, verifiers: seq<Address>,
                         threshold: U8, slot: nat): ActionItem {
    ActionItem(board, id, description, owner, verifiers, threshold, 0, Pending, slot, None)
  }

  /** Accounts: board, action item, facilitator (signer), system program. */
  function CreateActionItem(l: Ledger, accounts: seq<AccountRef>, slot: nat, description: Bytes, owner: Address,
                            verifiers: seq<Address>, threshold: U8): (r: Result<Ledger, NativeError>)
    ensures r.Ok? <==> && |accounts| >= 4 && accounts[2].isSigner && HasBoard(l, accounts[0].key)
                       && var b := l[accounts[0].key].board;
                          && !b.closed && b.stage == Discuss && b.facilitator == accounts[2].key
                          && |description| <= MAX_ACTION_DESCRIPTION_CHARS
                          && VerifiersValid(verifiers, owner, threshold, b.allowlist)
                          && accounts[1].key == ActionItemPda(accounts[0].key, b.actionItemCount)
                          && accounts[1].key !in l
    ensures r.Ok? ==> && ChangesOnly(l, r.value, {accounts[0].key, accounts[1].key})
                      && var b := l[accounts[0].key].board;
                         && r.value[accounts[0].key] == BoardAccount(b.(actionItemCount := b.actionItemCount + 1))
                         && accounts[1].key in r.value
                         && r.value[accounts[1].key] == ActionItemAccount(
                              NewActionItem(accounts[0].key, b.actionItemCount, description, owner, verifiers, threshold, slot))
    ensures r.Err? && r.error == ThresholdTooLow ==> threshold == 0
    ensures r.Err? && r.error == ThresholdTooHigh ==> threshold > |verifiers|
  {
    if |accounts| < 4 then Err(NotEnoughAccountKeys)
    else
      var boardInfo, itemInfo, facilitator := accounts[0], accounts[1], accounts[2];
      if !facilitator.isSigner then Err(MissingRequiredSignature)
      else
        var board :- LoadBoard(l, boardInfo.key);
        if board.closed then Err(BoardClosed)
        else if board.stage != Discuss then Err(InvalidStage)
        else if board.facilitator != facilitator.key then Err(UnauthorizedFacilitator)
        else if |description| > MAX_ACTION_DESCRIPTION_CHARS then Err(ActionDescriptionTooLong)
        else if |verifiers| > MAX_VERIFIERS then Err(TooManyVerifiers)
        else if threshold == 0 then Err(ThresholdTooLow)
        else if threshold > |verifiers| then Err(ThresholdTooHigh)
        else if owner !in board.allowlist then Err(NotOnAllowlist)
        else
          var _ :- CheckVerifiers(verifiers, owner, board.allowlist);
          if itemInfo.key != ActionItemPda(boardInfo.key, board.actionItemCount) then Err(InvalidPDA)
          else
            var item := NewActionItem(boardInfo.key, board.actionItemCount, description, owner, verifiers, threshold, slot);
            var l1 :- Create(l, itemInfo.key, ActionItemAccount(item));
            Ok(l1[boardInfo.key := BoardAccount(board.(actionItemCount := board.actionItemCount + 1))])
  }

  /** The item after one more vote: approvals count up, and reaching the threshold completes it. */
  function AfterVerificationVote(item: ActionItem, approved: bool, slot: nat): (r: ActionItem)
    requires item.status == Pending
    ensures !approved ==> r == item
    ensures approved ==> r.approvals == item.approvals + 1
    ensures approved ==> (r.status == Completed <==> item.approvals + 1 >= item.threshold)
    ensures approved && item.approvals + 1 < item.threshold ==> r == item.(approvals := item.approvals + 1)
    ensures r.status == Completed && item.status == Pending ==> r.verifiedAtSlot == Some(slot)
    ensures (r.board, r.itemId, r.description, r.owner, r.verifiers, r.threshold, r.createdAtSlot)
         == (item.board, item.itemId, item.description, item.owner, item.verifiers, item.threshold, item.createdAtSlot)
  {
    if !approved then item
    else if item.approvals + 1 >= item.threshold then
      item.(approvals := item.approvals + 1, status := Completed, verifiedAtSlot := Some(slot))
    else item.(approvals := item.approvals + 1)
  }

  /** A verification vote completes the item exactly when it is the approval that reaches the threshold. */
  predicate Completes(item: ActionItem, approved: bool) {
    approved && item.approvals + 1 >= item.threshold
  }

  /**
   * Accounts: board, action item, verification vote, owner's membership,
   * verifier (signer), system program. The action item is not tied to the
   * board.
   */
  function CastVerificationVoteAsWritten(l: Ledger, accounts: seq<AccountRef>, slot: nat, approved: bool): (r: Result<Ledger, NativeError>)
    ensures r.Ok? ==> && |accounts| >= 6 && accounts[4].isSigner && HasBoard(l, accounts[0].key)
                      && l[accounts[0].key].board.closed
                      && accounts[1].key in l && l[accounts[1].key].ActionItemAccount?
                      && var item := l[accounts[1].key].item;
                         && item.status == Pending
                         && accounts[4].key in item.verifiers
                         && accounts[2].key == VerificationPda(accounts[1].key, accounts[4].key)
                         && accounts[2].key !in l
                         && accounts[3].key == MembershipPda(accounts[0].key, item.owner)
    ensures r.Ok? ==> var item := l[accounts[1].key].item;
                      && accounts[1].key in r.value && accounts[2].key in r.value
                      && r.value[accounts[2].key] == VerificationVoteAccount(VerificationVote(accounts[1].key, accounts[4].key, approved, slot))
                      && r.value[accounts[1].key] == ActionItemAccount(AfterVerificationVote(item, approved, slot))
                      && (Completes(item, approved) ==>
                            && ChangesOnly(l, r.value, {accounts[1].key, accounts[2].key, accounts[3].key})
                            && accounts[3].key in l && l[accounts[3].key].MembershipAccount?
                            && r.value[accounts[3].key] == MembershipAccount(
                                 l[accounts[3].key].membership.(totalScore := l[accounts[3].key].membership.totalScore + 1)))
                      && (!Completes(item, approved) ==> ChangesOnly(l, r.value, {accounts[1].key, accounts[2].key}))
    ensures (&& |accounts| >= 6 && accounts[4].isSigner && HasBoard(l, accounts[0].key)
             && l[accounts[0].key].board.closed
             && accounts[1].key in l && l[accounts[1].key].ActionItemAccount?
             && l[accounts[1].key].item.status == Pending
             && accounts[4].key in l[accounts[1].key].item.verifiers
             && accounts[2].key == VerificationPda(accounts[1].key, accounts[4].key)
             && accounts[2].key in l) ==> r == Err(AlreadyVoted)
    ensures (&& |accounts| >= 6 && accounts[4].isSigner && HasBoard(l, accounts[0].key)
             && l[accounts[0].key].board.closed
             && accounts[1].key in l && l[accounts[1].key].ActionItemAccount?
             && l[accounts[1].key].item.status != Pending) ==> r == Err(ActionItemNotPending)
    ensures r.Ok? <==> && |accounts| >= 6 && accounts[4].isSigner && HasBoard(l, accounts[0].key)
                       && l[accounts[0].key].board.closed
                       && accounts[1].key in l && l[accounts[1].key].ActionItemAccount?
                       && var item := l[accounts[1].key].item;
                          && item.status == Pending
                          && accounts[4].key in item.verifiers
                          && accounts[2].key == VerificationPda(accounts[1].key, accounts[4].key)
                          && accounts[2].key !in l
                          && accounts[3].key == MembershipPda(accounts[0].key, item.owner)
                          && (Completes(item, approved) ==> accounts[3].key in l && l[accounts[3].key].MembershipAccount?)
    ensures (&& |accounts| >= 6 && accounts[4].isSigner && HasBoard(l, accounts[0].key)
             && !l[accounts[0].key].board.closed) ==> r == Err(BoardNotClosed)
    ensures (&& |accounts| >= 6 && accounts[4].isSigner && HasBoard(l, accounts[0].key)
             && l[accounts[0].key].board.closed
             && accounts[1].key in l && l[accounts[1].key].ActionItemAccount?
             && l[accounts[1].key].item.status == Pending
             && accounts[4].key !in l[accounts[1].key].item.verifiers) ==> r == Err(NotAVerifier)
    ensures (&& |accounts| >= 6 && accounts[4].isSigner && HasBoard(l, accounts[0].key)
             && l[accounts[0].key].board.closed
             && accounts[1].key !in l) ==> r == Err(InvalidAccountOwner)
  {
    if |accounts| < 6 then Err(NotEnoughAccountKeys)
    else
      var boardInfo, itemInfo, voteInfo, ownerMembershipInfo, verifier :=
        accounts[0], accounts[1], accounts[2], accounts[3], accounts[4];
      if !verifier.isSigner then Err(MissingRequiredSignature)
      else
        var board :- LoadBoard(l, boardInfo.key);
        if !board.closed then Err(BoardNotClosed)
        else if itemInfo.key !in l then Err(InvalidAccountOwner)
        else
          var item :- LoadActionItem(l, itemInfo.key);
          if item.status != Pending then Err(ActionItemNotPending)
          else if verifier.key !in item.verifiers then Err(NotAVerifier)
          else if voteInfo.key != VerificationPda(itemInfo.key, verifier.key) then Err(InvalidPDA)
          else if voteInfo.key in l then Err(AlreadyVoted)
          else if ownerMembershipInfo.key != MembershipPda(boardInfo.key, item.owner) then Err(InvalidPDA)
          else
            var l1 := l[voteInfo.key := VerificationVoteAccount(VerificationVote(itemInfo.key, verifier.key, approved, slot))];
            var updated := AfterVerificationVote(item, approved, slot);
            if Completes(item, approved) then
              var owner :- LoadMembership(l1, ownerMembershipInfo.key);
              var l2 := l1[ownerMembershipInfo.key := MembershipAccount(owner.(totalScore := owner.totalScore + 1))];
              Ok(l2[itemInfo.key := ActionItemAccount(updated)])
            else
              Ok(l1[itemInfo.key := ActionItemAccount(updated)])
  }

  /** `CastVerificationVoteAsWritten`, plus the check that the item is item `itemId` of this board. */
  function CastVerificationVote(l: Ledger, accounts: seq<AccountRef>, slot: nat, itemId: nat, approved: bool): (r: Result<Ledger, NativeError>)
    ensures r.Ok? <==> CastVerificationVoteAsWritten(l, accounts, slot, approved).Ok?
                       && accounts[1].key == ActionItemPda(accounts[0].key, itemId)
    ensures r.Ok? ==> r == CastVerificationVoteAsWritten(l, accounts, slot, approved)
  {
    var r := CastVerificationVoteAsWritten(l, accounts, slot, approved);
    if r.Ok? && accounts[1].key != ActionItemPda(accounts[0].key, itemId) then Err(InvalidPDA) else r
  }

  // ---------------------------------------------------------------------
  // Entry point
  // ---------------------------------------------------------------------

  function Wallets(pks: seq<Pubkey>): (r: seq<Address>)
    ensures |r| == |pks| && forall i :: 0 <= i < |pks| ==> r[i] == Wallet(pks[i])
  {
    seq(|pks|, i requires 0 <= i < |pks| => Wallet(pks[i]))
  }

  /** The handler an already-decoded instruction runs. */
  function Dispatch(l: Ledger, accounts: seq<AccountRef>, slot: nat, ix: NativeInstruction.RetroInstruction): Result<Ledger, NativeError> {
    match ix
    case InitFacilitatorRegistry => InitFacilitatorRegistry(l, accounts)
    case CreateBoard(cats, allow, credits) => CreateBoard(l, accounts, slot, cats, Wallets(allow), credits)
    case AdvanceStage(st) => AdvanceStage(l, accounts, slot, st)
    case CloseBoard => CloseBoard(l, accounts)
    case CreateNote(cat, content) => CreateNote(l, accounts, slot, cat, content)
    case CreateGroup(title) => CreateGroup(l, accounts, title)
    case SetGroupTitle(g, title) => SetGroupTitle(l, accounts, g, title)
    case AssignNoteToGroup(n, g) => AssignNoteToGroup(l, accounts, n, g)
    case UnassignNote(n) => UnassignNote(l, accounts, n)
    case CastVote(g, delta) => CastVote(l, accounts, g, delta)
    case CreateActionItem(desc, owner, verifiers, threshold) =>
      CreateActionItem(l, accounts, slot, desc, Wallet(owner), Wallets(verifiers), threshold)
    case CastVerificationVote(item, approved) => CastVerificationVote(l, accounts, slot, item, approved)
  }

  /** `process_instruction`: decode, then run the handler; a decoding error runs nothing. */
  function Process(l: Ledger, accounts: seq<AccountRef>, slot: nat, data: Bytes): (r: Result<Ledger, NativeError>)
    ensures NativeInstruction.Unpack(data).Err? ==> r == Err(InvalidInstructionData)
    ensures r.Ok? ==> NativeInstruction.Unpack(data).Ok?
  {
    var ix :- NativeInstruction.Unpack(data);
    Dispatch(l, accounts, slot, ix)
  }

  /** The dispatch of the program as written: the five unbound handlers take the place of the corrected ones. */
  function DispatchAsWritten(l: Ledger, accounts: seq<AccountRef>, slot: nat, ix: NativeInstruction.RetroInstruction): Result<Ledger, NativeError> {
    match ix
    case SetGroupTitle(_, title) => SetGroupTitleAsWritten(l, accounts, title)
    case AssignNoteToGroup(_, g) => AssignNoteToGroupAsWritten(l, accounts, g)
    case UnassignNote(_) => UnassignNoteAsWritten(l, accounts)
    case CastVote(g, delta) => CastVoteAsWritten(l, accounts, g, delta)
    case CastVerificationVote(_, approved) => CastVerificationVoteAsWritten(l, accounts, slot, approved)
    case _ => Dispatch(l, accounts, slot, ix)
  }

  /** `process_instruction` exactly as written, ids ignored where the code ignores them. */
  function ProcessAsWritten(l: Ledger, accounts: seq<AccountRef>, slot: nat, data: Bytes): (r: Result<Ledger, NativeError>)
    ensures NativeInstruction.Unpack(data).Err? ==> r == Err(InvalidInstructionData)
    ensures r.Ok? ==> NativeInstruction.Unpack(data).Ok?
  {
    var ix :- NativeInstruction.Unpack(data);
    DispatchAsWritten(l, accounts, slot, ix)
  }

  /**
   * The corrected program only narrows the program as written: whatever it
   * accepts, the code as written accepts with the same effect, and the two
   * differ only on the five instructions whose ids the code ignores.
   */
  lemma ProcessNarrowsAsWritten(l: Ledger, accounts: seq<AccountRef>, slot: nat, data: Bytes)
    ensures Process(l, accounts, slot, data).Ok? ==> ProcessAsWritten(l, accounts, slot, data) == Process(l, accounts, slot, data)
    ensures var ix := NativeInstruction.Unpack(data);
            ix.Ok? && !(ix.value.SetGroupTitle? || ix.value.AssignNoteToGroup? || ix.value.UnassignNote?
                        || ix.value.CastVote? || ix.value.CastVerificationVote?)
            ==> ProcessAsWritten(l, accounts, slot, data) == Process(l, accounts, slot, data)
  {
  }
}

=== FILE: native_state.dfy ===
/**
 * The accounts of the native retrospective-board program, as one ledger.
 *
 * Every program-owned account lives at an `Address`. Derived addresses
 * (program-derived addresses, PDAs) are constructors of `Address` applied to
 * their seeds, so derivation is deterministic and injective by construction
 * and derived addresses never coincide with ordinary wallet keys. The ledger
 * maps an address to the record stored there; an address outside the ledger
 * is an empty account not owned by the program.
 */
module NativeState {
  import opened Wrappers
  import opened Primitives
  import opened Stages

  // ---------------------------------------------------------------------
  // Limits
  // ---------------------------------------------------------------------

  const MAX_NOTE_CHARS: nat := 280
  const MAX_GROUP_TITLE_CHARS: nat := 80
  const MAX_PARTICIPANTS: nat := 30
  const MAX_CATEGORIES: nat := 5
  const MAX_CATEGORY_NAME_LEN: nat := 32
  const VOTING_CREDITS_DEFAULT: U8 := 5
  /** Declared in the native program's state module, which is not part of this model; the value is assumed. */
  const MAX_VERIFIERS: nat := 7
  /** Declared in the native program's state module, which is not part of this model; the value is assumed. */
  const MAX_ACTION_DESCRIPTION_CHARS: nat := 280

  // ---------------------------------------------------------------------
  // Addresses
  // ---------------------------------------------------------------------

  datatype Address =
    | Wallet(pk: Pubkey)
      /** seeds: registry seed, facilitator */
    | RegistryPda(facilitator: Address)
      /** seeds: board seed, facilitator, board index (u64 little-endian) */
    | BoardPda(facilitator: Address, index: nat)
      /** seeds: membership seed, board, participant */
    | MembershipPda(board: Address, participant: Address)
      /** seeds: note seed, board, note id */
    | NotePda(board: Address, noteId: nat)
      /** seeds: group seed, board, group id */
    | GroupPda(board: Address, groupId: nat)
      /** seeds: vote seed, board, voter, group id */
    | VotePda(board: Address, voter: Address, groupId: nat)
      /** seeds: action-item seed, board, item id */
    | ActionItemPda(board: Address, itemId: nat)
      /** seeds: verification-vote seed, action item, verifier */
    | VerificationPda(item: Address, verifier: Address)

  // ---------------------------------------------------------------------
  // Records (is_initialized is always true once an account exists, and the
  // bump seed is not modelled)
  // ---------------------------------------------------------------------

  datatype FacilitatorRegistry = FacilitatorRegistry(facilitator: Address, boardCount: nat)

  datatype RetroBoard = RetroBoard(
    facilitator: Address,
    boardIndex: nat,
    stage: Stage,
    closed: bool,
    categories: seq<Bytes>,
    allowlist: seq<Address>,
    votingCredits: U8,
    noteCount: nat,
    groupCount: nat,
    actionItemCount: nat,
    createdAtSlot: nat,
    stageChangedAtSlot: nat)

  datatype BoardMembership = BoardMembership(board: Address, participant: Address, creditsSpent: U8, totalScore: nat)

  datatype Note = Note(
    board: Address,
    noteId: nat,
    author: Address,
    categoryId: U8,
    content: Bytes,
    createdAtSlot: nat,
    groupId: Option<nat>)

  datatype Group = Group(board: Address, groupId: nat, title: Bytes, createdBy: Address, voteTally: U64)

  datatype VoteRecord = VoteRecord(board: Address, participant: Address, groupId: nat, creditsSpent: U8)

  datatype ActionItemStatus = Pending | Completed

  datatype ActionItem = ActionItem(
    board: Address,
    itemId: nat,
    description: Bytes,
    owner: Address,
    verifiers: seq<Address>,
    threshold: U8,
    approvals: nat,
    status: ActionItemStatus,
    createdAtSlot: nat,
    verifiedAtSlot: Option<nat>)

  datatype VerificationVote = VerificationVote(actionItem: Address, verifier: Address, approved: bool, votedAtSlot: nat)

  datatype Account =
    | RegistryAccount(registry: FacilitatorRegistry)
    | BoardAccount(board: RetroBoard)
    | MembershipAccount(membership: BoardMembership)
    | NoteAccount(note: Note)
    | GroupAccount(group: Group)
    | VoteRecordAccount(record: VoteRecord)
    | ActionItemAccount(item: ActionItem)
    | VerificationVoteAccount(vote: VerificationVote)

  type Ledger = map<Address, Account>

  /** An account passed to an instruction: its key and whether it signed. */
  datatype AccountRef = AccountRef(key: Address, isSigner: bool)

  // ---------------------------------------------------------------------
  // Errors: the built-in program errors the handlers can surface, then the
  // program's own error codes.
  // ---------------------------------------------------------------------

  datatype NativeError =
    | InvalidInstructionData
    | NotEnoughAccountKeys
    | MissingRequiredSignature
      /** the system program refuses to create an account that already exists */
    | AccountAlreadyInUse
      /** Borsh could not read the expected record from the account's data */
    | BorshIoError
    | InvalidPDA
    | InvalidAccountOwner
    | UnauthorizedFacilitator
    | BoardClosed
    | BoardNotClosed
    | InvalidStage
    | InvalidStageTransition
    | NotOnAllowlist
    | NoCategoriesSpecified
    | TooManyCategories
    | CategoryNameTooLong
    | MaxParticipantsReached
    | NoteTooLong
    | InvalidCategoryId
    | GroupTitleTooLong
    | NoteAlreadyGrouped
    | NoteNotGrouped
    | CannotDecreaseVotes
    | InsufficientCredits
    | ActionDescriptionTooLong
    | TooManyVerifiers
    | ThresholdTooLow
    | ThresholdTooHigh
    | OwnerCannotVerify
    | ActionItemNotPending
    | NotAVerifier
    | AlreadyVoted

  // ---------------------------------------------------------------------
  // Reading and creating accounts
  // ---------------------------------------------------------------------

  /** The board check every handler starts with: owned by the program, then a board record. */
  function LoadBoard(l: Ledger, a: Address): (r: Result<RetroBoard, NativeError>)
    ensures r.Ok? <==> a in l && l[a].BoardAccount?
    ensures r.Ok? ==> l[a] == BoardAccount(r.value)
    ensures a !in l ==> r == Err(InvalidAccountOwner)
    ensures a in l && !l[a].BoardAccount? ==> r == Err(BorshIoError)
  {
    if a !in l then Err(InvalidAccountOwner)
    else if !l[a].BoardAccount? then Err(BorshIoError)
    else Ok(l[a].board)
  }

  /** Deserializing a registry with no owner check: anything but a registry record fails to decode. */
  function LoadRegistry(l: Ledger, a: Address): (r: Result<FacilitatorRegistry, NativeError>)
    ensures r.Ok? <==> a in l && l[a].RegistryAccount?
    ensures r.Ok? ==> l[a] == RegistryAccount(r.value)
    ensures r.Err? ==> r.error == BorshIoError
  {
    if a in l && l[a].RegistryAccount? then Ok(l[a].registry) else Err(BorshIoError)
  }

  function LoadNote(l: Ledger, a: Address): (r: Result<Note, NativeError>)
    ensures r.Ok? <==> a in l && l[a].NoteAccount?
    ensures r.Ok? ==> l[a] == NoteAccount(r.value)
    ensures r.Err? ==> r.error == BorshIoError
  {
    if a in l && l[a].NoteAccount? then Ok(l[a].note) else Err(BorshIoError)
  }

  function LoadGroup(l: Ledger, a: Address): (r: Result<Group, NativeError>)
    ensures r.Ok? <==> a in l && l[a].GroupAccount?
    ensures r.Ok? ==> l[a] == GroupAccount(r.value)
    ensures r.Err? ==> r.error == BorshIoError
  {
    if a in l && l[a].GroupAccount? then Ok(l[a].group) else Err(BorshIoError)
  }

  function LoadMembership(l: Ledger, a: Address): (r: Result<BoardMembership, NativeError>)
    ensures r.Ok? <==> a in l && l[a].MembershipAccount?
    ensures r.Ok? ==> l[a] == MembershipAccount(r.value)
    ensures r.Err? ==> r.error == BorshIoError
  {
    if a in l && l[a].MembershipAccount? then Ok(l[a].membership) else Err(BorshIoError)
  }

  function LoadVoteRecord(l: Ledger, a: Address): (r: Result<VoteRecord, NativeError>)
    ensures r.Ok? <==> a in l && l[a].VoteRecordAccount?
    ensures r.Ok? ==> l[a] == VoteRecordAccount(r.value)
    ensures r.Err? ==> r.error == BorshIoError
  {
    if a in l && l[a].VoteRecordAccount? then Ok(l[a].record) else Err(BorshIoError)
  }

  function LoadActionItem(l: Ledger, a: Address): (r: Result<ActionItem, NativeError>)
    ensures r.Ok? <==> a in l && l[a].ActionItemAccount?
    ensures r.Ok? ==> l[a] == ActionItemAccount(r.value)
    ensures r.Err? ==> r.error == BorshIoError
  {
    if a in l && l[a].ActionItemAccount? then Ok(l[a].item) else Err(BorshIoError)
  }

  /** `create_account` followed by the first serialize: fails if the address is already in use. */
  function Create(l: Ledger, a: Address, acct: Account): (r: Result<Ledger, NativeError>)
    ensures r.Ok? <==> a !in l
    ensures r.Err? ==> r.error == AccountAlreadyInUse
    ensures r.Ok? ==> r.value.Keys == l.Keys + {a} && r.value[a] == acct
    ensures r.Ok? ==> forall b :: b in l ==> b in r.value && r.value[b] == l[b]
  {
    if a in l then Err(AccountAlreadyInUse) else Ok(l[a := acct])
  }

  /** `after` differs from `before` only at addresses in `touched`, and loses no account. */
  predicate ChangesOnly(before: Ledger, after: Ledger, touched: set<Address>) {
    && before.Keys <= after.Keys
    && after.Keys <= before.Keys + touched
    && forall a :: a in before && a !in touched ==> after[a] == before[a]
  }

  predicate HasBoard(l: Ledger, a: Address) {
    a in l && l[a].BoardAccount?
  }

  /** Pairwise distinct keys. */
  predicate Distinct(keys: seq<Address>) {
    forall i, j :: 0 <= i < j < |keys| ==> keys[i] != keys[j]
  }
}

=== FILE: primitives.dfy ===
/**
 * Fixed-width integers, bytes and public keys as the program uses them.
 * Dafny integers are unbounded, so every width the program relies on is a
 * subset type here, and every checked operation is written out at its use.
 */
module Primitives {
  import opened Wrappers

  const U8_LIMIT: nat := 0x100
  const U32_LIMIT: nat := 0x1_0000_0000
  const U64_LIMIT: nat := 0x1_0000_0000_0000_0000
  const I64_MIN: int := -0x8000_0000_0000_0000
  const I64_MAX: int := 0x7FFF_FFFF_FFFF_FFFF

  type Byte = b: int | 0 <= b < 0x100
  type U8 = x: nat | x < 0x100
  type U32 = x: nat | x < 0x1_0000_0000
  type U64 = x: nat | x < 0x1_0000_0000_0000_0000
  type I64 = x: int | -0x8000_0000_0000_0000 <= x <= 0x7FFF_FFFF_FFFF_FFFF

  type Bytes = seq<Byte>

  /** A 32-byte ed25519 public key (Solana's `Pubkey`). */
  type Pubkey = s: seq<Byte> | |s| == 32 witness seq(32, _ => 0)

  /** Rust's `u8::checked_add`: `None` when the sum leaves the 8-bit range. */
  function CheckedAddU8(a: U8, b: U8): (r: Option<U8>)
    ensures r.Some? <==> a + b < U8_LIMIT
    ensures r.Some? ==> r.value == a + b
  {
    if a + b < U8_LIMIT then Some(a + b) else None
  }

  /** Rust's `u64::checked_add`. */
  function CheckedAddU64(a: U64, b: U64): (r: Option<U64>)
    ensures r.Some? <==> a + b < U64_LIMIT
    ensures r.Some? ==> r.value == a + b
  {
    if a + b < U64_LIMIT then Some(a + b) else None
  }
}

=== FILE: session_keys.dfy ===
/**
 * Session keys: a time-boxed, program-scoped grant that lets an ephemeral
 * "session signer" act for an authority. Validation is a pure predicate over
 * the token account, the account that signed, and the clock; the clock is a
 * parameter (`None` when the Clock sysvar is unavailable).
 */
module SessionKeys {
  import opened Wrappers
  import opened Primitives
  import opened Borsh

  /** Seven days, in seconds. */
  const MAX_VALIDITY_SECONDS: int := 60 * 60 * 24 * 7
  /** One hour, in seconds. */
  const DEFAULT_VALIDITY_SECONDS: int := 60 * 60
  /** discriminator(1) + authority(32) + target_program(32) + session_signer(32) + valid_until(8) */
  const SESSION_TOKEN_LEN: nat := 1 + 32 + 32 + 32 + 8

  /**
   * An account address: either an ordinary key, or the program-derived
   * address of a session token. Derivation is modelled as this constructor,
   * so it is deterministic and injective in every seed by construction.
   */
  datatype Key =
    | Wallet(pk: Pubkey)
    | TokenAddress(targetProgram: Pubkey, sessionSigner: Pubkey, authority: Pubkey, sessionProgram: Pubkey)

  /** What an instruction sees of an account: its key, owner, signer flag and data. */
  datatype AccountView = AccountView(key: Key, owner: Pubkey, isSigner: bool, data: Bytes)

  datatype SessionToken = SessionToken(
    discriminator: U8,
    authority: Pubkey,
    targetProgram: Pubkey,
    sessionSigner: Pubkey,
    validUntil: I64)

  /** Declaration order fixes each variant's numeric code (`e as u32`). */
  datatype SessionError =
    | InvalidToken
    | SessionExpired
    | InvalidAuthority
    | InvalidTargetProgram
    | InvalidSessionSigner
    | MissingSessionSignature
    | WrongOwner
    | ValidityTooLong
    | NoToken
    | ClockUnavailable

  /** The part of Solana's `ProgramError` that validation can return. */
  datatype ProgramError = MissingRequiredSignature | Custom(code: U32)

  /** Seeds `["session_token", target_program, session_signer, authority]` under the session program. */
  function FindAddress(targetProgram: Pubkey, sessionSigner: Pubkey, authority: Pubkey, sessionProgram: Pubkey): Key {
    TokenAddress(targetProgram, sessionSigner, authority, sessionProgram)
  }

  /**
   * Derivation is deterministic and distinguishes authorities (and every
   * other seed). It holds by construction, since a token address is an
   * injective constructor applied to the seeds; the lemma records the
   * collision-freedom the program relies on.
   */
  lemma FindAddressInjective(t1: Pubkey, s1: Pubkey, a1: Pubkey, t2: Pubkey, s2: Pubkey, a2: Pubkey, p: Pubkey)
    ensures FindAddress(t1, s1, a1, p) == FindAddress(t2, s2, a2, p) <==> t1 == t2 && s1 == s2 && a1 == a2
    ensures FindAddress(t1, s1, a1, p).TokenAddress?
  {
  }

  // ---------------------------------------------------------------------
  // Token bytes
  // ---------------------------------------------------------------------

  function EncodeToken(t: SessionToken): Bytes {
    WriteU8(t.discriminator) + WritePubkey(t.authority) + WritePubkey(t.targetProgram)
      + WritePubkey(t.sessionSigner) + WriteI64(t.validUntil)
  }

  /** Borsh `deserialize` on the account data: reads the fields in order and ignores trailing bytes. */
  function DecodeToken(data: Bytes): (r: Option<SessionToken>)
    ensures r.Some? <==> |data| >= SESSION_TOKEN_LEN
    ensures r.Some? ==> data[..SESSION_TOKEN_LEN] == EncodeToken(r.value)
  {
    if |data| < SESSION_TOKEN_LEN then None
    else
      var d := ReadU8(data).value;
      var a := ReadPubkey(d.rest).value;
      var t := ReadPubkey(a.rest).value;
      var s := ReadPubkey(t.rest).value;
      var v := ReadI64(s.rest).value;
      var token := SessionToken(d.value, a.value, t.value, s.value, v.value);
      assert data == EncodeToken(token) + v.rest;
      Some(token)
  }

  /** `SessionToken::LEN` is the exact serialized size, and decoding inverts encoding. */
  lemma TokenEncodingRoundTrip(t: SessionToken, trailing: Bytes)
    ensures |EncodeToken(t)| == SESSION_TOKEN_LEN == 105
    ensures DecodeToken(EncodeToken(t) + trailing) == Some(t)
  {
    var bs := EncodeToken(t) + trailing;
    var rest1 := WritePubkey(t.authority) + WritePubkey(t.targetProgram) + WritePubkey(t.sessionSigner) + WriteI64(t.validUntil) + trailing;
    var rest2 := WritePubkey(t.targetProgram) + WritePubkey(t.sessionSigner) + WriteI64(t.validUntil) + trailing;
    var rest3 := WritePubkey(t.sessionSigner) + WriteI64(t.validUntil) + trailing;
    var rest4 := WriteI64(t.validUntil) + trailing;
    assert bs == WriteU8(t.discriminator) + rest1;
    ReadWriteU8(t.discriminator, rest1);
    assert rest1 == WritePubkey(t.authority) + rest2;
    ReadWritePubkey(t.authority, rest2);
    assert rest2 == WritePubkey(t.targetProgram) + rest3;
    ReadWritePubkey(t.targetProgram, rest3);
    assert rest3 == WritePubkey(t.sessionSigner) + rest4;
    ReadWritePubkey(t.sessionSigner, rest4);
    ReadWriteI64(t.validUntil, trailing);
  }

  // ---------------------------------------------------------------------
  // Expiry and validation
  // ---------------------------------------------------------------------

  /** A token is still valid at `now == valid_until`; it expires one second later. */
  predicate IsExpired(t: SessionToken, now: I64) {
    now > t.validUntil
  }

  /**
   * `SessionToken::validate`: derivation, then authority, then target
   * program, then session signer, then the clock and expiry; the first
   * failing check names the error.
   */
  function Validate(t: SessionToken, tokenKey: Key, expectedAuthority: Pubkey, expectedTarget: Pubkey,
                    signerKey: Key, sessionProgram: Pubkey, clock: Option<I64>): (r: Result<(), SessionError>)
    ensures r == Err(InvalidToken)
      <==> FindAddress(t.targetProgram, t.sessionSigner, t.authority, sessionProgram) != tokenKey
    ensures r == Err(InvalidAuthority)
      <==> FindAddress(t.targetProgram, t.sessionSigner, t.authority, sessionProgram) == tokenKey
           && t.authority != expectedAuthority
    ensures r == Err(InvalidTargetProgram)
      <==> FindAddress(t.targetProgram, t.sessionSigner, t.authority, sessionProgram) == tokenKey
           && t.authority == expectedAuthority && t.targetProgram != expectedTarget
    ensures r == Err(InvalidSessionSigner)
      <==> FindAddress(t.targetProgram, t.sessionSigner, t.authority, sessionProgram) == tokenKey
           && t.authority == expectedAuthority && t.targetProgram == expectedTarget
           && Wallet(t.sessionSigner) != signerKey
    ensures r.Ok? <==> tokenKey == FindAddress(t.targetProgram, t.sessionSigner, t.authority, sessionProgram)
                       && t.authority == expectedAuthority && t.targetProgram == expectedTarget
                       && signerKey == Wallet(t.sessionSigner)
                       && clock.Some? && !IsExpired(t, clock.value)
    ensures r == Err(ClockUnavailable)
      <==> FindAddress(t.targetProgram, t.sessionSigner, t.authority, sessionProgram) == tokenKey
           && t.authority == expectedAuthority && t.targetProgram == expectedTarget
           && Wallet(t.sessionSigner) == signerKey && clock.None?
    ensures r == Err(SessionExpired)
      <==> FindAddress(t.targetProgram, t.sessionSigner, t.authority, sessionProgram) == tokenKey
           && t.authority == expectedAuthority && t.targetProgram == expectedTarget
           && Wallet(t.sessionSigner) == signerKey && clock.Some? && IsExpired(t, clock.value)
    ensures r.Err? ==> r.error in {InvalidToken, InvalidAuthority, InvalidTargetProgram,
                                   InvalidSessionSigner, ClockUnavailable, SessionExpired}
  {
    if FindAddress(t.targetProgram, t.sessionSigner, t.authority, sessionProgram) != tokenKey then Err(InvalidToken)
    else if t.authority != expectedAuthority then Err(InvalidAuthority)
    else if t.targetProgram != expectedTarget then Err(InvalidTargetProgram)
    else if Wallet(t.sessionSigner) != signerKey then Err(InvalidSessionSigner)
    else if clock.None? then Err(ClockUnavailable)
    else if IsExpired(t, clock.value) then Err(SessionExpired)
    else Ok(())
  }

  /**
   * `validate_session`: the token account's owner, then the signer's
   * signature, then non-empty data, then decoding, then `Validate`.
   */
  function ValidateSession(tokenInfo: AccountView, signerInfo: AccountView, expectedAuthority: Pubkey,
                           expectedTarget: Pubkey, sessionProgram: Pubkey, clock: Option<I64>): (r: Result<(), SessionError>)
    ensures tokenInfo.owner != sessionProgram ==> r == Err(WrongOwner)
    ensures tokenInfo.owner == sessionProgram && !signerInfo.isSigner ==> r == Err(MissingSessionSignature)
    ensures tokenInfo.owner == sessionProgram && signerInfo.isSigner && |tokenInfo.data| == 0 ==> r == Err(InvalidToken)
    ensures (tokenInfo.owner == sessionProgram && signerInfo.isSigner && DecodeToken(tokenInfo.data).None?)
              ==> r == Err(InvalidToken)
    ensures (tokenInfo.owner == sessionProgram && signerInfo.isSigner && DecodeToken(tokenInfo.data).Some?)
              ==> r == Validate(DecodeToken(tokenInfo.data).value, tokenInfo.key, expectedAuthority,
                                expectedTarget, signerInfo.key, sessionProgram, clock)
    ensures r.Ok? ==> tokenInfo.owner == sessionProgram && signerInfo.isSigner
                      && DecodeToken(tokenInfo.data).Some?
  {
    if tokenInfo.owner != sessionProgram then Err(WrongOwner)
    else if !signerInfo.isSigner then Err(MissingSessionSignature)
    else if |tokenInfo.data| == 0 then Err(InvalidToken)
    else match DecodeToken(tokenInfo.data)
      case None => Err(InvalidToken)
      case Some(t) => Validate(t, tokenInfo.key, expectedAuthority, expectedTarget, signerInfo.key, sessionProgram, clock)
  }

  /** `impl From<SessionError> for ProgramError`: custom codes from 6000 in declaration order. */
  function ErrorCode(e: SessionError): (code: U32)
    ensures 6000 <= code < 6010
  {
    6000 + match e
      case InvalidToken => 0
      case SessionExpired => 1
      case InvalidAuthority => 2
      case InvalidTargetProgram => 3
      case InvalidSessionSigner => 4
      case MissingSessionSignature => 5
      case WrongOwner => 6
      case ValidityTooLong => 7
      case NoToken => 8
      case ClockUnavailable => 9
  }

  function ToProgramError(e: SessionError): ProgramError {
    Custom(ErrorCode(e))
  }

  /** Distinct session errors convert to distinct program errors, none of them a built-in one. */
  lemma ErrorCodesDistinct(e1: SessionError, e2: SessionError)
    ensures ToProgramError(e1) == ToProgramError(e2) <==> e1 == e2
    ensures ToProgramError(e1).Custom? && ToProgramError(e1).code >= 6000
  {
  }

  /**
   * `validate_signer_or_session`: a direct signature by the authority
   * succeeds at once; otherwise a token account is needed and
   * `validate_session` decides, its error converted to a custom code.
   */
  function ValidateSignerOrSession(signerInfo: AccountView, authority: Pubkey, tokenInfo: Option<AccountView>,
                                   sessionProgram: Pubkey, targetProgram: Pubkey, clock: Option<I64>): (r: Result<(), ProgramError>)
    ensures signerInfo.isSigner && signerInfo.key == Wallet(authority) ==> r.Ok?
    ensures !(signerInfo.isSigner && signerInfo.key == Wallet(authority)) && tokenInfo.None?
            ==> r == Err(MissingRequiredSignature)
    ensures !(signerInfo.isSigner && signerInfo.key == Wallet(authority)) && tokenInfo.Some?
            ==> (r.Ok? <==> ValidateSession(tokenInfo.value, signerInfo, authority, targetProgram, sessionProgram, clock).Ok?)
  {
    if signerInfo.isSigner && signerInfo.key == Wallet(authority) then Ok(())
    else if tokenInfo.None? then Err(MissingRequiredSignature)
    else match ValidateSession(tokenInfo.value, signerInfo, authority, targetProgram, sessionProgram, clock)
      case Ok(_) => Ok(())
      case Err(e) => Err(ToProgramError(e))
  }

  /**
   * The authorization rule stated on its own: the authority signed directly,
   * or the signer signed and is the session signer of a well-formed token
   * account, owned by the session program at its derived address, that names
   * this authority and this target program and has not expired.
   */
  predicate Authorized(signerInfo: AccountView, authority: Pubkey, tokenInfo: Option<AccountView>,
                       sessionProgram: Pubkey, targetProgram: Pubkey, clock: Option<I64>) {
    || (signerInfo.isSigner && signerInfo.key == Wallet(authority))
    || (&& tokenInfo.Some?
        && signerInfo.isSigner
        && tokenInfo.value.owner == sessionProgram
        && |tokenInfo.value.data| >= SESSION_TOKEN_LEN
        && var t := DecodeToken(tokenInfo.value.data).value;
           && signerInfo.key == Wallet(t.sessionSigner)
           && tokenInfo.value.key == TokenAddress(targetProgram, t.sessionSigner, authority, sessionProgram)
           && t.authority == authority
           && t.targetProgram == targetProgram
           && clock.Some? && clock.value <= t.validUntil)
  }

  /** The validation chain accepts exactly the authorized combinations. */
  lemma ValidateSignerOrSessionIsAuthorized(signerInfo: AccountView, authority: Pubkey, tokenInfo: Option<AccountView>,
                                            sessionProgram: Pubkey, targetProgram: Pubkey, clock: Option<I64>)
    ensures ValidateSignerOrSession(signerInfo, authority, tokenInfo, sessionProgram, targetProgram, clock).Ok?
            <==> Authorized(signerInfo, authority, tokenInfo, sessionProgram, targetProgram, clock)
  {
  }

  /**
   * `calculate_valid_until`: one hour by default; a duration above seven
   * days is an error, never clamped; otherwise now plus the duration.
   */
  function CalculateValidUntil(validFor: Option<I64>, clock: Option<I64>): (r: Result<int, SessionError>)
    ensures var duration := validFor.GetOr(DEFAULT_VALIDITY_SECONDS);
            && (r == Err(ValidityTooLong) <==> duration > MAX_VALIDITY_SECONDS)
            && (duration <= MAX_VALIDITY_SECONDS && clock.None? ==> r == Err(ClockUnavailable))
            && (r.Ok? <==> duration <= MAX_VALIDITY_SECONDS && clock.Some?)
            && (r.Ok? ==> r.value - clock.value == duration <= MAX_VALIDITY_SECONDS)
    ensures validFor.None? && clock.Some? ==> r == Ok(clock.value + 3600)
  {
    var duration := validFor.GetOr(DEFAULT_VALIDITY_SECONDS);
    if duration > MAX_VALIDITY_SECONDS then Err(ValidityTooLong)
    else if clock.None? then Err(ClockUnavailable)
    else Ok(clock.value + duration)
  }

  /** A token created now with an accepted duration is usable until exactly `now + duration`. */
  lemma FreshTokenLifetime(t: SessionToken, validFor: Option<I64>, now: I64, later: I64)
    requires CalculateValidUntil(validFor, Some(now)).Ok?
    requires t.validUntil == CalculateValidUntil(validFor, Some(now)).value
    ensures !IsExpired(t, later) <==> later <= now + validFor.GetOr(DEFAULT_VALIDITY_SECONDS)
    ensures later > now + MAX_VALIDITY_SECONDS ==> IsExpired(t, later)
  {
  }
}

=== FILE: stages.dfy ===
/**
 * The five ordered phases of a retrospective board (`BoardStage` in the
 * native program, `SessionStage` in the Anchor program; both are the same
 * `#[repr(u8)]` enum with the same `can_advance_to`).
 */
module Stages {
  import opened Wrappers
  import opened Primitives

  datatype Stage = Setup | WriteNotes | GroupDuplicates | Vote | Discuss

  /** The `#[repr(u8)]` discriminant, `stage as u8`. */
  function Discriminant(st: Stage): (d: U8)
    ensures d <= 4
  {
    match st
    case Setup => 0
    case WriteNotes => 1
    case GroupDuplicates => 2
    case Vote => 3
    case Discuss => 4
  }

  /** The decoder's byte-to-stage table: 0..4 in declaration order, anything else rejected. */
  function FromByte(b: Byte): (r: Option<Stage>)
    ensures r.Some? <==> b <= 4
    ensures r.Some? ==> Discriminant(r.value) == b
  {
    if b == 0 then Some(Setup)
    else if b == 1 then Some(WriteNotes)
    else if b == 2 then Some(GroupDuplicates)
    else if b == 3 then Some(Vote)
    else if b == 4 then Some(Discuss)
    else None
  }

  /**
   * `can_advance_to`: the target's discriminant is the current one plus one.
   * The addition cannot overflow: discriminants are at most 4.
   */
  predicate CanAdvanceTo(current: Stage, next: Stage) {
    Discriminant(next) == Discriminant(current) + 1
  }

  /** The stage that follows `st` in the meeting flow, if any. */
  function Next(st: Stage): Option<Stage> {
    match st
    case Setup => Some(WriteNotes)
    case WriteNotes => Some(GroupDuplicates)
    case GroupDuplicates => Some(Vote)
    case Vote => Some(Discuss)
    case Discuss => None
  }

  /** Decoding a stage's discriminant gives the stage back, and the discriminant is injective. */
  lemma DiscriminantRoundTrip(st: Stage, other: Stage)
    ensures FromByte(Discriminant(st)) == Some(st)
    ensures Discriminant(st) == Discriminant(other) ==> st == other
  {
  }

  /** `can_advance_to` allows exactly the step to the next stage of the flow. */
  lemma CanAdvanceIsNext(current: Stage, next: Stage)
    ensures CanAdvanceTo(current, next) <==> Next(current) == Some(next)
  {
  }

  /** No self-loop, no regression, and Discuss has no successor. */
  lemma AdvanceIsStrictlyForward(current: Stage, next: Stage)
    ensures CanAdvanceTo(current, next) ==> Discriminant(current) < Discriminant(next)
    ensures !CanAdvanceTo(current, current)
    ensures Discriminant(next) <= Discriminant(current) ==> !CanAdvanceTo(current, next)
    ensures !CanAdvanceTo(Discuss, next)
  {
  }
}

=== FILE: state_layout.dfy ===
/**
 * The Borsh account layouts declared in `state.rs`: the team registry, the
 * retrospective session, participant and allowlist entries, notes, groups and
 * vote records, each led by its `is_initialized` flag and closed by its bump
 * seed. The declared `LEN` / `MAX_LEN` constants are the space reserved for
 * each account; the lemmas and encoder contracts here relate them to the
 * length of the actual encoding.
 */
module StateLayout {
  import opened Wrappers
  import opened Primitives
  import opened Borsh
  import opened Stages

  // ---------------------------------------------------------------------
  // Limits and declared sizes
  // ---------------------------------------------------------------------

  const MAX_NOTE_CHARS: nat := 280
  const MAX_GROUP_TITLE_CHARS: nat := 80
  const MAX_PARTICIPANTS: U32 := 30
  const MAX_NOTES_PER_PARTICIPANT: U8 := 10
  const MAX_CATEGORIES: nat := 5
  const MAX_CATEGORY_NAME_LEN: nat := 32
  const VOTING_CREDITS_DEFAULT: U8 := 5

  const TEAM_REGISTRY_LEN: nat := 1 + 32 + 8 + 1
  /** Everything but the category names; the 4 is the categories' length prefix. */
  const SESSION_BASE_LEN: nat := 1 + 32 + 32 + 8 + 1 + 1 + 4 + 1 + 1 + 1 + 1 + 4 + 8 + 8 + 8 + 8 + 1
  const SESSION_MAX_LEN: nat := SESSION_BASE_LEN + 4 + MAX_CATEGORIES * (4 + MAX_CATEGORY_NAME_LEN)
  const PARTICIPANT_ENTRY_LEN: nat := 1 + 32 + 32 + 1 + 1 + 1 + 1
  const ALLOWLIST_ENTRY_LEN: nat := 1 + 32 + 32 + 1 + 1
  const NOTE_MAX_LEN: nat := 1 + 32 + 8 + 32 + 1 + (4 + MAX_NOTE_CHARS) + 8 + 9 + 1
  const GROUP_MAX_LEN: nat := 1 + 32 + 8 + (4 + MAX_GROUP_TITLE_CHARS) + 32 + 8 + 1
  const VOTE_RECORD_LEN: nat := 1 + 32 + 32 + 8 + 1 + 1

  // ---------------------------------------------------------------------
  // Records
  // ---------------------------------------------------------------------

  datatype TeamRegistry = TeamRegistry(isInitialized: bool, teamAuthority: Pubkey, sessionCount: U64, bump: U8)

  datatype RetroSession = RetroSession(
    isInitialized: bool,
    teamAuthority: Pubkey,
    facilitator: Pubkey,
    sessionIndex: U64,
    stage: Stage,
    closed: bool,
    categories: seq<Bytes>,
    maxNotesPerParticipant: U8,
    votingCreditsPerParticipant: U8,
    allowlistEnabled: bool,
    openJoin: bool,
    participantCount: U32,
    noteCount: U64,
    groupCount: U64,
    createdAtSlot: U64,
    stageChangedAtSlot: U64,
    bump: U8)

  datatype ParticipantEntry = ParticipantEntry(
    isInitialized: bool,
    session: Pubkey,
    participant: Pubkey,
    joined: bool,
    notesSubmitted: U8,
    creditsSpent: U8,
    bump: U8)

  datatype AllowlistEntry = AllowlistEntry(isInitialized: bool, session: Pubkey, participant: Pubkey, allowed: bool, bump: U8)

  datatype Note = Note(
    isInitialized: bool,
    session: Pubkey,
    noteId: U64,
    author: Pubkey,
    categoryId: U8,
    content: Bytes,
    createdAtSlot: U64,
    groupId: Option<U64>,
    bump: U8)

  datatype Group = Group(
    isInitialized: bool,
    session: Pubkey,
    groupId: U64,
    title: Bytes,
    createdBy: Pubkey,
    voteTally: U64,
    bump: U8)

  datatype VoteRecord = VoteRecord(
    isInitialized: bool,
    session: Pubkey,
    participant: Pubkey,
    groupId: U64,
    creditsSpent: U8,
    bump: U8)

  // ---------------------------------------------------------------------
  // Field codecs not needed by instruction payloads
  // ---------------------------------------------------------------------

  /** A fieldless `#[repr(u8)]` enum is written as its discriminant byte. */
  function WriteStage(st: Stage): Bytes {
    WriteU8(Discriminant(st))
  }

  function ReadStage(bs: Bytes): (r: Option<Decoded<Stage>>)
    ensures r.Some? <==> |bs| >= 1 && bs[0] <= 4
    ensures r.Some? ==> bs == WriteStage(r.value.value) + r.value.rest
  {
    var b :- ReadU8(bs);
    var st :- FromByte(b.value);
    Some(Decoded(st, b.rest))
  }

  function WriteOptionU64(o: Option<U64>): (r: Bytes)
    ensures |r| == if o.Some? then 9 else 1
  {
    match o
    case None => [0]
    case Some(x) => [1] + WriteU64(x)
  }

  function ReadOptionU64(bs: Bytes): (r: Option<Decoded<Option<U64>>>)
    ensures r.Some? ==> bs == WriteOptionU64(r.value.value) + r.value.rest
  {
    if |bs| < 1 then None
    else if bs[0] == 0 then Some(Decoded(None, bs[1..]))
    else if bs[0] == 1 then
      var x :- ReadU64(bs[1..]);
      assert bs == [1] + bs[1..];
      Some(Decoded(Some(x.value), x.rest))
    else None
  }

  lemma ReadWriteStage(st: Stage, rest: Bytes)
    ensures ReadStage(WriteStage(st) + rest) == Some(Decoded(st, rest))
  {
    ReadWriteU8(Discriminant(st), rest);
    DiscriminantRoundTrip(st, st);
  }

  lemma ReadWriteOptionU64(o: Option<U64>, rest: Bytes)
    ensures ReadOptionU64(WriteOptionU64(o) + rest) == Some(Decoded(o, rest))
  {
    var bs := WriteOptionU64(o) + rest;
    if o.Some? {
      assert bs[1..] == WriteU64(o.value) + rest;
      ReadWriteU64(o.value, rest);
    } else {
      assert bs[1..] == rest;
    }
  }

  // ---------------------------------------------------------------------
  // Category names: total size of a string vector's elements
  // ---------------------------------------------------------------------

  /** Bytes the strings occupy on the wire: a 4-byte length prefix plus the content of each. */
  function StringsSize(ss: seq<Bytes>): nat {
    if |ss| == 0 then 0 else 4 + |ss[0]| + StringsSize(ss[1..])
  }

  lemma {:induction false} WriteStringsSize(ss: seq<Bytes>)
    requires AllWireStrings(ss)
    ensures |WriteStrings(ss)| == StringsSize(ss)
  {
    if |ss| > 0 {
      assert AllWireStrings(ss[1..]) by {
        forall i | 0 <= i < |ss[1..]| ensures IsWireString(ss[1..][i]) {
          assert ss[1..][i] == ss[i + 1];
        }
      }
      WriteStringsSize(ss[1..]);
    }
  }

  /** Category names as `create_session` admits them: at most 5, each at most 32 bytes. */
  predicate CategoriesBounded(ss: seq<Bytes>) {
    |ss| <= MAX_CATEGORIES && forall i :: 0 <= i < |ss| ==> |ss[i]| <= MAX_CATEGORY_NAME_LEN
  }

  lemma {:induction false} StringsSizeBound(ss: seq<Bytes>, width: nat)
    requires forall i :: 0 <= i < |ss| ==> |ss[i]| <= width
    ensures StringsSize(ss) <= |ss| * (4 + width)
  {
    if |ss| > 0 {
      assert forall i :: 0 <= i < |ss[1..]| ==> |ss[1..][i]| <= width by {
        forall i | 0 <= i < |ss[1..]| ensures |ss[1..][i]| <= width {
          assert ss[1..][i] == ss[i + 1];
        }
      }
      StringsSizeBound(ss[1..], width);
    }
  }

  // ---------------------------------------------------------------------
  // Encoders (field order as declared) and their sizes
  // ---------------------------------------------------------------------

  /** The fields of `x` in declared order, followed by `rest`. */
  function EncodeTeamRegistryOnto(x: TeamRegistry, rest: Bytes): Bytes
  {
    WriteBool(x.isInitialized) + (
    WritePubkey(x.teamAuthority) + (
    WriteU64(x.sessionCount) + (
    WriteU8(x.bump) + rest)))
  }

  function EncodeTeamRegistry(x: TeamRegistry): (bs: Bytes)
    ensures |bs| == TEAM_REGISTRY_LEN == 42
  {
    EncodeTeamRegistryOnto(x, [])
  }

  /** The fields of `x` in declared order, followed by `rest`. */
  function EncodeRetroSessionOnto(x: RetroSession, rest: Bytes): Bytes
    requires SessionWritable(x)
  {
    WriteBool(x.isInitialized) + (
    WritePubkey(x.teamAuthority) + (
    WritePubkey(x.facilitator) + (
    WriteU64(x.sessionIndex) + (
    WriteStage(x.stage) + (
    WriteBool(x.closed) + (
    WriteStringVec(x.categories) + (
    WriteU8(x.maxNotesPerParticipant) + (
    WriteU8(x.votingCreditsPerParticipant) + (
    WriteBool(x.allowlistEnabled) + (
    WriteBool(x.openJoin) + (
    WriteU32(x.participantCount) + (
    WriteU64(x.noteCount) + (
    WriteU64(x.groupCount) + (
    WriteU64(x.createdAtSlot) + (
    WriteU64(x.stageChangedAtSlot) + (
    WriteU8(x.bump) + rest))))))))))))))))
  }

  /** A session whose strings can be written: each category name is a Rust `String`. */
  predicate SessionWritable(x: RetroSession) {
    |x.categories| < U32_LIMIT && AllWireStrings(x.categories)
  }

  function EncodeRetroSession(x: RetroSession): (bs: Bytes)
    requires SessionWritable(x)
  {
    EncodeRetroSessionOnto(x, [])
  }

  /**
   * The session's encoding is the base length plus the category names' own
   * bytes, so with the categories `create_session` admits it never exceeds the
   * reserved `MAX_LEN`; the largest admissible session takes 300 bytes, four
   * fewer than reserved, because the base length already counts the vector's
   * length prefix that `MAX_LEN` adds again.
   */
  lemma RetroSessionSize(x: RetroSession)
    requires SessionWritable(x)
    ensures |EncodeRetroSession(x)| == SESSION_BASE_LEN + StringsSize(x.categories)
    ensures CategoriesBounded(x.categories) ==> |EncodeRetroSession(x)| <= SESSION_MAX_LEN - 4
    ensures SESSION_BASE_LEN == 120 && SESSION_MAX_LEN == 304
  {
    WriteStringsSize(x.categories);
    if CategoriesBounded(x.categories) {
      StringsSizeBound(x.categories, MAX_CATEGORY_NAME_LEN);
    }
  }

  /** The fields of `x` in declared order, followed by `rest`. */
  function EncodeParticipantEntryOnto(x: ParticipantEntry, rest: Bytes): Bytes
  {
    WriteBool(x.isInitialized) + (
    WritePubkey(x.session) + (
    WritePubkey(x.participant) + (
    WriteBool(x.joined) + (
    WriteU8(x.notesSubmitted) + (
    WriteU8(x.creditsSpent) + (
    WriteU8(x.bump) + rest))))))
  }

  function EncodeParticipantEntry(x: ParticipantEntry): (bs: Bytes)
    ensures |bs| == PARTICIPANT_ENTRY_LEN == 69
  {
    EncodeParticipantEntryOnto(x, [])
  }

  /** The fields of `x` in declared order, followed by `rest`. */
  function EncodeAllowlistEntryOnto(x: AllowlistEntry, rest: Bytes): Bytes
  {
    WriteBool(x.isInitialized) + (
    WritePubkey(x.session) + (
    WritePubkey(x.participant) + (
    WriteBool(x.allowed) + (
    WriteU8(x.bump) + rest))))
  }

  function EncodeAllowlistEntry(x: AllowlistEntry): (bs: Bytes)
    ensures |bs| == ALLOWLIST_ENTRY_LEN == 67
  {
    EncodeAllowlistEntryOnto(x, [])
  }

  /** The fields of `x` in declared order, followed by `rest`. */
  function EncodeNoteOnto(x: Note, rest: Bytes): Bytes
    requires IsWireString(x.content)
  {
    WriteBool(x.isInitialized) + (
    WritePubkey(x.session) + (
    WriteU64(x.noteId) + (
    WritePubkey(x.author) + (
    WriteU8(x.categoryId) + (
    WriteString(x.content) + (
    WriteU64(x.createdAtSlot) + (
    WriteOptionU64(x.groupId) + (
    WriteU8(x.bump) + rest))))))))
  }

  /** Every note whose content fits the 280-byte limit fits `MAX_LEN`; a grouped note of exactly 280 bytes fills it. */
  function EncodeNote(x: Note): (bs: Bytes)
    requires IsWireString(x.content)
    ensures |x.content| <= MAX_NOTE_CHARS ==> |bs| <= NOTE_MAX_LEN
    ensures |x.content| == MAX_NOTE_CHARS && x.groupId.Some? ==> |bs| == NOTE_MAX_LEN == 376
  {
    EncodeNoteOnto(x, [])
  }

  /** The fields of `x` in declared order, followed by `rest`. */
  function EncodeGroupOnto(x: Group, rest: Bytes): Bytes
    requires IsWireString(x.title)
  {
    WriteBool(x.isInitialized) + (
    WritePubkey(x.session) + (
    WriteU64(x.groupId) + (
    WriteString(x.title) + (
    WritePubkey(x.createdBy) + (
    WriteU64(x.voteTally) + (
    WriteU8(x.bump) + rest))))))
  }

  /** Every group whose title fits the 80-byte limit fits `MAX_LEN`, exactly so at 80 bytes. */
  function EncodeGroup(x: Group): (bs: Bytes)
    requires IsWireString(x.title)
    ensures |x.title| <= MAX_GROUP_TITLE_CHARS <==> |bs| <= GROUP_MAX_LEN
    ensures |x.title| == MAX_GROUP_TITLE_CHARS ==> |bs| == GROUP_MAX_LEN == 166
  {
    EncodeGroupOnto(x, [])
  }

  /** The fields of `x` in declared order, followed by `rest`. */
  function EncodeVoteRecordOnto(x: VoteRecord, rest: Bytes): Bytes
  {
    WriteBool(x.isInitialized) + (
    WritePubkey(x.session) + (
    WritePubkey(x.participant) + (
    WriteU64(x.groupId) + (
    WriteU8(x.creditsSpent) + (
    WriteU8(x.bump) + rest)))))
  }

  function EncodeVoteRecord(x: VoteRecord): (bs: Bytes)
    ensures |bs| == VOTE_RECORD_LEN == 75
  {
    EncodeVoteRecordOnto(x, [])
  }

  // ---------------------------------------------------------------------
  // Decoders: each reads back exactly what its encoder wrote
  // ---------------------------------------------------------------------

  function DecodeTeamRegistry(bs: Bytes): (r: Option<Decoded<TeamRegistry>>)
    ensures r.Some? ==> bs == EncodeTeamRegistryOnto(r.value.value, r.value.rest)
  {
    var isInitialized :- ReadBool(bs);
    var teamAuthority :- ReadPubkey(isInitialized.rest);
    var sessionCount :- ReadU64(teamAuthority.rest);
    var bump :- ReadU8(sessionCount.rest);
    Some(Decoded(TeamRegistry(isInitialized.value, teamAuthority.value, sessionCount.value, bump.value), bump.rest))
  }

  lemma TeamRegistryRoundTrip(x: TeamRegistry, rest: Bytes)
    ensures DecodeTeamRegistry(EncodeTeamRegistryOnto(x, rest)) == Some(Decoded(x, rest))
  {
    var t3 := WriteU8(x.bump) + rest;
    var t2 := WriteU64(x.sessionCount) + t3;
    var t1 := WritePubkey(x.teamAuthority) + t2;
    ReadWriteBool(x.isInitialized, t1);
    ReadWritePubkey(x.teamAuthority, t2);
    ReadWriteU64(x.sessionCount, t3);
    ReadWriteU8(x.bump, rest);
  }

  function DecodeRetroSession(bs: Bytes): (r: Option<Decoded<RetroSession>>)
    ensures r.Some? ==> SessionWritable(r.value.value)
    ensures r.Some? ==> bs == EncodeRetroSessionOnto(r.value.value, r.value.rest)
  {
    var isInitialized :- ReadBool(bs);
    var teamAuthority :- ReadPubkey(isInitialized.rest);
    var facilitator :- ReadPubkey(teamAuthority.rest);
    var sessionIndex :- ReadU64(facilitator.rest);
    var stage :- ReadStage(sessionIndex.rest);
    var closed :- ReadBool(stage.rest);
    var categories :- ReadStringVec(closed.rest);
    var maxNotesPerParticipant :- ReadU8(categories.rest);
    var votingCreditsPerParticipant :- ReadU8(maxNotesPerParticipant.rest);
    var allowlistEnabled :- ReadBool(votingCreditsPerParticipant.rest);
    var openJoin :- ReadBool(allowlistEnabled.rest);
    var participantCount :- ReadU32(openJoin.rest);
    var noteCount :- ReadU64(participantCount.rest);
    var groupCount :- ReadU64(noteCount.rest);
    var createdAtSlot :- ReadU64(groupCount.rest);
    var stageChangedAtSlot :- ReadU64(createdAtSlot.rest);
    var bump :- ReadU8(stageChangedAtSlot.rest);
    Some(Decoded(RetroSession(isInitialized.value, teamAuthority.value, facilitator.value, sessionIndex.value, stage.value, closed.value, categories.value, maxNotesPerParticipant.value, votingCreditsPerParticipant.value, allowlistEnabled.value, openJoin.value, participantCount.value, noteCount.value, groupCount.value, createdAtSlot.value, stageChangedAtSlot.value, bump.value), bump.rest))
  }

  lemma RetroSessionRoundTrip(x: RetroSession, rest: Bytes)
    requires SessionWritable(x)
    ensures DecodeRetroSession(EncodeRetroSessionOnto(x, rest)) == Some(Decoded(x, rest))
  {
    var t16 := WriteU8(x.bump) + rest;
    var t15 := WriteU64(x.stageChangedAtSlot) + t16;
    var t14 := WriteU64(x.createdAtSlot) + t15;
    var t13 := WriteU64(x.groupCount) + t14;
    var t12 := WriteU64(x.noteCount) + t13;
    var t11 := WriteU32(x.participantCount) + t12;
    var t10 := WriteBool(x.openJoin) + t11;
    var t9 := WriteBool(x.allowlistEnabled) + t10;
    var t8 := WriteU8(x.votingCreditsPerParticipant) + t9;
    var t7 := WriteU8(x.maxNotesPerParticipant) + t8;
    var t6 := WriteStringVec(x.categories) + t7;
    var t5 := WriteBool(x.closed) + t6;
    var t4 := WriteStage(x.stage) + t5;
    var t3 := WriteU64(x.sessionIndex) + t4;
    var t2 := WritePubkey(x.facilitator) + t3;
    var t1 := WritePubkey(x.teamAuthority) + t2;
    ReadWriteBool(x.isInitialized, t1);
    ReadWritePubkey(x.teamAuthority, t2);
    ReadWritePubkey(x.facilitator, t3);
    ReadWriteU64(x.sessionIndex, t4);
    ReadWriteStage(x.stage, t5);
    ReadWriteBool(x.closed, t6);
    ReadWriteStringVec(x.categories, t7);
    ReadWriteU8(x.maxNotesPerParticipant, t8);
    ReadWriteU8(x.votingCreditsPerParticipant, t9);
    ReadWriteBool(x.allowlistEnabled, t10);
    ReadWriteBool(x.openJoin, t11);
    ReadWriteU32(x.participantCount, t12);
    ReadWriteU64(x.noteCount, t13);
    ReadWriteU64(x.groupCount, t14);
    ReadWriteU64(x.createdAtSlot, t15);
    ReadWriteU64(x.stageChangedAtSlot, t16);
    ReadWriteU8(x.bump, rest);
  }

  function DecodeParticipantEntry(bs: Bytes): (r: Option<Decoded<ParticipantEntry>>)
    ensures r.Some? ==> bs == EncodeParticipantEntryOnto(r.value.value, r.value.rest)
  {
    var isInitialized :- ReadBool(bs);
    var session :- ReadPubkey(isInitialized.rest);
    var participant :- ReadPubkey(session.rest);
    var joined :- ReadBool(participant.rest);
    var notesSubmitted :- ReadU8(joined.rest);
    var creditsSpent :- ReadU8(notesSubmitted.rest);
    var bump :- ReadU8(creditsSpent.rest);
    Some(Decoded(ParticipantEntry(isInitialized.value, session.value, participant.value, joined.value, notesSubmitted.value, creditsSpent.value, bump.value), bump.rest))
  }

  lemma ParticipantEntryRoundTrip(x: ParticipantEntry, rest: Bytes)
    ensures DecodeParticipantEntry(EncodeParticipantEntryOnto(x, rest)) == Some(Decoded(x, rest))
  {
    var t6 := WriteU8(x.bump) + rest;
    var t5 := WriteU8(x.creditsSpent) + t6;
    var t4 := WriteU8(x.notesSubmitted) + t5;
    var t3 := WriteBool(x.joined) + t4;
    var t2 := WritePubkey(x.participant) + t3;
    var t1 := WritePubkey(x.session) + t2;
    ReadWriteBool(x.isInitialized, t1);
    ReadWritePubkey(x.session, t2);
    ReadWritePubkey(x.participant, t3);
    ReadWriteBool(x.joined, t4);
    ReadWriteU8(x.notesSubmitted, t5);
    ReadWriteU8(x.creditsSpent, t6);
    ReadWriteU8(x.bump, rest);
  }

  function DecodeAllowlistEntry(bs: Bytes): (r: Option<Decoded<AllowlistEntry>>)
    ensures r.Some? ==> bs == EncodeAllowlistEntryOnto(r.value.value, r.value.rest)
  {
    var isInitialized :- ReadBool(bs);
    var session :- ReadPubkey(isInitialized.rest);
    var participant :- ReadPubkey(session.rest);
    var allowed :- ReadBool(participant.rest);
    var bump :- ReadU8(allowed.rest);
    Some(Decoded(AllowlistEntry(isInitialized.value, session.value, participant.value, allowed.value, bump.value), bump.rest))
  }

  lemma AllowlistEntryRoundTrip(x: AllowlistEntry, rest: Bytes)
    ensures DecodeAllowlistEntry(EncodeAllowlistEntryOnto(x, rest)) == Some(Decoded(x, rest))
  {
    var t4 := WriteU8(x.bump) + rest;
    var t3 := WriteBool(x.allowed) + t4;
    var t2 := WritePubkey(x.participant) + t3;
    var t1 := WritePubkey(x.session) + t2;
    ReadWriteBool(x.isInitialized, t1);
    ReadWritePubkey(x.session, t2);
    ReadWritePubkey(x.participant, t3);
    ReadWriteBool(x.allowed, t4);
    ReadWriteU8(x.bump, rest);
  }

  function DecodeNote(bs: Bytes): (r: Option<Decoded<Note>>)
    ensures r.Some? ==> IsWireString(r.value.value.content)
    ensures r.Some? ==> bs == EncodeNoteOnto(r.value.value, r.value.rest)
  {
    var isInitialized :- ReadBool(bs);
    var session :- ReadPubkey(isInitialized.rest);
    var noteId :- ReadU64(session.rest);
    var author :- ReadPubkey(noteId.rest);
    var categoryId :- ReadU8(author.rest);
    var content :- ReadString(categoryId.rest);
    var createdAtSlot :- ReadU64(content.rest);
    var groupId :- ReadOptionU64(createdAtSlot.rest);
    var bump :- ReadU8(groupId.rest);
    Some(Decoded(Note(isInitialized.value, session.value, noteId.value, author.value, categoryId.value, content.value, createdAtSlot.value, groupId.value, bump.value), bump.rest))
  }

  lemma NoteRoundTrip(x: Note, rest: Bytes)
    requires IsWireString(x.content)
    ensures DecodeNote(EncodeNoteOnto(x, rest)) == Some(Decoded(x, rest))
  {
    var t8 := WriteU8(x.bump) + rest;
    var t7 := WriteOptionU64(x.groupId) + t8;
    var t6 := WriteU64(x.createdAtSlot) + t7;
    var t5 := WriteString(x.content) + t6;
    var t4 := WriteU8(x.categoryId) + t5;
    var t3 := WritePubkey(x.author) + t4;
    var t2 := WriteU64(x.noteId) + t3;
    var t1 := WritePubkey(x.session) + t2;
    ReadWriteBool(x.isInitialized, t1);
    ReadWritePubkey(x.session, t2);
    ReadWriteU64(x.noteId, t3);
    ReadWritePubkey(x.author, t4);
    ReadWriteU8(x.categoryId, t5);
    ReadWriteString(x.content, t6);
    ReadWriteU64(x.createdAtSlot, t7);
    ReadWriteOptionU64(x.groupId, t8);
    ReadWriteU8(x.bump, rest);
  }

  function DecodeGroup(bs: Bytes): (r: Option<Decoded<Group>>)
    ensures r.Some? ==> IsWireString(r.value.value.title)
    ensures r.Some? ==> bs == EncodeGroupOnto(r.value.value, r.value.rest)
  {
    var isInitialized :- ReadBool(bs);
    var session :- ReadPubkey(isInitialized.rest);
    var groupId :- ReadU64(session.rest);
    var title :- ReadString(groupId.rest);
    var createdBy :- ReadPubkey(title.rest);
    var voteTally :- ReadU64(createdBy.rest);
    var bump :- ReadU8(voteTally.rest);
    Some(Decoded(Group(isInitialized.value, session.value, groupId.value, title.value, createdBy.value, voteTally.value, bump.value), bump.rest))
  }

  lemma GroupRoundTrip(x: Group, rest: Bytes)
    requires IsWireString(x.title)
    ensures DecodeGroup(EncodeGroupOnto(x, rest)) == Some(Decoded(x, rest))
  {
    var t6 := WriteU8(x.bump) + rest;
    var t5 := WriteU64(x.voteTally) + t6;
    var t4 := WritePubkey(x.createdBy) + t5;
    var t3 := WriteString(x.title) + t4;
    var t2 := WriteU64(x.groupId) + t3;
    var t1 := WritePubkey(x.session) + t2;
    ReadWriteBool(x.isInitialized, t1);
    ReadWritePubkey(x.session, t2);
    ReadWriteU64(x.groupId, t3);
    ReadWriteString(x.title, t4);
    ReadWritePubkey(x.createdBy, t5);
    ReadWriteU64(x.voteTally, t6);
    ReadWriteU8(x.bump, rest);
  }

  function DecodeVoteRecord(bs: Bytes): (r: Option<Decoded<VoteRecord>>)
    ensures r.Some? ==> bs == EncodeVoteRecordOnto(r.value.value, r.value.rest)
  {
    var isInitialized :- ReadBool(bs);
    var session :- ReadPubkey(isInitialized.rest);
    var participant :- ReadPubkey(session.rest);
    var groupId :- ReadU64(participant.rest);
    var creditsSpent :- ReadU8(groupId.rest);
    var bump :- ReadU8(creditsSpent.rest);
    Some(Decoded(VoteRecord(isInitialized.value, session.value, participant.value, groupId.value, creditsSpent.value, bump.value), bump.rest))
  }

  lemma VoteRecordRoundTrip(x: VoteRecord, rest: Bytes)
    ensures DecodeVoteRecord(EncodeVoteRecordOnto(x, rest)) == Some(Decoded(x, rest))
  {
    var t5 := WriteU8(x.bump) + rest;
    var t4 := WriteU8(x.creditsSpent) + t5;
    var t3 := WriteU64(x.groupId) + t4;
    var t2 := WritePubkey(x.participant) + t3;
    var t1 := WritePubkey(x.session) + t2;
    ReadWriteBool(x.isInitialized, t1);
    ReadWritePubkey(x.session, t2);
    ReadWritePubkey(x.participant, t3);
    ReadWriteU64(x.groupId, t4);
    ReadWriteU8(x.creditsSpent, t5);
    ReadWriteU8(x.bump, rest);
  }
}

=== FILE: utf8.dfy ===
/**
 * Well-formed UTF-8, as Rust's `String::from_utf8` accepts it (Table 3-7 of
 * the Unicode Standard, RFC 3629). Borsh decodes every `String` field through
 * that check, so a payload whose string bytes are not UTF-8 is rejected.
 */
module Utf8 {
  import opened Primitives

  predicate IsContinuation(b: Byte) {
    0x80 <= b <= 0xBF
  }

  /**
   * The length (1 to 4) of the well-formed code-unit sequence that starts
   * `bs`, or 0 when `bs` does not start with one.
   */
  function LeadingSequenceLength(bs: Bytes): (n: nat)
    requires |bs| > 0
    ensures n <= 4 && n <= |bs|
    ensures n == 1 <==> bs[0] <= 0x7F
  {
    var b0 := bs[0];
    if b0 <= 0x7F then 1
    else if 0xC2 <= b0 <= 0xDF then
      if |bs| >= 2 && IsContinuation(bs[1]) then 2 else 0
    else if 0xE0 <= b0 <= 0xEF then
      var lo := if b0 == 0xE0 then 0xA0 else 0x80;
      var hi := if b0 == 0xED then 0x9F else 0xBF;
      if |bs| >= 3 && lo <= bs[1] <= hi && IsContinuation(bs[2]) then 3 else 0
    else if 0xF0 <= b0 <= 0xF4 then
      var lo := if b0 == 0xF0 then 0x90 else 0x80;
      var hi := if b0 == 0xF4 then 0x8F else 0xBF;
      if |bs| >= 4 && lo <= bs[1] <= hi && IsContinuation(bs[2]) && IsContinuation(bs[3]) then 4 else 0
    else 0
  }

  /** True iff `bs` is a concatenation of well-formed UTF-8 sequences. */
  predicate ValidUtf8(bs: Bytes)
    decreases |bs|
  {
    if |bs| == 0 then true
    else
      var n := LeadingSequenceLength(bs);
      n > 0 && ValidUtf8(bs[n..])
  }

  /** Every ASCII string is valid UTF-8. */
  lemma {:induction false} AsciiIsValid(bs: Bytes)
    requires forall i :: 0 <= i < |bs| ==> bs[i] <= 0x7F
    ensures ValidUtf8(bs)
    decreases |bs|
  {
    if |bs| > 0 {
      AsciiIsValid(bs[1..]);
    }
  }
}

=== FILE: wrappers.dfy ===
/** Failure-compatible Option and Result types shared by every module of the model. */
module Wrappers {

  /** An optional value: Rust's `Option<T>`. */
  datatype Option<+T> = None | Some(value: T) {

    predicate IsFailure() {
      None?
    }

    function PropagateFailure<U>(): Option<U>
      requires None?
    {
      None
    }

    function Extract(): T
      requires Some?
    {
      value
    }

    /** Rust's `unwrap_or`. */
    function GetOr(default: T): (r: T)
      ensures Some? ==> r == value
      ensures None? ==> r == default
    {
      match this
      case Some(v) => v
      case None => default
    }
  }

  /** Rust's `Result<T, E>`. */
  datatype Result<+T, +E> = Ok(value: T) | Err(error: E) {

    predicate IsFailure() {
      Err?
    }

    function PropagateFailure<U>(): Result<U, E>
      requires Err?
    {
      Err(error)
    }

    function Extract(): T
      requires Ok?
    {
      value
    }
  }
}
